=== FILE: README.md ===
# Boober deployment-specification core, modelled in Dafny

Boober is the Aurora platform's deployment service: it reads an *AuroraConfig* (a set of
JSON/YAML files layered as global `about`, base, an optional include, environment `about`
and `environment/application`), resolves a deployment specification from the fields those
layers set, lets each *feature* contribute configuration handlers, validation,
generated OpenShift resources and in-place modifications to resources that other features
generated, and finally turns the resources into create/update/delete commands against
the cluster.

This project models that core:

- `aurora_config.dfy` — the AuroraConfig file set: application references, the layered
  file lookup with its error messages, `updateFile` with its optimistic versioning, and
  `patchFile`'s lookup and failure.
- `mapping_functions.dfy`, `config_mapper_v1.dfy` — the version-1 configuration handlers:
  sub-key discovery across layers, `config/...` handlers, mounts, route annotation
  handlers, the name/affiliation patterns, and the group, user and secret-folder checks.
- `patterns.dfy` — the anchored character-class patterns those validators use: their
  structure, the text they are written as, and the texts they accept.
- `collection_utils.dfy` — the Kotlin collection helpers, including label normalisation
  (as a loop over the label text) and `deepSet` on nested maps.
- `environment_feature.dfy`, `route_feature.dfy`, `secret_vault_feature.dfy`,
  `bigip_feature.dfy`, `sts_feature.dfy`, `operation_scope_feature.dfy`,
  `local_template_feature.dfy`, `local_template_mapper.dfy` — the features named by their
  files: handlers, validation, generation and `modify`.
- `command_service.dfy` — ordering of objects for a paused deployment, the image-stream
  import, create/update command choice, route recreation and response error messages.
- `resource_provisioner.dfy` — the database-schema and vault requests a spec leads to.
- `spec_renderer.dfy` — the textual rendering of a deployment specification, with its
  column widths.
- `storage_grid.dfy` — the `StorageGridObjectArea` resource, its reason decoding and its
  accessors.
- Shared vocabulary: `wrappers.dfy` (Option, Result), `strings.dfy`, `lists.dfy`,
  `json_tree.dfy` (the JSON values Jackson exposes), `field_handlers.dfy` (configuration
  handlers and validators), `deployment_spec.dfy` (the resolved fields of a deployment)
  and `resources.dfy` (generated resources, and the mutable resource set that `modify`
  works on).

Whatever the core reaches outside itself — the cluster, the vault, the group and user
directories, the schema provisioner, the clock, hashing and base64 — is a function
parameter of the member that uses it, so every property holds for any answer those
services give.

## Model

| member | source | states |
|---|---|---|
| AuroraConfigModel.NewFile | src/main/kotlin/no/skatteetaten/aurora/boober/model/AuroraConfig.kt:90 | a written file carries the name and contents given, is no override and has no type hint |
| AuroraConfigModel.RefOf | src/main/kotlin/no/skatteetaten/aurora/boober/model/AuroraConfig.kt:43 | destructuring `split("/")`: the environment is the text up to the first `/` and the application the whole piece after it, up to the next `/` or the end; neither holds `/` |
| AuroraConfigModel.RefOfJoin | src/main/kotlin/no/skatteetaten/aurora/boober/model/AuroraConfig.kt:41-43 | a name `e/a` or `e/a/…` (with `e`, `a` free of `/`) gives back exactly the reference `(e, a)` |
| AuroraConfigModel.GetApplicationDeploymentRefs | src/main/kotlin/no/skatteetaten/aurora/boober/model/AuroraConfig.kt:38-44 | in file order, one reference per extension-less name that has a folder, does not contain `about` and does not start with `templates`, each name split into its reference |
| AuroraConfigModel.ApplicationRefsMembers | src/main/kotlin/no/skatteetaten/aurora/boober/model/AuroraConfig.kt:38-44 | a reference is returned iff some file's extension-less name is an application file name splitting into it; at most one per file |
| AuroraConfigModel.GetApplicationFile | src/main/kotlin/no/skatteetaten/aurora/boober/model/AuroraConfig.kt:126-130 | the first non-override file named `env/app` with any extension; the error `Should find applicationFile env/app.(json\|yaml)` iff there is none |
| AuroraConfigModel.FindEnvFile | src/main/kotlin/no/skatteetaten/aurora/boober/model/AuroraConfig.kt:144-148 | found iff some non-override file in the environment's folder has `envFile` as its extension-less name; the result is the contents of the first such file; otherwise the "Should find envFile" error |
| AuroraConfigModel.LayerSpecs | src/main/kotlin/no/skatteetaten/aurora/boober/model/AuroraConfig.kt:150-168 | the layers in insertion order: global `about`, base, the included about file when present, the environment file, the application file; four or five specs, all distinct |
| AuroraConfigModel.FindFileSpec | src/main/kotlin/no/skatteetaten/aurora/boober/model/AuroraConfig.kt:132-169 | each error case in order: missing application file, `envFile must start with about`, missing environment file, `included envFile must start with about`; otherwise the layers, with `baseFile` and `envFile` read from the application file and their defaults |
| AuroraConfigModel.FindLayer | src/main/kotlin/no/skatteetaten/aurora/boober/model/AuroraConfig.kt:72-76 | nothing iff no file's extension-less name is the spec's name; otherwise the first such file, tagged with the spec's type |
| AuroraConfigModel.FindFiles | src/main/kotlin/no/skatteetaten/aurora/boober/model/AuroraConfig.kt:68-77 | each spec is paired, position by position, with its layer |
| AuroraConfigModel.MissingSpecs | src/main/kotlin/no/skatteetaten/aurora/boober/model/AuroraConfig.kt:56 | a spec is listed iff it is a spec without a layer |
| AuroraConfigModel.DescribeSpecs | src/main/kotlin/no/skatteetaten/aurora/boober/model/AuroraConfig.kt:58-60 | each missing spec is described as `<TYPE> file with name <name>` |
| AuroraConfigModel.NothingMissingAllFound | src/main/kotlin/no/skatteetaten/aurora/boober/model/AuroraConfig.kt:56-64 | when no spec is missing, every spec has a layer |
| AuroraConfigModel.GetFilesForApplication | src/main/kotlin/no/skatteetaten/aurora/boober/model/AuroraConfig.kt:46-66 | a spec error is passed on; missing layers give the one error that names them all; otherwise the layers in spec order, followed by the override files that match a spec |
| AuroraConfigModel.LayersThenOverrides | src/main/kotlin/no/skatteetaten/aurora/boober/model/AuroraConfig.kt:64-65 | with nothing missing, the first results are the layers, one per spec and in spec order, and the overrides follow unchanged |
| AuroraConfigModel.FindFile | src/main/kotlin/no/skatteetaten/aurora/boober/model/AuroraConfig.kt:79 | nothing iff no file has exactly that name; otherwise the first such file |
| AuroraConfigModel.UpdateFile | src/main/kotlin/no/skatteetaten/aurora/boober/model/AuroraConfig.kt:81-103 | an unknown name is appended; a version mismatch gives the versioning error; otherwise the first file with that name is replaced in place and the others are kept; the config keeps its name and version |
| AuroraConfigModel.PatchFile | src/main/kotlin/no/skatteetaten/aurora/boober/model/AuroraConfig.kt:105-124 | a missing file gives `No such file <f> in AuroraConfig <name>`; otherwise the result of writing the patched contents under the same name |
| AuroraConfigModel.UpdateThenFind | src/main/kotlin/no/skatteetaten/aurora/boober/model/AuroraConfig.kt:79-103 | after a successful write, `findFile` finds the new file under its name, every other name finds what it found before, and at most one file was added |
| AuroraConfigModel.AppendedThenFind | src/main/kotlin/no/skatteetaten/aurora/boober/model/AuroraConfig.kt:92-93 | appending a file with a new name makes it findable and changes no other lookup |
| AuroraConfigModel.ReplacedThenFind | src/main/kotlin/no/skatteetaten/aurora/boober/model/AuroraConfig.kt:94-100 | replacing the first file with a name makes the new file findable and changes no other lookup |
| CollectionUtils.MapAddPair | src/main/kotlin/no/skatteetaten/aurora/boober/utils/CollectionUtils.kt:3-7 | no pair leaves the map unchanged; otherwise the pair's key is added, the pair's value wins, and every other entry is kept |
| CollectionUtils.MapAddMap | src/main/kotlin/no/skatteetaten/aurora/boober/utils/CollectionUtils.kt:9-13 | no map leaves the receiver unchanged; otherwise the keys are the union, the added map wins on shared keys, and the other entries are kept |
| CollectionUtils.SetAddElement | src/main/kotlin/no/skatteetaten/aurora/boober/utils/CollectionUtils.kt:15-19 | the members are the receiver's plus the element when present; the receiver stays first and in order; a set stays a set |
| CollectionUtils.SetAddAll | src/main/kotlin/no/skatteetaten/aurora/boober/utils/CollectionUtils.kt:65-69 | no set leaves the receiver unchanged; otherwise a set whose members are those of both |
| CollectionUtils.SetAddAllKeepsReceiver | src/main/kotlin/no/skatteetaten/aurora/boober/utils/CollectionUtils.kt:65-69 | adding a set keeps the receiver's elements first and in their order |
| CollectionUtils.ListAddElement | src/main/kotlin/no/skatteetaten/aurora/boober/utils/CollectionUtils.kt:71-75 | a present element is appended at the end; an absent one changes nothing |
| CollectionUtils.ListAddAll | src/main/kotlin/no/skatteetaten/aurora/boober/utils/CollectionUtils.kt:77-81 | a present list is appended after the receiver; an absent one changes nothing |
| CollectionUtils.AddIf | src/main/kotlin/no/skatteetaten/aurora/boober/utils/CollectionUtils.kt:83 | the value is appended iff the condition holds |
| CollectionUtils.AddIfAll | src/main/kotlin/no/skatteetaten/aurora/boober/utils/CollectionUtils.kt:85 | the values are appended iff the condition holds |
| CollectionUtils.AddIfNotNullIsAddIf | src/main/kotlin/no/skatteetaten/aurora/boober/utils/CollectionUtils.kt:71-85 | each `addIfNotNull` on a list is `addIf` on whether the argument is present |
| CollectionUtils.MapNullOnEmpty | src/main/kotlin/no/skatteetaten/aurora/boober/utils/CollectionUtils.kt:87-96 | null iff the map is null or empty; otherwise the map itself |
| CollectionUtils.NullOnEmpty | src/main/kotlin/no/skatteetaten/aurora/boober/utils/CollectionUtils.kt:98-107 | null iff the collection is null or empty; otherwise the collection itself |
| CollectionUtils.TakeIfNotEmptyIsNullOnEmpty | src/main/kotlin/no/skatteetaten/aurora/boober/utils/CollectionUtils.kt:119-125 | `takeIfNotEmpty` equals `nullOnEmpty` on every input, for maps and for collections |
| CollectionUtils.FilterNullValues | src/main/kotlin/no/skatteetaten/aurora/boober/utils/CollectionUtils.kt:109-117 | the loop leaves exactly the entries with a value, in iteration order |
| CollectionUtils.PresentEntriesMembers | src/main/kotlin/no/skatteetaten/aurora/boober/utils/CollectionUtils.kt:109-117 | an entry (k, v) is in the result iff the input maps k to a present v |
| CollectionUtils.PresentEntriesAllPresent | src/main/kotlin/no/skatteetaten/aurora/boober/utils/CollectionUtils.kt:109-117 | when every value is present, the result is the input read left to right, value by value |
| CollectionUtils.LabelTail | src/main/kotlin/no/skatteetaten/aurora/boober/utils/CollectionUtils.kt:34-36 | the last 63 characters, or all of them when the value is shorter |
| CollectionUtils.StripUntilLabel | src/main/kotlin/no/skatteetaten/aurora/boober/utils/CollectionUtils.kt:37-41 | the result matches the label pattern and is a suffix of the input |
| CollectionUtils.StripUntilLabelLongest | src/main/kotlin/no/skatteetaten/aurora/boober/utils/CollectionUtils.kt:37-41 | no longer suffix matches the pattern: the loop stops at the first match |
| CollectionUtils.ToOpenShiftSafeLabel | src/main/kotlin/no/skatteetaten/aurora/boober/utils/CollectionUtils.kt:33-43 | the loop terminates and computes the safe label of the value |
| CollectionUtils.SafeLabelProperties | src/main/kotlin/no/skatteetaten/aurora/boober/utils/CollectionUtils.kt:26-43 | a safe label matches the pattern, has at most 63 characters, is a suffix of the value, and is the longest matching suffix of the 63-character tail |
| CollectionUtils.SafeLabelKeepsLegal | src/main/kotlin/no/skatteetaten/aurora/boober/utils/CollectionUtils.kt:32-43 | a legal label of at most 63 characters is kept as it is |
| CollectionUtils.SafeLabelTrailingSymbol | src/main/kotlin/no/skatteetaten/aurora/boober/utils/CollectionUtils.kt:37-41 | a value that ends in a non-alphanumeric character becomes the empty label |
| CollectionUtils.NormalizeLabels | src/main/kotlin/no/skatteetaten/aurora/boober/utils/CollectionUtils.kt:21-47 | the keys are kept and each value is replaced by its safe label |
| CollectionUtils.NormalizedValue | src/main/kotlin/no/skatteetaten/aurora/boober/utils/CollectionUtils.kt:44 | the normalised map holds the safe label of each key's value |
| CollectionUtils.DeepSet | src/main/kotlin/no/skatteetaten/aurora/boober/utils/CollectionUtils.kt:49-63 | an empty path merges the entries into the map; otherwise only the first key of the path is added or replaced, and every other entry is kept |
| CollectionUtils.DeepSetThenDescend | src/main/kotlin/no/skatteetaten/aurora/boober/utils/CollectionUtils.kt:49-63 | after a successful `deepSet`, the map at the end of the path exists, holds every written entry, and keeps every entry it had that was not overwritten |
| CollectionUtils.DeepSetFailsIff | src/main/kotlin/no/skatteetaten/aurora/boober/utils/CollectionUtils.kt:60 | `deepSet` fails iff some step of the path already holds a value that is not a map (the cast that throws) |
| CollectionUtils.NothingBlocksFresh | src/main/kotlin/no/skatteetaten/aurora/boober/utils/CollectionUtils.kt:58-62 | writing below a freshly created empty map never fails |
| MappingFunctions.SubKeysOfFile | src/main/kotlin/no/skatteetaten/aurora/boober/mapper/v1/mappingFunctions.kt:8-12 | a file without the key contributes nothing; otherwise the field names under it |
| MappingFunctions.AllSubKeys | src/main/kotlin/no/skatteetaten/aurora/boober/mapper/v1/mappingFunctions.kt:7-12 | a key is listed iff some file has it under `name` |
| MappingFunctions.AllSubKeysConcat | src/main/kotlin/no/skatteetaten/aurora/boober/mapper/v1/mappingFunctions.kt:7 | the `flatMap` over two lists of layers is the concatenation of the two |
| MappingFunctions.FindSubKeys | src/main/kotlin/no/skatteetaten/aurora/boober/mapper/v1/mappingFunctions.kt:6-14 | no key twice, and a key is present iff some file has it under `name` |
| MappingFunctions.FindSubKeysAbsorbs | src/main/kotlin/no/skatteetaten/aurora/boober/mapper/v1/mappingFunctions.kt:6-14 | adding layers that bring no new sub-key changes nothing, order included |
| MappingFunctions.FindSubKeysSkipsFileWithoutKey | src/main/kotlin/no/skatteetaten/aurora/boober/mapper/v1/mappingFunctions.kt:8-12 | a layer without the key can be appended without effect |
| MappingFunctions.FindSubKeysIdempotent | src/main/kotlin/no/skatteetaten/aurora/boober/mapper/v1/mappingFunctions.kt:13 | repeating the layers does not repeat their sub-keys |
| MappingFunctions.AllFieldsAt | src/main/kotlin/no/skatteetaten/aurora/boober/mapper/v1/mappingFunctions.kt:23-25 | a field is listed iff some file has it in the node at the path; a missing node contributes nothing |
| MappingFunctions.FieldsAt | src/main/kotlin/no/skatteetaten/aurora/boober/mapper/v1/mappingFunctions.kt:23-25 | no field twice, and a field is present iff some file has it at the path |
| MappingFunctions.ConfigFields | src/main/kotlin/no/skatteetaten/aurora/boober/mapper/v1/mappingFunctions.kt:21-28 | the fields of `config/<key>`: the union over all layers, each once |
| MappingFunctions.FieldHandlersFor | src/main/kotlin/no/skatteetaten/aurora/boober/mapper/v1/mappingFunctions.kt:35-37 | one plain handler `prefix + field` per field, in order |
| MappingFunctions.ConfigKeyHandlers | src/main/kotlin/no/skatteetaten/aurora/boober/mapper/v1/mappingFunctions.kt:30-39 | a key without fields gives the one handler `config/<key>`; otherwise one handler `config/<key>/<field>` per field |
| MappingFunctions.ConfigHandlersFor | src/main/kotlin/no/skatteetaten/aurora/boober/mapper/v1/mappingFunctions.kt:30-39 | a handler is produced iff it belongs to one of the keys |
| MappingFunctions.FindConfigFieldHandlers | src/main/kotlin/no/skatteetaten/aurora/boober/mapper/v1/mappingFunctions.kt:16-40 | a handler is produced iff it belongs to some config sub-key that a layer uses |
| MappingFunctions.ConfigKeyHandlersPresent | src/main/kotlin/no/skatteetaten/aurora/boober/mapper/v1/mappingFunctions.kt:30-39 | for every config sub-key: without fields the bare `config/<key>` handler is there, and with fields every `config/<key>/<field>` handler is there |
| ConfigMapperV1.V1ConfigKeyHandlers | src/main/kotlin/no/skatteetaten/aurora/boober/mapper/v1/AuroraConfigMapperV1.kt:72-76 | one plain handler `config/<key>/<field>` per field of the key, in order, and none for a key without fields |
| ConfigMapperV1.V1ConfigHandlersSkipEmpty | src/main/kotlin/no/skatteetaten/aurora/boober/mapper/v1/AuroraConfigMapperV1.kt:58-77 | the V1 config handlers are the shared discovery run on the config keys that have fields |
| ConfigMapperV1.V1ConfigHandlersDropEmptyKeys | src/main/kotlin/no/skatteetaten/aurora/boober/mapper/v1/AuroraConfigMapperV1.kt:58-77 | V1's discovery differs from the shared one only on config keys without fields: it drops them, and when every key has fields the two agree |
| ConfigMapperV1.RouteAnnotationKeys | src/main/kotlin/no/skatteetaten/aurora/boober/mapper/v1/AuroraConfigMapperV1.kt:82-84 | no key twice, and a key is present iff some file declares it under `route/annotations` |
| ConfigMapperV1.FindRouteAnnotationHandlersV1 | src/main/kotlin/no/skatteetaten/aurora/boober/mapper/v1/AuroraConfigMapperV1.kt:80-87 | one plain handler `route/annotations/<key>` per annotation key, in order of first use |
| ConfigMapperV1.MountHandlers | src/main/kotlin/no/skatteetaten/aurora/boober/mapper/v1/AuroraConfigMapperV1.kt:94-102 | seven handlers under `mounts/<mount>/`: `path` required with "Path is required for mount", `type` one of the mount types, `mountName` and `volumeName` defaulting to the mount's name, `exist` defaulting to `false`, `content` and `secretFolder` plain; only the three defaulted ones have defaults and only the first two validate |
| ConfigMapperV1.MountHandlersFor | src/main/kotlin/no/skatteetaten/aurora/boober/mapper/v1/AuroraConfigMapperV1.kt:93-104 | the handlers of each mount occupy seven consecutive places, in mount order |
| ConfigMapperV1.FindMounts | src/main/kotlin/no/skatteetaten/aurora/boober/mapper/v1/AuroraConfigMapperV1.kt:89-105 | seven handlers per mount name, in the order the names are first used |
| ConfigMapperV1.FindParameters | src/main/kotlin/no/skatteetaten/aurora/boober/mapper/v1/AuroraConfigMapperV1.kt:107-114 | one plain handler `parameters/<key>` per parameter key, in order of first use |
| ConfigMapperV1.DiscoveredHandlersContents | src/main/kotlin/no/skatteetaten/aurora/boober/mapper/v1/AuroraConfigMapperV1.kt:21-26 | the scanned handlers are, in order, a plain `route/annotations/<key>` per annotation key, the config-field handlers, the seven handlers of each mount in mount order, and a plain `parameters/<key>` per parameter key |
| ConfigMapperV1.V1Handlers | src/main/kotlin/no/skatteetaten/aurora/boober/mapper/v1/AuroraConfigMapperV1.kt:27-43 | the base handlers come first, then the discovered ones, then the fifteen fixed ones, each group kept intact |
| ConfigMapperV1.GetRouteV1 | src/main/kotlin/no/skatteetaten/aurora/boober/mapper/v1/AuroraConfigMapperV1.kt:45-56 | a route exists iff `route/generate` reads `true`, a host or a path is set, or some annotation key is declared; it carries the host and path, and exactly the declared annotations that have a value |
| ConfigMapperV1.Rejected | src/main/kotlin/no/skatteetaten/aurora/boober/mapper/v1/AuroraConfigMapperV1.kt:132-133 | each space-separated name once, and exactly those the check rejects |
| ConfigMapperV1.ValidateGroupsVerdict | src/main/kotlin/no/skatteetaten/aurora/boober/mapper/v1/AuroraConfigMapperV1.kt:127-138 | not required and no text: valid; otherwise valid iff every space-separated group is valid, else the error names exactly the rejected groups |
| ConfigMapperV1.ValidateGroups | src/main/kotlin/no/skatteetaten/aurora/boober/mapper/v1/AuroraConfigMapperV1.kt:127-138 | required and missing or blank text: `Groups must be set`; it throws (the null `textValue()`) iff required and present but not text |
| ConfigMapperV1.ValidateUsers | src/main/kotlin/no/skatteetaten/aurora/boober/mapper/v1/AuroraConfigMapperV1.kt:140-147 | valid iff the value is absent, not text, or every user is valid; otherwise the error names the rejected users |
| ConfigMapperV1.ValidateSecrets | src/main/kotlin/no/skatteetaten/aurora/boober/mapper/v1/AuroraConfigMapperV1.kt:149-163 | never throws; an error iff the value is text naming a folder without secrets, and the error names the folder |
| ConfigMapperV1.PatternLengths | src/main/kotlin/no/skatteetaten/aurora/boober/mapper/v1/AuroraConfigMapperV1.kt:27-29 | every affiliation the pattern accepts has 1 to 24 letters, every name 2 to 25 characters |
| ConfigMapperV1.PatternExamples | src/main/kotlin/no/skatteetaten/aurora/boober/mapper/v1/AuroraConfigMapperV1.kt:27-29 | the patterns accept a 24-letter affiliation and a 25-character name, more than their messages allow, and reject a one-letter name |
| ConfigMapperV1.AffiliationPatternText | src/main/kotlin/no/skatteetaten/aurora/boober/mapper/v1/AuroraConfigMapperV1.kt:27 | the `affiliation` handler validates with the pattern written `^[a-z]{0,23}[a-z]$` and its message |
| ConfigMapperV1.NamePatternText | src/main/kotlin/no/skatteetaten/aurora/boober/mapper/v1/AuroraConfigMapperV1.kt:29 | the `name` handler validates with the pattern written `^[a-z][-a-z0-9]{0,23}[a-z0-9]$` and its message |
| ConfigMapperV1.AffiliationPatternMeaning | src/main/kotlin/no/skatteetaten/aurora/boober/mapper/v1/AuroraConfigMapperV1.kt:27 | the affiliation pattern accepts a text iff it is 1 to 24 lower-case letters |
| ConfigMapperV1.NamePatternMeaning | src/main/kotlin/no/skatteetaten/aurora/boober/mapper/v1/AuroraConfigMapperV1.kt:29 | the name pattern accepts a text iff it has 2 to 25 characters, starts with a lower-case letter, ends with a lower-case letter or digit, and holds only those and `-` between |
| Patterns.MatchesStep | src/main/kotlin/no/skatteetaten/aurora/boober/mapper/v1/AuroraConfigMapperV1.kt:27-29 | an anchored pattern matches iff its first class takes between its least and greatest count of characters of the class and the rest of the pattern matches what follows |
| Patterns.MatchesOne | src/main/kotlin/no/skatteetaten/aurora/boober/mapper/v1/AuroraConfigMapperV1.kt:27-29 | a single bracketed class matches exactly one character of the class |
| Patterns.MatchesFromIff | src/main/kotlin/no/skatteetaten/aurora/boober/mapper/v1/AuroraConfigMapperV1.kt:27-29 | trying the counts from `k` upward finds a match iff some count from `k` to the greatest works |
| EnvironmentFeature.EnvTtl | src/main/kotlin/no/skatteetaten/aurora/boober/feature/EnvironmentFeature.kt:28-33 | a TTL exists iff `env/ttl` is set |
| EnvironmentFeature.TtlLabel | src/main/kotlin/no/skatteetaten/aurora/boober/feature/EnvironmentFeature.kt:69-72 | the `removeAfter` label exists iff `env/ttl` is set, and holds the current epoch second plus the TTL |
| EnvironmentFeature.GenerateNamespace | src/main/kotlin/no/skatteetaten/aurora/boober/feature/EnvironmentFeature.kt:68-80 | a namespace named after the spec's namespace, labelled `affiliation` and, with a TTL, `removeAfter`, and no other label; each value is the safe label of its input |
| EnvironmentFeature.NamespaceLabels | src/main/kotlin/no/skatteetaten/aurora/boober/feature/EnvironmentFeature.kt:76 | normalising the labels keeps exactly `affiliation` (and `removeAfter` with a TTL) and makes each value safe |
| EnvironmentFeature.AffiliationLabelKeys | src/main/kotlin/no/skatteetaten/aurora/boober/feature/EnvironmentFeature.kt:76 | the affiliation map with the TTL pair added has exactly those keys and values |
| EnvironmentFeature.ExtractPermissions | src/main/kotlin/no/skatteetaten/aurora/boober/feature/EnvironmentFeature.kt:82-93 | the admin groups and service accounts come from `permissions/admin` and `permissions/adminServiceAccount`; a view permission exists iff `permissions/view` names some group |
| EnvironmentFeature.UserSubjects | src/main/kotlin/no/skatteetaten/aurora/boober/feature/EnvironmentFeature.kt:174-179 | one `User` subject per user, in order |
| EnvironmentFeature.GroupSubjects | src/main/kotlin/no/skatteetaten/aurora/boober/feature/EnvironmentFeature.kt:180-185 | one `Group` subject per group, carrying the group's directory id, and no name iff the directory does not know the group |
| EnvironmentFeature.CreateRoleBinding | src/main/kotlin/no/skatteetaten/aurora/boober/feature/EnvironmentFeature.kt:162-194 | a binding of the cluster role of the same name, in the given namespace, whose subjects are the users followed by the groups |
| EnvironmentFeature.GenerateRolebindings | src/main/kotlin/no/skatteetaten/aurora/boober/feature/EnvironmentFeature.kt:95-106 | the `admin` binding, then the `view` binding iff there are view groups |
| EnvironmentFeature.HeaderResources | src/main/kotlin/no/skatteetaten/aurora/boober/feature/EnvironmentFeature.kt:56-65 | the namespace first, then the bindings, every one created by this feature as a header resource |
| EnvironmentFeature.Generate | src/main/kotlin/no/skatteetaten/aurora/boober/feature/EnvironmentFeature.kt:54-66 | the namespace and the role bindings as header resources, with no two alike, so the set keeps them all |
| EnvironmentFeature.BindingsDistinct | src/main/kotlin/no/skatteetaten/aurora/boober/feature/EnvironmentFeature.kt:59-65 | a namespace and role bindings of different names never coincide |
| EnvironmentFeature.ValidateAdminGroups | src/main/kotlin/no/skatteetaten/aurora/boober/feature/EnvironmentFeature.kt:136-160 | no error iff the admin groups are non-empty, all known to the directory, and at least one has members; checked in that order: no groups gives `permissions.admin cannot be empty`, unknown groups give `[<unknown>] are not valid groupNames`, and known groups without members give `All groups=[<groups>] are empty` |
| EnvironmentFeature.Validate | src/main/kotlin/no/skatteetaten/aurora/boober/feature/EnvironmentFeature.kt:108-134 | the admin-group error comes first; with full validation one more error follows iff the user is neither an admin user nor in an admin group, and it names the user and the groups |
| EnvironmentFeature.AdminBindingCoversPermissions | src/main/kotlin/no/skatteetaten/aurora/boober/feature/EnvironmentFeature.kt:95-106 | the admin binding names every admin service account, and every admin group the directory knows by its id |
| EnvironmentFeature.ValidAdminGroupsHaveIds | src/main/kotlin/no/skatteetaten/aurora/boober/feature/EnvironmentFeature.kt:136-194 | once the admin groups validate, every subject of the admin binding has a name |
| EnvironmentFeature.KnownGroupsNamed | src/main/kotlin/no/skatteetaten/aurora/boober/feature/EnvironmentFeature.kt:174-187 | when every group is known, every subject built from users and groups has a name |
| EnvironmentFeature.AdminUserNeverRefused | src/main/kotlin/no/skatteetaten/aurora/boober/feature/EnvironmentFeature.kt:126-133 | a listed admin service account gets no access error, only the admin-group errors |
| LocalTemplateFeature.TemplateHandlers | src/main/kotlin/no/skatteetaten/aurora/boober/feature/LocalTemplateFeature.kt:24-33 | the one handler `templateFile`, guarded by the file-exists check |
| LocalTemplateFeature.ValidateTemplateFile | src/main/kotlin/no/skatteetaten/aurora/boober/feature/LocalTemplateFeature.kt:25-32 | valid iff some file of the AuroraConfig is named exactly the node's text; otherwise the error names that text (`null` when there is none) |
| LocalTemplateFeature.FindTemplate | src/main/kotlin/no/skatteetaten/aurora/boober/feature/LocalTemplateFeature.kt:35-40 | the contents of the first file named by `templateFile`; `templateFile is required` iff no file has that name |
| LocalTemplateFeature.ValidatedTemplateIsFound | src/main/kotlin/no/skatteetaten/aurora/boober/feature/LocalTemplateFeature.kt:24-40 | a `templateFile` the validator accepts is always found by `findTemplate` |
| LocalTemplateMapper.Handlers | src/main/kotlin/no/skatteetaten/aurora/boober/mapper/v1/AuroraLocalTemplateMapperV1.kt:12-33 | one `parameters/<key>` handler per parameter key, in order, then `templateFile` (file-exists check), `version` and `replicas` |
| LocalTemplateMapper.HandlerNamesDistinct | src/main/kotlin/no/skatteetaten/aurora/boober/mapper/v1/AuroraLocalTemplateMapperV1.kt:12-33 | no two handlers share a name |
| LocalTemplateMapper.ToLocalTemplate | src/main/kotlin/no/skatteetaten/aurora/boober/mapper/v1/AuroraLocalTemplateMapperV1.kt:35-49 | fails with `templateFile is required` iff the template file is not found; otherwise carries that file's contents, the parameters read through the parameter handlers, and `version`/`replicas` exactly when they are set, with their values |
| OperationScopeFeature.Handlers | src/main/kotlin/no/skatteetaten/aurora/boober/feature/OperationScopeFeature.kt:13-14 | the feature declares no handler |
| OperationScopeFeature.LabelsToAdd | src/main/kotlin/no/skatteetaten/aurora/boober/feature/OperationScopeFeature.kt:33-35 | no label iff the configured scope is blank; otherwise exactly `operationScope=<scope>` |
| OperationScopeFeature.Modify | src/main/kotlin/no/skatteetaten/aurora/boober/feature/OperationScopeFeature.kt:16-31 | a blank scope leaves every resource untouched; otherwise every resource, and only those, gets the label with the comment `Added operationScope label` |
| OperationScopeFeature.ModifiedResourceIsScoped | src/main/kotlin/no/skatteetaten/aurora/boober/feature/OperationScopeFeature.kt:16-35 | a modified resource carries `operationScope=<scope>`, keeps its other labels, and records the feature as a source |
| RouteFeature.AnnotationKeyVerdict | src/main/kotlin/no/skatteetaten/aurora/boober/feature/RouteFeature.kt:161-170 | an annotation key is refused iff it holds `/`, with an illegal-argument error |
| RouteFeature.AnnotationHandlersFor | src/main/kotlin/no/skatteetaten/aurora/boober/feature/RouteFeature.kt:161-170 | one handler per annotation key, named `<prefix>/annotations/<key>`, guarded by that key's check |
| RouteFeature.FindRouteAnnotationHandlers | src/main/kotlin/no/skatteetaten/aurora/boober/feature/RouteFeature.kt:161-170 | one handler per annotation key the layers set under the prefix, each named after its key and guarded by it |
| RouteFeature.RouteFields | src/main/kotlin/no/skatteetaten/aurora/boober/feature/RouteFeature.kt:147-156 | the five handlers `route/<key>/host` (plain), `path` (must start with `/`), `tls/enabled` (plain), `tls/insecurePolicy` and `tls/termination` (optional choices among the enum names), none with a default |
| RouteFeature.RouteKeyHandlers | src/main/kotlin/no/skatteetaten/aurora/boober/feature/RouteFeature.kt:145-157 | a route's handlers are exactly its five fixed handlers followed by its annotation handlers |
| RouteFeature.RouteHandlersFor | src/main/kotlin/no/skatteetaten/aurora/boober/feature/RouteFeature.kt:141-159 | a handler is present iff it belongs to one of the given route keys |
| RouteFeature.FindRouteHandlers | src/main/kotlin/no/skatteetaten/aurora/boober/feature/RouteFeature.kt:141-159 | a handler is present iff it belongs to one of the `route` sub-keys |
| RouteFeature.Handlers | src/main/kotlin/no/skatteetaten/aurora/boober/feature/RouteFeature.kt:22-34 | exactly the per-route handlers, the four `route`/`routeDefaults` handlers with their defaults (simplified `route` false, host `@name@-@affiliation@-@env@`, TLS off, termination `edge`) and the `routeDefaults` annotation handlers, and nothing else |
| RouteFeature.RouteHandlersGuardPathAndAnnotations | src/main/kotlin/no/skatteetaten/aurora/boober/feature/RouteFeature.kt:141-170 | every route sub-key gets a `path` handler demanding a leading `/`, and every annotation key it uses gets a handler that refuses `/` |
| RouteFeature.ExpandedRoute | src/main/kotlin/no/skatteetaten/aurora/boober/feature/RouteFeature.kt:75-94 | the object name is the key when it already starts with the application name, else `<name>-<key>`; TLS iff the route has TLS sub-keys or TLS is on by default, with the route's (else the default) insecure policy and termination; host, path and each annotation's value come from the route's own fields |
| RouteFeature.SimplifiedRoutes | src/main/kotlin/no/skatteetaten/aurora/boober/feature/RouteFeature.kt:54-72 | `route: true` gives one route named after the application on the default host, without annotations, with TLS iff TLS is on by default, its policy and termination then the `routeDefaults/tls` values; otherwise none |
| RouteFeature.RoutesWith | src/main/kotlin/no/skatteetaten/aurora/boober/feature/RouteFeature.kt:75-94 | one expanded route per key, in order |
| RouteFeature.GetRoute | src/main/kotlin/no/skatteetaten/aurora/boober/feature/RouteFeature.kt:49-95 | the simplified form when `route` is a scalar; otherwise one route per `route` sub-key, in order, each the expanded route of its key (name, host, path, annotations, TLS values), with TLS iff it has TLS sub-keys or TLS is on by default |
| RouteFeature.GetRouteAsWritten | src/main/kotlin/no/skatteetaten/aurora/boober/feature/RouteFeature.kt:73-85 | the same, each route the expanded route of its key, with TLS tested by looking up `route/<key>/tls` as one top-level key |
| RouteFeature.TlsTestAsWrittenNeverFires | src/main/kotlin/no/skatteetaten/aurora/boober/feature/RouteFeature.kt:77-78 | for layers written as nested YAML, the test as written never sees TLS sub-keys |
| RouteFeature.NestedTlsMissedAsWritten | src/main/kotlin/no/skatteetaten/aurora/boober/feature/RouteFeature.kt:77-78 | a layer with `route: {web: {tls: {enabled: true}}}` has TLS sub-keys, which the test as written does not see |
| RouteFeature.NestedTlsSeen | src/main/kotlin/no/skatteetaten/aurora/boober/feature/RouteFeature.kt:77-78 | the corrected test sees the TLS sub-keys of that layer |
| RouteFeature.NoFileHasKey | src/main/kotlin/no/skatteetaten/aurora/boober/feature/RouteFeature.kt:77-78 | no file holding a key means no sub-keys under it |
| RouteFeature.OutputAnnotations | src/main/kotlin/no/skatteetaten/aurora/boober/feature/RouteFeature.kt:120 | every `|` in an annotation key becomes `/`, keeping the value; no key of the result holds `|`, and each comes from an input key |
| RouteFeature.BarReplacementInjective | src/main/kotlin/no/skatteetaten/aurora/boober/feature/RouteFeature.kt:120 | two keys without `/` that read the same after replacing `|` were equal |
| RouteFeature.GenerateRoute | src/main/kotlin/no/skatteetaten/aurora/boober/feature/RouteFeature.kt:110-139 | a Route named after the route in the namespace, targeting the service; host is the route host plus the suffix; TLS present iff the route has it, with the termination lower-cased |
| RouteFeature.GenerateAll | src/main/kotlin/no/skatteetaten/aurora/boober/feature/RouteFeature.kt:37-47 | one `<objectName>-route` resource per route, in order |
| RouteFeature.Generate | src/main/kotlin/no/skatteetaten/aurora/boober/feature/RouteFeature.kt:37-47 | the set of Route resources of the routes of the corrected `getRoute` (see Findings): no resource twice, every one in the application's namespace targeting its service; for distinct route names, one `<objectName>-route` per route in order |
| RouteFeature.GenerateSet | src/main/kotlin/no/skatteetaten/aurora/boober/feature/RouteFeature.kt:37-47 | `toSet()` of the generated resources: no duplicates, exactly the resources of the routes, and for distinct names the resources in route order |
| RouteFeature.GeneratedNamesDistinct | src/main/kotlin/no/skatteetaten/aurora/boober/feature/RouteFeature.kt:37-47 | routes with distinct object names give distinct resources |
| RouteFeature.RouteEnv | src/main/kotlin/no/skatteetaten/aurora/boober/feature/RouteFeature.kt:101-105 | `ROUTE_NAME` is the URL and `ROUTE_URL` is exactly the protocol followed by the URL |
| RouteFeature.Modify | src/main/kotlin/no/skatteetaten/aurora/boober/feature/RouteFeature.kt:99-108 | no routes (of the corrected `getRoute`, see Findings) leaves every resource untouched; otherwise every resource gets the first route's two variables |
| RouteFeature.ObjectNames | src/main/kotlin/no/skatteetaten/aurora/boober/feature/RouteFeature.kt:187 | the object names of the routes, in order |
| RouteFeature.Targets | src/main/kotlin/no/skatteetaten/aurora/boober/feature/RouteFeature.kt:199 | the targets of the routes, in order |
| RouteFeature.DuplicateNameErrors | src/main/kotlin/no/skatteetaten/aurora/boober/feature/RouteFeature.kt:193-195 | one `Route name=<n> is duplicated` error per duplicated name |
| RouteFeature.NamesWithTarget | src/main/kotlin/no/skatteetaten/aurora/boober/feature/RouteFeature.kt:203-204 | exactly the names of the routes with that target |
| RouteFeature.DuplicateTargetErrors | src/main/kotlin/no/skatteetaten/aurora/boober/feature/RouteFeature.kt:203-206 | one error per duplicated target, naming the routes that share it |
| RouteFeature.ValidateRoutes | src/main/kotlin/no/skatteetaten/aurora/boober/feature/RouteFeature.kt:173-209 | passes iff no TLS route has a `.` in its host and names and targets are all distinct; otherwise, in this order: the first TLS route with a dot, with "have a tls enabled route with a '.' in the host"; the duplicated names, with "have routes with duplicate names"; the duplicated targets with their routes, with "have duplicated targets" |
| RouteFeature.DuplicateNamesReported | src/main/kotlin/no/skatteetaten/aurora/boober/feature/RouteFeature.kt:187-196 | a name is reported as duplicated iff it is used more than once |
| RouteFeature.DuplicateTargetsReported | src/main/kotlin/no/skatteetaten/aurora/boober/feature/RouteFeature.kt:198-207 | every target used by two routes or more is reported with the names of its routes, and every reported target is such a target |
| RouteFeature.DuplicatedMessageInjective | src/main/kotlin/no/skatteetaten/aurora/boober/feature/RouteFeature.kt:194 | two duplicate-name errors are equal only for the same name |
| SecretVaultFeature.KeyMappingHandler | src/main/kotlin/no/skatteetaten/aurora/boober/feature/SecretVaultFeature.kt:34-38 | the `secretVault/keyMappings` handler exists iff some layer sets `secretVault/keyMappings` |
| SecretVaultFeature.KeyMappingHandlerAsWritten | src/main/kotlin/no/skatteetaten/aurora/boober/feature/SecretVaultFeature.kt:34-38 | as written, the handler exists iff there is any layer at all |
| SecretVaultFeature.KeyMappingHandlerDeclaredWithoutField | src/main/kotlin/no/skatteetaten/aurora/boober/feature/SecretVaultFeature.kt:34-38 | a lone layer without `secretVault` gets the handler as written, but not with the corrected test |
| SecretVaultFeature.VaultEntryHandlers | src/main/kotlin/no/skatteetaten/aurora/boober/feature/SecretVaultFeature.kt:42-59 | five handlers per entry: `name` defaulting to the key, `enabled` defaulting to true, `file` defaulting to `latest.properties`, `keys`, `keyMappings` |
| SecretVaultFeature.VaultEntriesHandlers | src/main/kotlin/no/skatteetaten/aurora/boober/feature/SecretVaultFeature.kt:42-59 | five handlers per `secretVaults` key, in key order |
| SecretVaultFeature.Handlers | src/main/kotlin/no/skatteetaten/aurora/boober/feature/SecretVaultFeature.kt:40-68 | the three legacy handlers, then the key-mapping handler when some layer sets `secretVault/keyMappings` (the corrected guard, see Findings), then the entries' handlers |
| SecretVaultFeature.LegacyVaultName | src/main/kotlin/no/skatteetaten/aurora/boober/feature/SecretVaultFeature.kt:274-276 | `secretVault/name` when set, else the scalar `secretVault`; present iff either is set |
| SecretVaultFeature.EntrySecrets | src/main/kotlin/no/skatteetaten/aurora/boober/feature/SecretVaultFeature.kt:255-269 | exactly the secrets of the enabled entries, at most one per key |
| SecretVaultFeature.LegacySecret | src/main/kotlin/no/skatteetaten/aurora/boober/feature/SecretVaultFeature.kt:245-253 | present iff a legacy vault name is set; named after the application, read from `latest.properties`, with the `secretVault/keys` list and, when the key-mapping handler is declared, the `secretVault/keyMappings` map |
| SecretVaultFeature.GetSecretVaults | src/main/kotlin/no/skatteetaten/aurora/boober/feature/SecretVaultFeature.kt:244-272 | the secrets of the enabled `secretVaults` entries, followed by the legacy secret when there is one |
| SecretVaultFeature.ValidateVaultExistence | src/main/kotlin/no/skatteetaten/aurora/boober/feature/SecretVaultFeature.kt:87-98 | one error for each secret whose vault does not exist, naming the vault and the collection, and no other error |
| SecretVaultFeature.ValidateSecretNames | src/main/kotlin/no/skatteetaten/aurora/boober/feature/SecretVaultFeature.kt:100-106 | an error for every secret whose name is over 63 characters, and only for those |
| SecretVaultFeature.MappingKeys | src/main/kotlin/no/skatteetaten/aurora/boober/feature/SecretVaultFeature.kt:115 | the mapped keys, in order |
| SecretVaultFeature.UnknownMappedKeys | src/main/kotlin/no/skatteetaten/aurora/boober/feature/SecretVaultFeature.kt:115 | exactly the mapped keys that are not requested keys |
| SecretVaultFeature.ValidateKeyMapping | src/main/kotlin/no/skatteetaten/aurora/boober/feature/SecretVaultFeature.kt:112-119 | an error iff both mappings and keys are non-empty and some mapped key is not a requested key; the error lists those keys |
| SecretVaultFeature.ValidateKeyMappings | src/main/kotlin/no/skatteetaten/aurora/boober/feature/SecretVaultFeature.kt:108-110 | exactly the key-mapping errors of the secrets |
| SecretVaultFeature.MissingKeys | src/main/kotlin/no/skatteetaten/aurora/boober/feature/SecretVaultFeature.kt:139-143 | exactly the requested keys the vault file lacks |
| SecretVaultFeature.FirstMissingKeys | src/main/kotlin/no/skatteetaten/aurora/boober/feature/SecretVaultFeature.kt:126-147 | nothing iff no secret asks for keys its vault file lacks; otherwise the exception names the missing keys of the first such secret |
| SecretVaultFeature.ValidateSecretVaultFiles | src/main/kotlin/no/skatteetaten/aurora/boober/feature/SecretVaultFeature.kt:149-172 | one error for each secret whose file is not in its vault, and no other error |
| SecretVaultFeature.SecretNames | src/main/kotlin/no/skatteetaten/aurora/boober/feature/SecretVaultFeature.kt:179 | the secrets' names, in order |
| SecretVaultFeature.ValidateDuplicateNames | src/main/kotlin/no/skatteetaten/aurora/boober/feature/SecretVaultFeature.kt:177-187 | an error iff two secrets share a name; it lists all the names |
| SecretVaultFeature.Validate | src/main/kotlin/no/skatteetaten/aurora/boober/feature/SecretVaultFeature.kt:70-85 | nothing without full validation; otherwise fails iff some secret lacks vault keys, and else returns the errors of the five checks in order |
| SecretVaultFeature.SecretEnv | src/main/kotlin/no/skatteetaten/aurora/boober/feature/SecretVaultFeature.kt:207-221 | a result iff the vault data asked for with the secret's vault, keys and mappings has the secret's file; it is named after the vault with the application prefix and holds the file's filtered properties |
| SecretVaultFeature.SecretEnvs | src/main/kotlin/no/skatteetaten/aurora/boober/feature/SecretVaultFeature.kt:207-222 | one result per secret whose file the vault has, in the order of the secrets, each that secret's result |
| SecretVaultFeature.SecretsWithFile | src/main/kotlin/no/skatteetaten/aurora/boober/feature/SecretVaultFeature.kt:207-222 | exactly the secrets whose file the vault has |
| SecretVaultFeature.HandleSecretEnv | src/main/kotlin/no/skatteetaten/aurora/boober/feature/SecretVaultFeature.kt:205-223 | one result per secret of the deployment whose file the vault has, in order, each that secret's result, named with the application prefix |
| SecretVaultFeature.EncodedData | src/main/kotlin/no/skatteetaten/aurora/boober/feature/SecretVaultFeature.kt:199 | the data has exactly the property keys, each holding the encoding of a value given for it |
| SecretVaultFeature.SecretOf | src/main/kotlin/no/skatteetaten/aurora/boober/feature/SecretVaultFeature.kt:193-201 | a Secret named after the vault result, in the namespace, holding the encoded properties, created by this feature |
| SecretVaultFeature.Generate | src/main/kotlin/no/skatteetaten/aurora/boober/feature/SecretVaultFeature.kt:189-203 | the set of Secrets: no secret twice, exactly one per vault result, each named with the application prefix in the application's namespace; when the secrets differ, one per result in order |
| SecretVaultFeature.SecretSet | src/main/kotlin/no/skatteetaten/aurora/boober/feature/SecretVaultFeature.kt:189-203 | `toSet()` of the secrets: no duplicates, exactly the secrets of the results, each named after a result in the namespace |
| SecretVaultFeature.SecretsOf | src/main/kotlin/no/skatteetaten/aurora/boober/feature/SecretVaultFeature.kt:190-202 | one Secret per vault result, in order |
| SecretVaultFeature.SecretRefs | src/main/kotlin/no/skatteetaten/aurora/boober/feature/SecretVaultFeature.kt:228-239 | one variable per property, named after the key, referring to that key of the secret |
| SecretVaultFeature.AllSecretRefs | src/main/kotlin/no/skatteetaten/aurora/boober/feature/SecretVaultFeature.kt:227-240 | exactly the references of every vault result |
| SecretVaultFeature.ModifyRefersToGeneratedSecrets | src/main/kotlin/no/skatteetaten/aurora/boober/feature/SecretVaultFeature.kt:189-242 | every variable `modify` adds refers, by name and key, to a secret `generate` produces, and that secret holds the key |
| SecretVaultFeature.Modify | src/main/kotlin/no/skatteetaten/aurora/boober/feature/SecretVaultFeature.kt:225-242 | every resource, and only those, gets all the secret references |
| StsFeature.Handlers | src/main/kotlin/no/skatteetaten/aurora/boober/feature/StsFeature.kt:19-24 | `certificate` (false by default, allowed as a bare flag) and `certificate/commonName` |
| StsFeature.DefaultCommonName | src/main/kotlin/no/skatteetaten/aurora/boober/feature/StsFeature.kt:77-78 | `<groupId>.<name>`, with a missing `groupId` read as empty |
| StsFeature.FindCertificate | src/main/kotlin/no/skatteetaten/aurora/boober/feature/StsFeature.kt:66-79 | as a sub-tree: the configured common name, present iff set; as a flag: nothing when false, otherwise `<groupId>.<name>` |
| StsFeature.FlagFindsCertificate | src/main/kotlin/no/skatteetaten/aurora/boober/feature/StsFeature.kt:66-79 | a `certificate` flag that reads true always asks for a certificate |
| StsFeature.Create | src/main/kotlin/no/skatteetaten/aurora/boober/feature/StsFeature.kt:37-64 | the secret `<app>-cert` in the namespace, labelled with the renewal second, annotated with the application and the issued common name, holding exactly the four files, each base64-encoded; the descriptor names the mounted keystore and alias `ca` |
| StsFeature.CertificateResource | src/main/kotlin/no/skatteetaten/aurora/boober/feature/StsFeature.kt:31-32 | the secret wrapped as resource `<app>-cert-secret` |
| StsFeature.GenerateAsWritten | src/main/kotlin/no/skatteetaten/aurora/boober/feature/StsFeature.kt:26-35 | as written: nothing unless a certificate is asked for, otherwise one secret issued for the empty common name |
| StsFeature.Generate | src/main/kotlin/no/skatteetaten/aurora/boober/feature/StsFeature.kt:26-35 | nothing unless a certificate is asked for, otherwise the one secret issued for the common name found |
| StsFeature.GenerateAnnotatesConfiguredName | src/main/kotlin/no/skatteetaten/aurora/boober/feature/StsFeature.kt:26-35 | with a provisioner that issues the name it is asked for, the secret is annotated with the configured common name |
| StsFeature.GenerateAsWrittenDropsCommonName | src/main/kotlin/no/skatteetaten/aurora/boober/feature/StsFeature.kt:29 | as written, a spec configuring `my.app` gets a secret annotated with the empty common name |
| StsFeature.StsEnv | src/main/kotlin/no/skatteetaten/aurora/boober/feature/StsFeature.kt:83-88 | the three variables point at the certificate, the private key and the descriptor inside the mounted secret |
| StsFeature.Modify | src/main/kotlin/no/skatteetaten/aurora/boober/feature/StsFeature.kt:81-91 | with `certificate` true, every resource gets the three variables; otherwise nothing changes |
| StsFeature.EnvPointsIntoSecret | src/main/kotlin/no/skatteetaten/aurora/boober/feature/StsFeature.kt:26-91 | every variable `modify` adds names a file of the secret `generate` creates, under the path where that secret is mounted |
| StorageGrid.FindReason | src/main/kotlin/no/skatteetaten/aurora/boober/model/openshift/StorageGridObjectArea.kt:83 | the first candidate with that name; none only when no candidate has it |
| StorageGrid.ValueOf | src/main/kotlin/no/skatteetaten/aurora/boober/model/openshift/StorageGridObjectArea.kt:83 | `Reason.valueOf`: the constant with exactly that name, or the exception iff no constant has it |
| StorageGrid.ReasonListed | src/main/kotlin/no/skatteetaten/aurora/boober/model/openshift/StorageGridObjectArea.kt:63-74 | every constant is among the nine reasons |
| StorageGrid.ReasonNameInjective | src/main/kotlin/no/skatteetaten/aurora/boober/model/openshift/StorageGridObjectArea.kt:63-74 | no two constants share a name |
| StorageGrid.FindReasonUnique | src/main/kotlin/no/skatteetaten/aurora/boober/model/openshift/StorageGridObjectArea.kt:83 | the search finds the one constant with the name |
| StorageGrid.ValueOfName | src/main/kotlin/no/skatteetaten/aurora/boober/model/openshift/StorageGridObjectArea.kt:81-83 | reading a constant's name gives the constant back |
| StorageGrid.EndStates | src/main/kotlin/no/skatteetaten/aurora/boober/model/openshift/StorageGridObjectArea.kt:63-74 | exactly six reasons are end states |
| StorageGrid.ReasonName | src/main/kotlin/no/skatteetaten/aurora/boober/model/openshift/StorageGridObjectArea.kt:63-74 | every constant's name starts with a capital letter and so is never blank, which keeps it apart from the blank reason read as `Undefined` |
| StorageGrid.ReasonOf | src/main/kotlin/no/skatteetaten/aurora/boober/model/openshift/StorageGridObjectArea.kt:81-83 | `Undefined` for a blank reason, otherwise `valueOf` of it |
| StorageGrid.ReasonRoundTrip | src/main/kotlin/no/skatteetaten/aurora/boober/model/openshift/StorageGridObjectArea.kt:57-83 | every reason written as its name reads back as itself; the default result reads as `Undefined`, not a success and not an end state |
| StorageGrid.FqnOf | src/main/kotlin/no/skatteetaten/aurora/boober/model/openshift/StorageGridObjectArea.kt:38 | `namespace/name` when metadata is set (unset parts as `null`), `unknown` otherwise |
| StorageGrid.FqnSplits | src/main/kotlin/no/skatteetaten/aurora/boober/model/openshift/StorageGridObjectArea.kt:38 | for a namespace and a name without `/`, the identifier splits back into the two |
| StorageGrid.StorageGridObjectArea.constructor | src/main/kotlin/no/skatteetaten/aurora/boober/model/openshift/StorageGridObjectArea.kt:12-22 | holds the given spec, status, metadata, kind and API version; callers leaving the last two out pass `StorageGridObjectArea` and `skatteetaten.no/v1` |
| StorageGrid.StorageGridObjectArea.GetMetadata | src/main/kotlin/no/skatteetaten/aurora/boober/model/openshift/StorageGridObjectArea.kt:23 | the metadata, or empty metadata when none is set |
| StorageGrid.StorageGridObjectArea.Fqn | src/main/kotlin/no/skatteetaten/aurora/boober/model/openshift/StorageGridObjectArea.kt:38 | `unknown` iff no metadata is set |
| StorageGrid.StorageGridObjectArea.SetMetadata | src/main/kotlin/no/skatteetaten/aurora/boober/model/openshift/StorageGridObjectArea.kt:29-31 | the metadata becomes the given one; the API version is unchanged |
| StorageGrid.StorageGridObjectArea.SetApiVersionAsWritten | src/main/kotlin/no/skatteetaten/aurora/boober/model/openshift/StorageGridObjectArea.kt:33-35 | as written: nothing changes, the given version is ignored |
| StorageGrid.StorageGridObjectArea.SetApiVersion | src/main/kotlin/no/skatteetaten/aurora/boober/model/openshift/StorageGridObjectArea.kt:33-35 | the API version becomes the given one (a null keeps it); the metadata is unchanged |
| StorageGrid.ApiVersionAfterSet | src/main/kotlin/no/skatteetaten/aurora/boober/model/openshift/StorageGridObjectArea.kt:33-35 | asking a new object area for `v2` leaves it at `skatteetaten.no/v1` as written, and moves it to `v2` when corrected |
| BigIpFeature.AnnotationHandlersFor | src/main/kotlin/no/skatteetaten/aurora/boober/feature/BigIpFeature.kt:35 | one `bigip/routeAnnotations/<key>` handler per key, in order, each refusing a key that holds `/` |
| BigIpFeature.RouteAnnotationHandlers | src/main/kotlin/no/skatteetaten/aurora/boober/feature/BigIpFeature.kt:35 | one handler per annotation key any layer sets under `bigip/routeAnnotations` |
| BigIpFeature.BigIpFields | src/main/kotlin/no/skatteetaten/aurora/boober/feature/BigIpFeature.kt:28-34 | the six `bigip` fields, in order, with only `enabled` checked (to be a boolean) and no defaults |
| BigIpFeature.Handlers | src/main/kotlin/no/skatteetaten/aurora/boober/feature/BigIpFeature.kt:27-36 | the six `bigip` fields, then the route-annotation handlers |
| BigIpFeature.Validate | src/main/kotlin/no/skatteetaten/aurora/boober/feature/BigIpFeature.kt:38-47 | throws `bigip/service is required if any other bigip flags are set` iff some `bigip` field is set and the service is missing or empty; otherwise no errors |
| BigIpFeature.BigIpRoute | src/main/kotlin/no/skatteetaten/aurora/boober/feature/BigIpFeature.kt:55-64 | route `<name>-bigip` on host SHA-1 of `<namespace>/<name>`, without path or TLS, with `bigipRoute=true`; every other annotation is a configured route annotation with its value, and every configured one is kept |
| BigIpFeature.BigIpObject | src/main/kotlin/no/skatteetaten/aurora/boober/feature/BigIpFeature.kt:66-80 | the `BigIp` object named after the application, pointing at the `-bigip` route and carrying service, policy, scopes and paths (split on the given delimiter) and external host from the spec |
| BigIpFeature.Generate | src/main/kotlin/no/skatteetaten/aurora/boober/feature/BigIpFeature.kt:49-86 | nothing unless the feature is enabled; otherwise the generated route and the `BigIp` object |
| BigIpFeature.BigIpPointsAtItsRoute | src/main/kotlin/no/skatteetaten/aurora/boober/feature/BigIpFeature.kt:49-86 | the `BigIp` object names the route beside it, which targets the service on the hashed host and carries `bigipRoute=true` |
| BigIpFeature.BigIpRouteAnnotation | src/main/kotlin/no/skatteetaten/aurora/boober/feature/BigIpFeature.kt:63 | `bigipRoute` survives the annotation-key rewriting of route generation |
| BigIpFeature.Prefixed | src/main/kotlin/no/skatteetaten/aurora/boober/feature/BigIpFeature.kt:97-99 | each path prefixed by the host, in order |
| BigIpFeature.FetchExternalHostsAndPaths | src/main/kotlin/no/skatteetaten/aurora/boober/feature/BigIpFeature.kt:93-100 | nothing unless enabled with an external host; otherwise one entry per API path (split on the given delimiter), each starting with the host |
| BigIpFeature.ExternalPathsMatchBigIp | src/main/kotlin/no/skatteetaten/aurora/boober/feature/BigIpFeature.kt:66-100 | what is reported is exactly the generated object's external host followed by each of its API paths |
| SpecRenderer.PresentationInput | src/main/kotlin/no/skatteetaten/aurora/boober/service/AuroraDeploymentSpecRenderer.kt:59-63 | with defaults, every field; without, exactly the fields whose value is not a default, unchanged |
| SpecRenderer.LeafOf | src/main/kotlin/no/skatteetaten/aurora/boober/service/AuroraDeploymentSpecRenderer.kt:64 | a leaf carrying the field's source and the text of its value |
| SpecRenderer.DefaultsRemovedIff | src/main/kotlin/no/skatteetaten/aurora/boober/service/AuroraDeploymentSpecRenderer.kt:55-66 | a field reaches presentation iff defaults are included or it is not a default |
| SpecRenderer.MaxKeyLength | src/main/kotlin/no/skatteetaten/aurora/boober/service/AuroraDeploymentSpecRenderer.kt:68-77 | 0 exactly for no entries; otherwise above every entry's key length plus its accumulated indentation |
| SpecRenderer.MaxValueLength | src/main/kotlin/no/skatteetaten/aurora/boober/service/AuroraDeploymentSpecRenderer.kt:79-88 | at least every entry's value length; 0 for no entries |
| SpecRenderer.MaxKeyLengthAttained | src/main/kotlin/no/skatteetaten/aurora/boober/service/AuroraDeploymentSpecRenderer.kt:68-77 | the key maximum is one more than some entry's contribution |
| SpecRenderer.MaxValueLengthAttained | src/main/kotlin/no/skatteetaten/aurora/boober/service/AuroraDeploymentSpecRenderer.kt:79-88 | the value maximum is some entry's contribution |
| SpecRenderer.Spaces | src/main/kotlin/no/skatteetaten/aurora/boober/service/AuroraDeploymentSpecRenderer.kt:30 | exactly n spaces |
| SpecRenderer.MaximaFit | src/main/kotlin/no/skatteetaten/aurora/boober/service/AuroraDeploymentSpecRenderer.kt:22-47 | the maxima over all entries leave at least one space of padding for every leaf at every depth, so no `repeat` count goes negative |
| SpecRenderer.EntryFits | src/main/kotlin/no/skatteetaten/aurora/boober/service/AuroraDeploymentSpecRenderer.kt:33-34 | an entry fits when the key maximum exceeds its contribution by its level |
| SpecRenderer.RenderPointers | src/main/kotlin/no/skatteetaten/aurora/boober/service/AuroraDeploymentSpecRenderer.kt:15-53 | the text opens with `{` and a newline and ends with `}` |
| SpecRenderer.RenderEntry | src/main/kotlin/no/skatteetaten/aurora/boober/service/AuroraDeploymentSpecRenderer.kt:25-47 | an entry's text opens with its indentation, key and `:` and ends with a newline |
| SpecRenderer.RenderAll | src/main/kotlin/no/skatteetaten/aurora/boober/service/AuroraDeploymentSpecRenderer.kt:38-46 | a list of only skipped reserved keys renders as nothing; any other text ends with a newline |
| SpecRenderer.LeafLineLayout | src/main/kotlin/no/skatteetaten/aurora/boober/service/AuroraDeploymentSpecRenderer.kt:30-36 | a leaf line is indentation, `key:`, padding, value, padding, `// source`; every value starts in the same column and so does every `//`, at any depth |
| SpecRenderer.LeafLineSlices | src/main/kotlin/no/skatteetaten/aurora/boober/service/AuroraDeploymentSpecRenderer.kt:36 | the pieces of a leaf line sit where their lengths put them |
| SpecRenderer.NodeLayout | src/main/kotlin/no/skatteetaten/aurora/boober/service/AuroraDeploymentSpecRenderer.kt:37-46 | an inner node opens with `key: {` and closes with `}` at its own indentation |
| CommandService.CreateOpenShiftCommand | src/main/kotlin/no/skatteetaten/aurora/boober/service/OpenShiftCommandService.kt:152-177 | CREATE with the new object iff merging is off, the kind is `imagestreamimport` or nothing exists; otherwise UPDATE with the merge, the existing body and the generated object |
| CommandService.CreateMergedUpdateCommand | src/main/kotlin/no/skatteetaten/aurora/boober/service/OpenShiftCommandService.kt:58-59 | always UPDATE, with the payload `createOpenShiftCommand` would send (retrying the lookup) |
| CommandService.FirstOfKind | src/main/kotlin/no/skatteetaten/aurora/boober/service/OpenShiftCommandService.kt:91-97 | the first object of the kind; none iff no object has it |
| CommandService.ImportImageStreamCommand | src/main/kotlin/no/skatteetaten/aurora/boober/service/OpenShiftCommandService.kt:120-136 | an import iff the deployment config follows a tag and the stream knows a docker image for it; the import is the one created from that image and the stream's name |
| CommandService.ImageStreamImport | src/main/kotlin/no/skatteetaten/aurora/boober/service/OpenShiftCommandService.kt:102-107 | an import iff both a deployment config and an image stream exist, outside development, the stream exists in the cluster and its tag and image are known; it is then the import of those two commands |
| CommandService.PausedOrder | src/main/kotlin/no/skatteetaten/aurora/boober/service/OpenShiftCommandService.kt:110-115 | the image stream payload, then the import, then the other objects in order, then the deployment config |
| CommandService.OrderObjectsNotPaused | src/main/kotlin/no/skatteetaten/aurora/boober/service/OpenShiftCommandService.kt:81-118 | without a paused deployment the objects keep their order, followed only by the import if any |
| CommandService.OrderObjects | src/main/kotlin/no/skatteetaten/aurora/boober/service/OpenShiftCommandService.kt:81-118 | every object that is neither image stream nor deployment config is applied, and so is the image-stream import when there is one; for a paused deployment the deployment config object comes last |
| CommandService.OrderObjectsPaused | src/main/kotlin/no/skatteetaten/aurora/boober/service/OpenShiftCommandService.kt:81-118 | a paused deployment puts the merged image stream and its import first, then every object that is neither image stream nor deployment config in order, and the deployment config last |
| CommandService.DeleteAll | src/main/kotlin/no/skatteetaten/aurora/boober/service/OpenShiftCommandService.kt:200 | one DELETE per object, carrying it as payload and previous |
| CommandService.FoundObjects | src/main/kotlin/no/skatteetaten/aurora/boober/service/OpenShiftCommandService.kt:197-199 | as a set: exactly the objects found for some listed kind with the application's label selectors |
| CommandService.CreateOpenShiftDeleteCommands | src/main/kotlin/no/skatteetaten/aurora/boober/service/OpenShiftCommandService.kt:179-201 | a DELETE for every object found, in order |
| CommandService.MustRecreateRoute | src/main/kotlin/no/skatteetaten/aurora/boober/service/OpenShiftCommandService.kt:203-215 | never without a previous route; otherwise iff the host text or the path node changed |
| CommandService.CommandsToSend | src/main/kotlin/no/skatteetaten/aurora/boober/service/OpenShiftCommandService.kt:225-232 | a route update that must be recreated becomes DELETE then CREATE of the generated object; anything else is sent as is |
| CommandService.RecreatedRouteUsesGenerated | src/main/kotlin/no/skatteetaten/aurora/boober/service/OpenShiftCommandService.kt:225-232 | a recreated route is created from exactly the object that was generated |
| CommandService.FindErrorMessage | src/main/kotlin/no/skatteetaten/aurora/boober/service/OpenShiftCommandService.kt:243-256 | a failure reports its exception; a successful route or imagestreamimport reports what its status check says; a success without body, or of any other kind, reports none |
| CommandService.MarkError | src/main/kotlin/no/skatteetaten/aurora/boober/service/OpenShiftCommandService.kt:236-240 | a response with an error becomes a failure carrying it; otherwise it is unchanged |
| CommandService.MarkErrors | src/main/kotlin/no/skatteetaten/aurora/boober/service/OpenShiftCommandService.kt:236-240 | each response marked on its own, in order |
| CommandService.PerformAll | src/main/kotlin/no/skatteetaten/aurora/boober/service/OpenShiftCommandService.kt:234 | each command sent in order |
| CommandService.CreateAndApplyObjects | src/main/kotlin/no/skatteetaten/aurora/boober/service/OpenShiftCommandService.kt:218-241 | one response per command to send, each marked for errors |
| CommandService.MarkErrorsIndependent | src/main/kotlin/no/skatteetaten/aurora/boober/service/OpenShiftCommandService.kt:236-240 | a response stays a success iff it was one and carries no error; a failure never becomes a success |
| ResourceProvisioner.SchemaRequest | src/main/kotlin/no/skatteetaten/aurora/boober/service/resourceprovisioning/ExternalResourceProvisioner.kt:43-49 | the schema name lower-cased; an id request iff the database has an id, otherwise a request for the application |
| ResourceProvisioner.CreateSchemaRequests | src/main/kotlin/no/skatteetaten/aurora/boober/service/resourceprovisioning/ExternalResourceProvisioner.kt:41-51 | one request per database, in order; none without a database integration |
| ResourceProvisioner.MountVaultNames | src/main/kotlin/no/skatteetaten/aurora/boober/service/resourceprovisioning/ExternalResourceProvisioner.kt:57 | `mapNotNull` of the mounts' vault names: the present names in mount order, repeats kept |
| ResourceProvisioner.AllVaultNames | src/main/kotlin/no/skatteetaten/aurora/boober/service/resourceprovisioning/ExternalResourceProvisioner.kt:57-58 | the mounts' vaults, then the volume's own vault when set |
| ResourceProvisioner.CreateVaultRequests | src/main/kotlin/no/skatteetaten/aurora/boober/service/resourceprovisioning/ExternalResourceProvisioner.kt:53-61 | none without a volume; otherwise one request per vault name, with the affiliation and the volume's keys and mappings |
| ResourceProvisioner.HandleSchemaProvisioning | src/main/kotlin/no/skatteetaten/aurora/boober/service/resourceprovisioning/ExternalResourceProvisioner.kt:24-31 | no result, and no call, iff there is no schema request |
| ResourceProvisioner.ProvisionResources | src/main/kotlin/no/skatteetaten/aurora/boober/service/resourceprovisioning/ExternalResourceProvisioner.kt:17-22 | the schema results (absent iff nothing to provision) and the vault results for the vault requests |
| ResourceProvisioner.NoDatabasesNoSchemaCall | src/main/kotlin/no/skatteetaten/aurora/boober/service/resourceprovisioning/ExternalResourceProvisioner.kt:24-31 | without databases the schema provisioner is never asked |
| ResourceProvisioner.NoVolumeStillAsksVault | src/main/kotlin/no/skatteetaten/aurora/boober/service/resourceprovisioning/ExternalResourceProvisioner.kt:33-55 | without a volume the vault provider is still asked, with no requests |
| ResourceProvisioner.EveryVaultRequested | src/main/kotlin/no/skatteetaten/aurora/boober/service/resourceprovisioning/ExternalResourceProvisioner.kt:53-61 | every vault a mount names, and the volume's own, is requested in the affiliation's collection |
| Resources.Generated | src/main/kotlin/no/skatteetaten/aurora/boober/feature/SecretVaultFeature.kt:201 | a fresh resource of the feature, with no modifications |
| Resources.Named | src/main/kotlin/no/skatteetaten/aurora/boober/feature/RouteFeature.kt:40 | a fresh resource under an explicit name, with no modifications |
| Resources.AppendEnv | src/main/kotlin/no/skatteetaten/aurora/boober/feature/RouteFeature.kt:106 | each container keeps its variables, followed by the new ones |
| Resources.WithEnvEffect | src/main/kotlin/no/skatteetaten/aurora/boober/feature/RouteFeature.kt:106 | `addEnvVar` keeps a resource's identity, leaves everything but deployment configs untouched, appends the variables to every container and records the feature |
| Resources.WithLabelsEffect | src/main/kotlin/no/skatteetaten/aurora/boober/feature/OperationScopeFeature.kt:26-30 | `addLabels` keeps a resource's identity, merges the labels with the new ones winning, and records the feature and comment |
| Resources.ResourceSet.constructor | src/main/kotlin/no/skatteetaten/aurora/boober/feature/OperationScopeFeature.kt:16-20 | the set holds the given resources |
| Resources.ResourceSet.AddEnvVars | src/main/kotlin/no/skatteetaten/aurora/boober/feature/SecretVaultFeature.kt:241 | every resource, and only those, rewritten by `addEnvVar`, the count unchanged |
| Resources.ResourceSet.AddLabels | src/main/kotlin/no/skatteetaten/aurora/boober/feature/OperationScopeFeature.kt:26-30 | every resource, and only those, rewritten by `addLabels`, the count unchanged |

## Left out

- Git storage (clone, fetch, commit, push and the per-repository lock), the HTTP controllers and their response records, and the service-account token file are I/O and concurrency; they are not part of this model.
- `AuroraConfig.fromFolder` walks the filesystem and is not part of this model.
- AuroraConfigModel.PatchFile: applying the JSON patch (RFC 6902) and pretty-printing the result as JSON or YAML are library work; the model takes them as the `patch` parameter and states the lookup, the "No such file" failure and the replacement of the file.
- The cluster client (`get`, `getByLabelSelectors`, `performOpenShiftCommand`, `isValidGroup`, `isValidUser`), the vault provider, the group lookup, the user-details provider, the STS provisioner and the database-schema provisioner are parameters: every property holds for whatever they answer.
- `mergeWithExistingResource`, `findImageChangeTriggerTagName`, `findDockerImageUrl` and the image-stream-import generator are not part of this model and are parameters.
- Base64, SHA-1 and the clock are parameters; the `ttl` duration (Spring `DurationStyle`) is given as a number of seconds, its parsing is not modelled.
- Regular expressions: the `name` and `affiliation` patterns of the V1 handlers are kept as their structure (`patterns.dfy`), which gives both the text the source writes and the texts the pattern accepts; only anchored sequences of bracketed classes with counts are covered, which is all these two patterns use. The `pattern` JSON validator helper is not part of this model: a text value passes a pattern validator iff it matches, and its handling of a missing or non-text value is not represented. The label-value pattern of CollectionUtils is a hand-written character-class predicate.
- RouteFeature.OutputAnnotations: `mapKeys` (RouteFeature.kt:120) keeps a key holding `/`, and when two keys map to the same output key the one written last in the map's iteration order wins; the model drops keys holding `/` instead. Such keys are refused by the annotation validator (RouteFeature.kt:165-167) before any route is generated, and the winner of a collision depends on an iteration order the model does not have.
- RouteFeature.SimplifiedRoutes, RouteFeature.ExpandedRoute: a field read through `adc[...]` or `getOrDefault` that has no value reads as empty text in the model. `routeDefaults/tls/insecurePolicy` is such a field: no handler declares it (RouteFeature.kt:22-31), so a TLS route without its own `insecurePolicy` reaches it. `AuroraDeploymentSpec.get` is not part of this model and does not yield empty text for a missing field, so the model promises nothing about that failure.
- BigIpFeature.Generate: `Route.generateOpenShiftRoute` (called at BigIpFeature.kt:83) is not part of this model; the model takes it to be `RouteFeature.generateRoute` (RouteFeature.kt:110-139) with the application's name as the service, so the BigIp route is built by RouteFeature.GenerateRoute.
- RouteFeature.Generate, RouteFeature.Modify: both use the corrected `getRoute` (RouteFeature.GetRoute), whose TLS test sees a route's own nested `tls` block; the code as written (RouteFeature.kt:77-78, modelled by RouteFeature.GetRouteAsWritten) gives such a route no TLS, so its generated Route has no `tls` block and `modify` takes the protocol of a non-TLS route. See "## Findings".
- SecretVaultFeature.Handlers, SecretVaultFeature.LegacySecret: both use the corrected key-mapping guard (SecretVaultFeature.KeyMappingHandler); as written (SecretVaultFeature.kt:34-38, modelled by SecretVaultFeature.KeyMappingHandlerAsWritten) the `secretVault/keyMappings` handler is declared for every configuration. See "## Findings".
- RouteFeature.Modify, RouteFeature.RouteEnv: the `url` and `protocol` parameters stand for `Route.url(routeSuffix)` and `Route.protocol`, which are not part of this model.
- BigIpFeature.BigIpObject, BigIpFeature.FetchExternalHostsAndPaths: the one-argument `getDelimitedStringOrArrayAsSet(OrNull)` they call (BigIpFeature.kt:75-76, :97) has a default delimiter that is not part of this model; it is a `delimiter` parameter of these members, BigIpFeature.Generate and their lemmas. EnvironmentFeature passes `" "` explicitly (EnvironmentFeature.kt:84-87).
- Strings.ToLower lower-cases the ASCII letters only, where Kotlin `toLowerCase` follows Unicode; this affects ResourceProvisioner.SchemaRequest (schema names), RouteFeature.GenerateRoute (the TLS termination) and CommandService (object kinds) only for names holding non-ASCII letters.
- Property files and certificate material are byte arrays in the source; the model treats them as strings (secret vault data, STS certificate files).
- Kotlin sets built with `toSet()` keep insertion order; the model uses sequences without duplicates that keep the first occurrence (`Lists.Distinct`), with records equal when all their fields are equal, as Kotlin data classes are.
- The accessors of `AuroraDeploymentSpec` (`get`, `getOrNull`, `isSimplifiedConfig`, `findSubKeys`, …) and the `addEnvVar`/`addLabels` extension functions are not part of this model; the model gives them the meaning their call sites rely on (`deployment_spec.dfy`, `resources.dfy`).
- The fabric8 and Kotlin DSL object builders become records holding the fields the core sets; fields it does not set are not represented.
- RouteFeature.ExpandedRoute: the placeholder replacer applied to a route key before it becomes the object name (`adc.replacer.replace`, RouteFeature.kt:88) is not modelled; the key is used as written in the configuration.
- SecretVaultFeature.EntrySecret: the placeholder replacer applied to a `secretVaults` key before it becomes the secret name (SecretVaultFeature.kt:265) is not modelled; the key is used as written.
- CommandService: `generateProjectRequest`, `generateNamespace`, `generateRolebindings` and `generateOpenshiftObjects` (OpenShiftCommandService.kt:42-79) only pass the resource generator's output to the modelled command functions; the generator is not part of this model.
- SpecRenderer: `renderSpecAsJson` (a Jackson `convertValue` of the whole spec) is not part of this model; `present`, `removeInactive` and the value `toString` are parameters, and a leaf is told from a nested map by the datatype instead of by its `source`/`value` keys.
- SpecRenderer.FieldsForPresentation only composes its parameters and has no contract of its own; the defaults-removal property is stated on SpecRenderer.PresentationInput.
- ResourceProvisioner.HandleVaults only passes the requests to the vault lookup; its property (always called, even with no requests) is stated on ResourceProvisioner.ProvisionResources and ResourceProvisioner.NoVolumeStillAsksVault.
- BigIpFeature: the three-argument `findRouteAnnotationHandlers` overload it calls is not part of the source available to this model; the model declares the BigIp annotation handlers directly.
- CollectionUtils.DeepSet is modelled on values: the update in place of the receiver `MutableMap`, and the aliasing of nested maps it creates or reuses, are not captured; a path entry holding a non-map value is the `ClassCastException` error.
- EnvironmentFeature: `handlers` is the empty list and carries no contract.
- LocalTemplateFeature: a `templateFile` field that is absent or not text is reported as "templateFile is required", as a lookup of no file.
- The features' `enable` predicates carry no contracts of their own; they are used by the members that state the features' behaviour.
- SpecRenderer: `findMaxKeyLength` adds one for every nesting level it recurses through, not only once at the top; the model follows the code.

## Findings

| source | as written | input that shows it | evidently intended | confidence | as-written member | corrected member |
|---|---|---|---|---|---|---|
| src/main/kotlin/no/skatteetaten/aurora/boober/feature/RouteFeature.kt:77-78 | `findSubKeys("route/<key>/tls")` looks the whole path up as a single top-level key, so a route's own `tls` block is never seen | one layer `{"route": {"web": {"tls": {"enabled": true}}}}` without `routeDefaults/tls`: route `web` gets no TLS | a route has TLS when it has sub-keys under its own `tls` block | not executed | RouteFeature.GetRouteAsWritten, RouteFeature.NestedTlsMissedAsWritten | RouteFeature.GetRoute, RouteFeature.NestedTlsSeen |
| src/main/kotlin/no/skatteetaten/aurora/boober/feature/SecretVaultFeature.kt:34-38 | `at("/secretVault/keyMappings") != null` is always true, because Jackson returns a missing node rather than null | a single layer `about.json` holding `{}` still gets the `secretVault/keyMappings` handler | the handler exists only when some layer sets `secretVault/keyMappings` | not executed | SecretVaultFeature.KeyMappingHandlerAsWritten, SecretVaultFeature.KeyMappingHandlerDeclaredWithoutField | SecretVaultFeature.KeyMappingHandler |
| src/main/kotlin/no/skatteetaten/aurora/boober/feature/StsFeature.kt:29 | `generateCertificate("", …)` passes an empty common name instead of the one `findCertificate` found | `certificate/commonName: my.app` gives a secret whose common-name annotation is empty | the secret is annotated with the configured common name | not executed | StsFeature.GenerateAsWritten, StsFeature.GenerateAsWrittenDropsCommonName | StsFeature.Generate, StsFeature.GenerateAnnotatesConfiguredName |
| src/main/kotlin/no/skatteetaten/aurora/boober/model/openshift/StorageGridObjectArea.kt:33-35 | `setApiVersion` assigns `_apiVersion` to itself, ignoring its argument | `setApiVersion("v2")` on a new object area leaves `skatteetaten.no/v1` | the setter stores the version given | not executed | StorageGrid.StorageGridObjectArea.SetApiVersionAsWritten, StorageGrid.ApiVersionAfterSet | StorageGrid.StorageGridObjectArea.SetApiVersion |

=== FILE: aurora_config.dfy ===
/** An AuroraConfig: the named, versioned collection of configuration files of one
    affiliation, how the file layers of one application deployment are found in it,
    and how a single file is replaced in a copy of it. */
module AuroraConfigModel {
  import opened Wrappers
  import opened Strings
  import opened Lists
  import opened JsonTree

  /** The role a file plays in the layering of one application deployment. */
  datatype FileType = GLOBAL | BASE | INCLUDE_ABOUT | ENV | APP

  /** The enum constant's name, as a string template prints it. */
  function TypeName(t: FileType): string {
    match t
    case GLOBAL => "GLOBAL"
    case BASE => "BASE"
    case INCLUDE_ABOUT => "INCLUDE_ABOUT"
    case ENV => "ENV"
    case APP => "APP"
  }

  /** A file: its relative path, its parsed contents, whether it overrides the stored
      file, the layer type it was found as, and the version derived from its contents. */
  datatype AuroraConfigFile = AuroraConfigFile(
    name: string,
    contents: Json,
    override: bool,
    typeHint: Option<FileType>,
    version: string)

  datatype AuroraConfig = AuroraConfig(files: seq<AuroraConfigFile>, name: string, version: string)

  /** An `environment/application` pair naming one application deployment. */
  datatype ApplicationDeploymentRef = ApplicationDeploymentRef(environment: string, application: string)

  /** A layer to look for: the extension-less file name and the role it plays. */
  datatype FileSpec = FileSpec(name: string, fileType: FileType)

  /** The two exceptions the operations throw. */
  datatype ConfigError =
    | IllegalArgument(message: string)
    | VersionConflict(config: AuroraConfig, currentFile: AuroraConfigFile, previousVersion: string)

  /** A file created from new contents: not an override, no type hint, and the version
      the file's content digest gives (`versionOf`, which is not part of this model). */
  function NewFile(name: string, contents: Json, versionOf: Json -> string): (f: AuroraConfigFile)
    ensures f.name == name && f.contents == contents && !f.override && f.typeHint.None?
  {
    AuroraConfigFile(name, contents, false, None, versionOf(contents))
  }

  // ---------------------------------------------------------------------------
  // Application deployment references

  /** An extension-less file name that names an application file: it has a folder,
      and is neither an `about` file nor a template. */
  predicate IsApplicationFileName(n: string) {
    '/' in n && !Contains(n, "about") && !StartsWith(n, "templates")
  }

  /** The first two `/`-separated pieces of a name, as environment and application
      (Kotlin destructuring of `split("/")` ignores any further pieces): the
      environment runs up to the first `/`, the application from there up to the
      next `/` or to the end. */
  function RefOf(n: string): (r: ApplicationDeploymentRef)
    requires '/' in n
    ensures '/' !in r.environment && '/' !in r.application
    ensures n == r.environment + "/" + r.application ||
            StartsWith(n, r.environment + "/" + r.application + "/")
  {
    FirstTwoPieces(n);
    ApplicationDeploymentRef(Split(n, '/')[0], Split(n, '/')[1])
  }

  lemma FirstTwoPieces(n: string)
    requires '/' in n
    ensures |Split(n, '/')| >= 2
    ensures '/' !in Split(n, '/')[0] && '/' !in Split(n, '/')[1]
    ensures n == Split(n, '/')[0] + "/" + Split(n, '/')[1] ||
            StartsWith(n, Split(n, '/')[0] + "/" + Split(n, '/')[1] + "/")
  {
    SplitHead(n, '/');
    var e := Split(n, '/')[0];
    var rest := n[|e| + 1..];
    SplitHead(rest, '/');
    var a := Split(rest, '/')[0];
    JoinAfterPrefix(n, e + "/", a);
  }

  /** What a name joined as `e/a` or `e/a/…` says about its pieces. */
  lemma JoinedPieces(n: string, e: string, a: string)
    requires n == e + "/" + a || StartsWith(n, e + "/" + a + "/")
    ensures |e| < |n| && StartsWith(n, e) && n[|e|] == '/'
    ensures StartsWith(n[|e| + 1..], a)
    ensures |e| + 1 + |a| == |n| || n[|e| + 1 + |a|] == '/'
  {
    var p := e + "/" + a;
    assert StartsWith(n, p) by {
      if n != p {
        PrefixOfPrefix(n, p, "/");
      }
    }
    assert n[..|p|] == p;
    assert n[..|e|] == p[..|e|] == e;
    assert n[|e|] == p[|e|] == '/';
    assert n[|e| + 1..][..|a|] == n[..|p|][|e| + 1..] == a;
    if n != p {
      assert n[|p|] == (e + "/" + a + "/")[|p|] == '/';
    }
  }

  /** Joining an environment and an application with `/`, with or without more
      pieces after a further `/`, gives back that reference. */
  lemma RefOfJoin(e: string, a: string, t: string)
    requires '/' !in e && '/' !in a
    ensures RefOf(e + "/" + a) == ApplicationDeploymentRef(e, a)
    ensures RefOf(e + "/" + a + "/" + t) == ApplicationDeploymentRef(e, a)
  {
    ExtensionStartsWith(e + "/" + a + "/", t);
    JoinedRef(e + "/" + a, e, a);
    JoinedRef(e + "/" + a + "/" + t, e, a);
  }

  lemma JoinedRef(n: string, e: string, a: string)
    requires '/' !in e && '/' !in a
    requires n == e + "/" + a || StartsWith(n, e + "/" + a + "/")
    ensures '/' in n && RefOf(n) == ApplicationDeploymentRef(e, a)
  {
    JoinedPieces(n, e, a);
    assert '/' in n;
    var r := RefOf(n);
    JoinedPieces(n, r.environment, r.application);
    PieceUnique(n, e, r.environment, '/');
    PieceUnique(n[|e| + 1..], a, r.application, '/');
  }

  /** The extension-less names of the files, in file order. */
  function BareNames(files: seq<AuroraConfigFile>): (r: seq<string>)
    ensures |r| == |files|
    ensures forall i :: 0 <= i < |files| ==> r[i] == RemoveExtension(files[i].name)
  {
    seq(|files|, i requires 0 <= i < |files| => RemoveExtension(files[i].name))
  }

  /** Each name split into its reference, in order. */
  function SplitRefs(names: seq<string>): (r: seq<ApplicationDeploymentRef>)
    requires forall n :: n in names ==> '/' in n
    ensures |r| == |names| && forall i :: 0 <= i < |names| ==> r[i] == RefOf(names[i])
  {
    seq(|names|, i requires 0 <= i < |names| => RefOf(names[i]))
  }

  /** The references of every application file, in file order: the extension-less
      names, filtered, each split into its reference. */
  function GetApplicationDeploymentRefs(c: AuroraConfig): (r: seq<ApplicationDeploymentRef>)
    ensures var kept := Filter(BareNames(c.files), IsApplicationFileName);
      |r| == |kept| && forall i :: 0 <= i < |r| ==> '/' in kept[i] && r[i] == RefOf(kept[i])
  {
    SplitRefs(Filter(BareNames(c.files), IsApplicationFileName))
  }

  /** A reference is returned iff some file's extension-less name is an application
      file name splitting into it; there is at most one per file. */
  lemma ApplicationRefsMembers(c: AuroraConfig)
    ensures |GetApplicationDeploymentRefs(c)| <= |c.files|
    ensures forall ref :: ref in GetApplicationDeploymentRefs(c) <==>
      exists f :: f in c.files && IsApplicationFileName(RemoveExtension(f.name)) && ref == RefOf(RemoveExtension(f.name))
  {
    var r := GetApplicationDeploymentRefs(c);
    var names := BareNames(c.files);
    var kept := Filter(names, IsApplicationFileName);
    forall ref | ref in r
      ensures exists f :: f in c.files && IsApplicationFileName(RemoveExtension(f.name)) && ref == RefOf(RemoveExtension(f.name))
    {
      var i :| 0 <= i < |r| && r[i] == ref;
      assert kept[i] in kept;
      var j :| 0 <= j < |names| && names[j] == kept[i];
      assert c.files[j] in c.files;
    }
    forall f | f in c.files && IsApplicationFileName(RemoveExtension(f.name))
      ensures RefOf(RemoveExtension(f.name)) in r
    {
      var j :| 0 <= j < |c.files| && c.files[j] == f;
      assert names[j] in names;
      var i :| 0 <= i < |kept| && kept[i] == names[j];
      assert r[i] == RefOf(RemoveExtension(f.name));
    }
  }

  // ---------------------------------------------------------------------------
  // Layer resolution

  /** The file `env/app` that is not an override. */
  predicate IsApplicationFileFor(f: AuroraConfigFile, ref: ApplicationDeploymentRef) {
    RemoveExtension(f.name) == ref.environment + "/" + ref.application && !f.override
  }

  /** The first non-override file named `env/app` (any extension), or the error
      naming the missing file. */
  function GetApplicationFile(c: AuroraConfig, ref: ApplicationDeploymentRef): (r: Result<AuroraConfigFile, ConfigError>)
    ensures r.Ok? ==> r.value in c.files && IsApplicationFileFor(r.value, ref)
    ensures r.Ok? ==> exists i :: (0 <= i < |c.files| && c.files[i] == r.value &&
      forall j :: 0 <= j < i ==> !IsApplicationFileFor(c.files[j], ref))
    ensures r.Err? <==> forall f :: f in c.files ==> !IsApplicationFileFor(f, ref)
    ensures r.Err? ==> r.error == IllegalArgument("Should find applicationFile " + ref.environment + "/" + ref.application + ".(json|yaml)")
  {
    match Find(c.files, (f: AuroraConfigFile) => IsApplicationFileFor(f, ref))
    case Some(f) => Ok(f)
    case None => Err(IllegalArgument("Should find applicationFile " + ref.environment + "/" + ref.application + ".(json|yaml)"))
  }

  /** The base layer named by the application file's `baseFile`, else the application. */
  function BaseFileName(app: AuroraConfigFile, ref: ApplicationDeploymentRef): string {
    match Get(app.contents, "baseFile")
    case Some(n) => RemoveExtension(AsText(n))
    case None => ref.application
  }

  /** The environment layer named by the application file's `envFile`, else `about`. */
  function EnvFileName(app: AuroraConfigFile): string {
    match Get(app.contents, "envFile")
    case Some(n) => RemoveExtension(AsText(n))
    case None => "about"
  }

  /** A non-override file in the environment's folder whose extension-less name is `envFile`. */
  predicate IsEnvFileFor(f: AuroraConfigFile, environment: string, envFile: string) {
    StartsWith(f.name, environment) && RemoveExtension(RemovePrefix(f.name, environment + "/")) == envFile && !f.override
  }

  /** The first non-override file in the environment's folder named `envFile`, as
      `find` returns it, or the error naming the missing file. */
  function FindEnvFile(c: AuroraConfig, environment: string, envFile: string): (r: Result<Json, ConfigError>)
    ensures r.Ok? <==> exists f :: f in c.files && IsEnvFileFor(f, environment, envFile)
    ensures r.Ok? ==> exists i :: (0 <= i < |c.files| && IsEnvFileFor(c.files[i], environment, envFile) &&
      r.value == c.files[i].contents && forall j :: 0 <= j < i ==> !IsEnvFileFor(c.files[j], environment, envFile))
    ensures r.Err? ==> r.error == IllegalArgument("Should find envFile " + envFile + ".(json|yaml")
  {
    match Find(c.files, (f: AuroraConfigFile) => IsEnvFileFor(f, environment, envFile))
    case Some(f) => Ok(f.contents)
    case None => Err(IllegalArgument("Should find envFile " + envFile + ".(json|yaml"))
  }

  /** The `includeEnvFile` named by the environment file, as text. */
  function IncludeOf(envJson: Json): Option<string> {
    match Get(envJson, "includeEnvFile")
    case Some(n) => Some(AsText(n))
    case None => None
  }

  /** The layer specs in order: the global `about`, the base file, the included about
      file when there is one, the environment's about file and the application file;
      all different, as they differ in type. */
  function LayerSpecs(baseFile: string, envPath: string, appPath: string, included: Option<string>): (r: seq<FileSpec>)
    ensures |r| == if included.Some? then 5 else 4
    ensures NoDuplicates(r)
    ensures r[0] == FileSpec("about", GLOBAL) && r[1] == FileSpec(baseFile, BASE)
    ensures r[|r| - 2] == FileSpec(envPath, ENV) && r[|r| - 1] == FileSpec(appPath, APP)
    ensures included.Some? ==> r[2] == FileSpec(RemoveExtension(included.value), INCLUDE_ABOUT)
  {
    var includeSpec := if included.Some? then [FileSpec(RemoveExtension(included.value), INCLUDE_ABOUT)] else [];
    var specs := [FileSpec("about", GLOBAL), FileSpec(baseFile, BASE)] + includeSpec +
      [FileSpec(envPath, ENV), FileSpec(appPath, APP)];
    assert NoDuplicates(specs) by {
      assert forall i, j :: 0 <= i < j < |specs| ==> specs[i].fileType != specs[j].fileType;
    }
    DistinctOfDistinct(specs);
    Distinct(specs)
  }

  /** `findFileSpec`: the layers of an application deployment. The application file
      must exist, its `envFile` must start with `about`, the environment file must
      exist, and an included file's last segment must start with `about`. */
  function FindFileSpec(c: AuroraConfig, ref: ApplicationDeploymentRef): (r: Result<seq<FileSpec>, ConfigError>)
    ensures GetApplicationFile(c, ref).Err? ==> r == Err(GetApplicationFile(c, ref).error)
    ensures GetApplicationFile(c, ref).Ok? ==>
      var app := GetApplicationFile(c, ref).value;
      var envFile := EnvFileName(app);
      var env := FindEnvFile(c, ref.environment, envFile);
      && (!StartsWith(envFile, "about") ==> r == Err(IllegalArgument("envFile must start with about")))
      && (StartsWith(envFile, "about") && env.Err? ==> r == Err(env.error))
      && (StartsWith(envFile, "about") && env.Ok? ==>
            var included := IncludeOf(env.value);
            if included.Some? && !StartsWith(SubstringAfterLast(included.value, '/'), "about") then
              r == Err(IllegalArgument("included envFile must start with about"))
            else
              r == Ok(LayerSpecs(BaseFileName(app, ref), ref.environment + "/" + envFile,
                                 ref.environment + "/" + ref.application, included)))
  {
    var app :- GetApplicationFile(c, ref);
    var baseFile := BaseFileName(app, ref);
    var envFile := EnvFileName(app);
    if !StartsWith(envFile, "about") then Err(IllegalArgument("envFile must start with about"))
    else
      var envJson :- FindEnvFile(c, ref.environment, envFile);
      var included := IncludeOf(envJson);
      if included.Some? && !StartsWith(SubstringAfterLast(included.value, '/'), "about") then
        Err(IllegalArgument("included envFile must start with about"))
      else
        Ok(LayerSpecs(baseFile, ref.environment + "/" + envFile, ref.environment + "/" + ref.application, included))
  }

  /** The first file whose extension-less name is the spec's name, marked with the
      spec's type; nothing when there is none. */
  function FindLayer(spec: FileSpec, files: seq<AuroraConfigFile>): (r: Option<AuroraConfigFile>)
    ensures r.None? <==> forall j :: 0 <= j < |files| ==> RemoveExtension(files[j].name) != spec.name
    ensures r.Some? ==> exists i :: (0 <= i < |files| && RemoveExtension(files[i].name) == spec.name &&
      r.value == files[i].(typeHint := Some(spec.fileType)) &&
      forall j :: 0 <= j < i ==> RemoveExtension(files[j].name) != spec.name)
  {
    match Find(files, (f: AuroraConfigFile) => RemoveExtension(f.name) == spec.name)
    case Some(f) => Some(f.(typeHint := Some(spec.fileType)))
    case None => None
  }

  /** `findFiles`: each spec paired, position for position, with its layer. */
  function FindFiles(specs: seq<FileSpec>, files: seq<AuroraConfigFile>): (r: seq<Option<AuroraConfigFile>>)
    ensures |r| == |specs|
    ensures forall i :: 0 <= i < |specs| ==> r[i] == FindLayer(specs[i], files)
  {
    if specs == [] then [] else [FindLayer(specs[0], files)] + FindFiles(specs[1..], files)
  }

  /** The specs that have no layer among `files`, in spec order. */
  function MissingSpecs(specs: seq<FileSpec>, files: seq<AuroraConfigFile>): (r: seq<FileSpec>)
    ensures |r| <= |specs|
    ensures forall s :: s in r <==> s in specs && FindLayer(s, files).None?
  {
    if specs == [] then []
    else
      var rest := MissingSpecs(specs[1..], files);
      assert forall s :: s in specs <==> s == specs[0] || s in specs[1..];
      if FindLayer(specs[0], files).None? then [specs[0]] + rest else rest
  }

  function DescribeSpecs(specs: seq<FileSpec>): (r: seq<string>)
    ensures |r| == |specs|
    ensures forall i :: 0 <= i < |specs| ==> r[i] == TypeName(specs[i].fileType) + " file with name " + specs[i].name
  {
    if specs == [] then []
    else [TypeName(specs[0].fileType) + " file with name " + specs[0].name] + DescribeSpecs(specs[1..])
  }

  /** With no spec missing, every spec has its layer. */
  lemma NothingMissingAllFound(specs: seq<FileSpec>, files: seq<AuroraConfigFile>)
    requires |MissingSpecs(specs, files)| == 0
    ensures forall i :: 0 <= i < |specs| ==> FindFiles(specs, files)[i].Some?
  {
    forall i | 0 <= i < |specs| ensures FindFiles(specs, files)[i].Some? {
      assert specs[i] in specs;
    }
  }

  /** The single error that names every missing layer. */
  function MissingFilesMessage(missing: seq<FileSpec>): string {
    "Some required AuroraConfig (json|yaml) files missing. " + Join(DescribeSpecs(missing), ",") + "."
  }

  /** The files of an application deployment: its layers in spec order, then the
      override files that match a spec; an error naming every missing layer. */
  function GetFilesForApplication(c: AuroraConfig, ref: ApplicationDeploymentRef, overrides: seq<AuroraConfigFile>)
    : (r: Result<seq<AuroraConfigFile>, ConfigError>)
    ensures FindFileSpec(c, ref).Err? ==> r == Err(FindFileSpec(c, ref).error)
    ensures FindFileSpec(c, ref).Ok? ==>
      var specs := FindFileSpec(c, ref).value;
      && (|MissingSpecs(specs, c.files)| > 0 ==> r == Err(IllegalArgument(MissingFilesMessage(MissingSpecs(specs, c.files)))))
      && (|MissingSpecs(specs, c.files)| == 0 ==>
            && r.Ok?
            && |specs| <= |r.value|
            && (forall i :: 0 <= i < |specs| ==> Some(r.value[i]) == FindLayer(specs[i], c.files))
            && r.value[|specs|..] == Somes(FindFiles(specs, overrides)))
  {
    var specs :- FindFileSpec(c, ref);
    var found := FindFiles(specs, c.files);
    var overriding := Somes(FindFiles(specs, overrides));
    var missing := MissingSpecs(specs, c.files);
    if |missing| > 0 then Err(IllegalArgument(MissingFilesMessage(missing)))
    else
      LayersThenOverrides(specs, c.files, overriding);
      Ok(Somes(found) + overriding)
  }

  /** With nothing missing, the found layers come first, one per spec and in spec
      order, and whatever follows them is kept as it is. */
  lemma LayersThenOverrides(specs: seq<FileSpec>, files: seq<AuroraConfigFile>, tail: seq<AuroraConfigFile>)
    requires |MissingSpecs(specs, files)| == 0
    ensures var r := Somes(FindFiles(specs, files)) + tail;
      && |specs| <= |r|
      && (forall i :: 0 <= i < |specs| ==> Some(r[i]) == FindLayer(specs[i], files))
      && r[|specs|..] == tail
  {
    var found := FindFiles(specs, files);
    NothingMissingAllFound(specs, files);
    SomesAllPresent(found);
    var r := Somes(found) + tail;
    assert r[|specs|..] == tail;
  }

  // ---------------------------------------------------------------------------
  // Editing

  /** `findFile`: the first file with exactly that name. */
  function FindFile(c: AuroraConfig, filename: string): (r: Option<AuroraConfigFile>)
    ensures r.None? <==> forall j :: 0 <= j < |c.files| ==> c.files[j].name != filename
    ensures r.Some? ==> exists i :: IsFirstNamed(c.files, filename, i) && r.value == c.files[i]
  {
    Find(c.files, (f: AuroraConfigFile) => f.name == filename)
  }

  /** `i` is the index of the first file called `name`. */
  predicate IsFirstNamed(files: seq<AuroraConfigFile>, name: string, i: int) {
    0 <= i < |files| && files[i].name == name && forall j :: 0 <= j < i ==> files[j].name != name
  }

  /** What writing `newFile` under `name` yields: the file is appended when no file has
      that name; when one does and a previous version is given that is not its version,
      the versioning error; otherwise the first such file is replaced in place and all
      others are kept. The configuration keeps its name and version. */
  ghost predicate UpdateOutcome(c: AuroraConfig, name: string, newFile: AuroraConfigFile, previousVersion: Option<string>,
                          r: Result<(AuroraConfigFile, AuroraConfig), ConfigError>)
  {
    && (r.Ok? ==> r.value.0 == newFile && r.value.1.name == c.name && r.value.1.version == c.version)
    && ((forall j :: 0 <= j < |c.files| ==> c.files[j].name != name) ==>
          r.Ok? && r.value.1.files == c.files + [newFile])
    && (forall i :: IsFirstNamed(c.files, name, i) ==>
          if previousVersion.Some? && c.files[i].version != previousVersion.value then
            r == Err(VersionConflict(c, c.files[i], previousVersion.value))
          else
            r.Ok? && r.value.1.files == c.files[i := newFile])
  }

  /** `updateFile`: a copy of the configuration with `name` written, guarded by an
      optimistic version check. */
  method UpdateFile(c: AuroraConfig, name: string, contents: Json, previousVersion: Option<string>,
                    versionOf: Json -> string)
    returns (r: Result<(AuroraConfigFile, AuroraConfig), ConfigError>)
    ensures UpdateOutcome(c, name, NewFile(name, contents, versionOf), previousVersion, r)
  {
    var files := c.files;
    var indexOfFileToUpdate := IndexOfFirst(files, (f: AuroraConfigFile) => f.name == name);
    var newFile := NewFile(name, contents, versionOf);
    if indexOfFileToUpdate == -1 {
      files := files + [newFile];
    } else {
      var currentFile := files[indexOfFileToUpdate];
      if previousVersion.Some? && currentFile.version != previousVersion.value {
        return Err(VersionConflict(c, currentFile, previousVersion.value));
      }
      files := files[indexOfFileToUpdate := newFile];
    }
    r := Ok((newFile, c.(files := files)));
  }

  /** `patchFile`: the named file's contents transformed by `patch`, written back with
      `updateFile`; a missing file is an error. */
  method PatchFile(c: AuroraConfig, filename: string, patch: Json -> Json, previousVersion: Option<string>,
                   versionOf: Json -> string)
    returns (r: Result<(AuroraConfigFile, AuroraConfig), ConfigError>)
    ensures FindFile(c, filename).None? ==>
      r == Err(IllegalArgument("No such file " + filename + " in AuroraConfig " + c.name))
    ensures FindFile(c, filename).Some? ==>
      UpdateOutcome(c, filename, NewFile(filename, patch(FindFile(c, filename).value.contents), versionOf), previousVersion, r)
  {
    var auroraConfigFile := FindFile(c, filename);
    if auroraConfigFile.None? {
      return Err(IllegalArgument("No such file " + filename + " in AuroraConfig " + c.name));
    }
    var fileContents := patch(auroraConfigFile.value.contents);
    r := UpdateFile(c, filename, fileContents, previousVersion, versionOf);
  }

  /** After a successful write, looking the name up finds the new file, every other
      name finds what it found before, and at most one file was added. */
  lemma {:induction false} UpdateThenFind(c: AuroraConfig, name: string, newFile: AuroraConfigFile,
                                         previousVersion: Option<string>, r: Result<(AuroraConfigFile, AuroraConfig), ConfigError>)
    requires newFile.name == name
    requires UpdateOutcome(c, name, newFile, previousVersion, r)
    requires r.Ok?
    ensures FindFile(r.value.1, name) == Some(newFile)
    ensures forall n :: n != name ==> FindFile(r.value.1, n) == FindFile(c, n)
    ensures |r.value.1.files| == |c.files| || |r.value.1.files| == |c.files| + 1
  {
    var c' := r.value.1;
    if forall j :: 0 <= j < |c.files| ==> c.files[j].name != name {
      AppendedThenFind(c, c', newFile);
    } else {
      var i :| 0 <= i < |c.files| && c.files[i].name == name;
      var k := FirstNamedExists(c.files, name, i);
      assert c'.files == c.files[k := newFile];
      ReplacedThenFind(c, c', newFile, k);
    }
  }

  lemma AppendedThenFind(c: AuroraConfig, c': AuroraConfig, newFile: AuroraConfigFile)
    requires forall j :: 0 <= j < |c.files| ==> c.files[j].name != newFile.name
    requires c'.files == c.files + [newFile]
    ensures FindFile(c', newFile.name) == Some(newFile)
    ensures forall n :: n != newFile.name ==> FindFile(c', n) == FindFile(c, n)
  {
    FoundAt(c', newFile.name, |c.files|);
    forall n | n != newFile.name ensures FindFile(c', n) == FindFile(c, n) {
      SameLookup(c, c', n);
    }
  }

  lemma ReplacedThenFind(c: AuroraConfig, c': AuroraConfig, newFile: AuroraConfigFile, k: int)
    requires IsFirstNamed(c.files, newFile.name, k)
    requires c'.files == c.files[k := newFile]
    ensures FindFile(c', newFile.name) == Some(newFile)
    ensures forall n :: n != newFile.name ==> FindFile(c', n) == FindFile(c, n)
  {
    FoundAt(c', newFile.name, k);
    forall n | n != newFile.name ensures FindFile(c', n) == FindFile(c, n) {
      SameLookup(c, c', n);
    }
  }

  lemma FirstNamedExists(files: seq<AuroraConfigFile>, name: string, i: int) returns (k: int)
    requires 0 <= i < |files| && files[i].name == name
    ensures IsFirstNamed(files, name, k) && k <= i
  {
    k := IndexOfFirst(files, (f: AuroraConfigFile) => f.name == name);
  }

  /** The file at the first index carrying a name is what `findFile` returns. */
  lemma FoundAt(c: AuroraConfig, name: string, i: int)
    requires IsFirstNamed(c.files, name, i)
    ensures FindFile(c, name) == Some(c.files[i])
  {
    var r := FindFile(c, name);
    var k :| IsFirstNamed(c.files, name, k) && r.value == c.files[k];
  }

  /** Two file lists that agree on which positions carry `n`, and on those files,
      give the same `findFile(n)`. */
  lemma SameLookup(c: AuroraConfig, c': AuroraConfig, n: string)
    requires |c.files| <= |c'.files|
    requires forall j :: 0 <= j < |c.files| ==> (c.files[j].name == n <==> c'.files[j].name == n)
    requires forall j :: 0 <= j < |c.files| && c.files[j].name == n ==> c'.files[j] == c.files[j]
    requires forall j :: |c.files| <= j < |c'.files| ==> c'.files[j].name != n
    ensures FindFile(c', n) == FindFile(c, n)
  {
    match FindFile(c, n)
    case None =>
    case Some(f) =>
      var i :| IsFirstNamed(c.files, n, i) && f == c.files[i];
      assert IsFirstNamed(c'.files, n, i);
      FoundAt(c', n, i);
  }
}

=== FILE: bigip_feature.dfy ===
/** The BigIp feature: an application exposed through the BigIp load balancer gets a
    route named `<name>-bigip`, whose host is the SHA-1 of `<namespace>/<name>`, and a
    `BigIp` object that points the load balancer at that route. The SHA-1 digest is a
    parameter. */
module BigIpFeature {
  import opened Wrappers
  import opened Strings
  import opened JsonTree
  import opened FieldHandlers
  import opened AuroraConfigModel
  import opened MappingFunctions
  import opened DeploymentSpec
  import opened Resources
  import opened CollectionUtils
  import RouteFeature

  const FeatureName := "BigIpFeature"

  /** `enable`: every deployment but a job. */
  predicate Enable(s: Spec) {
    !s.isJob
  }

  // ---------------------------------------------------------------------------
  // Handlers

  function AnnotationHandlersFor(keys: seq<string>): (r: seq<Handler>)
    ensures |r| == |keys|
    ensures forall i :: 0 <= i < |keys| ==>
      r[i] == Validated("bigip/routeAnnotations/" + keys[i], AnnotationKeyHasNoSlash(keys[i]))
  {
    if keys == [] then []
    else [Validated("bigip/routeAnnotations/" + keys[0], AnnotationKeyHasNoSlash(keys[0]))] + AnnotationHandlersFor(keys[1..])
  }

  /** The route-annotation handlers: one per key any layer sets under
      `bigip/routeAnnotations`, each refusing a key that holds `/`. */
  function RouteAnnotationHandlers(files: seq<AuroraConfigFile>): (r: seq<Handler>)
    ensures |r| == |FieldsAt(files, ["bigip", "routeAnnotations"])|
    ensures forall key :: key in FieldsAt(files, ["bigip", "routeAnnotations"]) ==>
      Validated("bigip/routeAnnotations/" + key, AnnotationKeyHasNoSlash(key)) in r
  {
    var keys := FieldsAt(files, ["bigip", "routeAnnotations"]);
    var r := AnnotationHandlersFor(keys);
    assert forall key :: key in keys ==> exists i :: 0 <= i < |keys| && keys[i] == key;
    r
  }

  /** The six `bigip` fields, `enabled` checked to be a boolean. */
  function BigIpFields(): (r: seq<Handler>)
    ensures |r| == 6
    ensures Names(r) == ["bigip/service", "bigip/asmPolicy", "bigip/externalHost", "bigip/oauthScopes", "bigip/apiPaths", "bigip/enabled"]
    ensures r[5] == Validated("bigip/enabled", IsBoolean)
    ensures forall i :: 0 <= i < 5 ==> r[i].validator == NoValidation && r[i].defaultValue.None?
  {
    var r := [Plain("bigip/service"), Plain("bigip/asmPolicy"), Plain("bigip/externalHost"), Plain("bigip/oauthScopes"),
              Plain("bigip/apiPaths"), Validated("bigip/enabled", IsBoolean)];
    var names := Names(r);
    assert names == [names[0], names[1], names[2], names[3], names[4], names[5]];
    r
  }

  /** `handlers`: the six `bigip` fields and the route-annotation handlers. */
  function Handlers(files: seq<AuroraConfigFile>): (r: seq<Handler>)
    ensures |r| == 6 + |FieldsAt(files, ["bigip", "routeAnnotations"])|
    ensures r[..6] == BigIpFields()
    ensures r[6..] == RouteAnnotationHandlers(files)
  {
    var fixed := BigIpFields();
    var annotations := RouteAnnotationHandlers(files);
    assert (fixed + annotations)[..6] == fixed && (fixed + annotations)[6..] == annotations;
    fixed + annotations
  }

  // ---------------------------------------------------------------------------
  // validate

  const ServiceRequired := Problem(ValidationError, "bigip/service is required if any other bigip flags are set")

  /** `validate`: throws when some `bigip` field is set but `bigip/service` is missing
      or empty. */
  function Validate(s: Spec): (r: Result<seq<Problem>, Problem>)
    ensures r.Err? <==> HasSubKeys(s, "bigip") && (Text(s, "bigip/service").None? || Text(s, "bigip/service").value == "")
    ensures r.Err? ==> r.error == ServiceRequired
    ensures r.Ok? ==> r.value == []
  {
    var service := Text(s, "bigip/service");
    if HasSubKeys(s, "bigip") && (service.None? || service.value == "") then Err(ServiceRequired)
    else Ok([])
  }

  // ---------------------------------------------------------------------------
  // generate

  /** `isFeatureEnabled`: `bigip/enabled` when set, otherwise whether any `bigip`
      field is set. */
  predicate IsFeatureEnabled(s: Spec) {
    BoolOrNull(s, "bigip/enabled").GetOr(HasSubKeys(s, "bigip"))
  }

  function RouteName(s: Spec): string {
    s.name + "-bigip"
  }

  /** The route of the load balancer: the `bigip/routeAnnotations` plus `bigipRoute`. */
  function BigIpRoute(s: Spec, sha1Hex: string -> string): (r: RouteFeature.Route)
    ensures r.objectName == RouteName(s) && r.host == sha1Hex(s.namespace + "/" + s.name)
    ensures r.path.None? && r.tls.None?
    ensures "bigipRoute" in r.annotations && r.annotations["bigipRoute"] == "true"
    ensures forall a :: a in r.annotations && a != "bigipRoute" ==>
      "bigip/routeAnnotations/" + a in s.fields && r.annotations[a] == AsText(s.fields["bigip/routeAnnotations/" + a].value)
    ensures forall a :: "bigip/routeAnnotations/" + a in s.fields && a != "bigipRoute" ==> a in r.annotations
  {
    var annotations := MapAddPair(RouteAnnotations(s, "bigip/routeAnnotations/"), Some(("bigipRoute", "true")));
    RouteFeature.Route(RouteName(s), sha1Hex(s.namespace + "/" + s.name), None, annotations, None)
  }

  /** The `BigIp` object. The scopes and API paths are read with the one-argument
      `getDelimitedStringOrArrayAsSetOrNull`, whose default delimiter is not part of
      this model: `delimiter` stands for it. */
  function BigIpObject(s: Spec, delimiter: char): (r: KubeObject)
    ensures r.BigIpObj? && r.meta.name == s.name && r.meta.namespace == s.namespace
    ensures r.spec.routeName == RouteName(s)
    ensures r.spec.serviceName == FieldText(s, "bigip/service")
    ensures r.spec.asmPolicy == Text(s, "bigip/asmPolicy") && r.spec.externalHost == Text(s, "bigip/externalHost")
    ensures r.spec.oauthScopes == DelimitedSetOrNull(s, "bigip/oauthScopes", delimiter)
    ensures r.spec.apiPaths == DelimitedSetOrNull(s, "bigip/apiPaths", delimiter)
  {
    BigIpObj(ObjectMeta(s.name, s.namespace, map[], map[]),
             BigIpSpec(RouteName(s), FieldText(s, "bigip/service"), Text(s, "bigip/asmPolicy"),
                       DelimitedSetOrNull(s, "bigip/oauthScopes", delimiter), DelimitedSetOrNull(s, "bigip/apiPaths", delimiter),
                       Text(s, "bigip/externalHost")))
  }

  /** `generate`: nothing unless the feature is enabled; otherwise the route, targeting
      the application's service, and the `BigIp` object. */
  function Generate(s: Spec, routeSuffix: string, sha1Hex: string -> string, delimiter: char): (r: seq<AuroraResource>)
    ensures !IsFeatureEnabled(s) ==> r == []
    ensures IsFeatureEnabled(s) ==>
      |r| == 2 &&
      r[0] == Generated(RouteFeature.GenerateRoute(BigIpRoute(s, sha1Hex), s.namespace, s.name, routeSuffix), FeatureName, false) &&
      r[1] == Generated(BigIpObject(s, delimiter), FeatureName, false)
  {
    if !IsFeatureEnabled(s) then []
    else
      [Generated(RouteFeature.GenerateRoute(BigIpRoute(s, sha1Hex), s.namespace, s.name, routeSuffix), FeatureName, false),
       Generated(BigIpObject(s, delimiter), FeatureName, false)]
  }

  /** The `BigIp` object names the route generated beside it, and that route targets
      the application's service under the hashed host and carries `bigipRoute`. */
  lemma BigIpPointsAtItsRoute(s: Spec, routeSuffix: string, sha1Hex: string -> string, delimiter: char)
    requires IsFeatureEnabled(s)
    ensures var r := Generate(s, routeSuffix, sha1Hex, delimiter);
      r[1].resource.spec.routeName == r[0].resource.meta.name &&
      r[0].resource.toKind == "Service" && r[0].resource.toName == s.name &&
      r[0].resource.host == sha1Hex(s.namespace + "/" + s.name) + routeSuffix &&
      "bigipRoute" in r[0].resource.meta.annotations && r[0].resource.meta.annotations["bigipRoute"] == "true"
  {
    var route := BigIpRoute(s, sha1Hex);
    var obj := RouteFeature.GenerateRoute(route, s.namespace, s.name, routeSuffix);
    BigIpRouteAnnotation(route.annotations);
    assert obj.meta.annotations == RouteFeature.OutputAnnotations(route.annotations);
  }

  /** `bigipRoute` survives the annotation-key rewriting of route generation. */
  lemma BigIpRouteAnnotation(a: map<string, string>)
    requires "bigipRoute" in a && a["bigipRoute"] == "true"
    ensures var out := RouteFeature.OutputAnnotations(a);
      "bigipRoute" in out && out["bigipRoute"] == "true"
  {
    var k := "bigipRoute";
    assert '/' !in k && '|' !in k;
  }

  // ---------------------------------------------------------------------------
  // fetchExternalHostsAndPaths

  function Prefixed(host: string, paths: seq<string>): (r: seq<string>)
    ensures |r| == |paths|
    ensures forall i :: 0 <= i < |r| ==> r[i] == host + paths[i]
  {
    seq(|paths|, i requires 0 <= i < |paths| => host + paths[i])
  }

  /** `fetchExternalHostsAndPaths`: with the feature enabled and an external host, the
      host followed by each API path (split on `delimiter`, as in `BigIpObject`). */
  function FetchExternalHostsAndPaths(s: Spec, delimiter: char): (r: seq<string>)
    ensures !IsFeatureEnabled(s) || "bigip/externalHost" !in s.fields ==> r == []
    ensures IsFeatureEnabled(s) && "bigip/externalHost" in s.fields ==>
      |r| == |DelimitedSet(s, "bigip/apiPaths", delimiter)| &&
      forall i :: 0 <= i < |r| ==> StartsWith(r[i], Text(s, "bigip/externalHost").value)
  {
    if !IsFeatureEnabled(s) then []
    else
      match Text(s, "bigip/externalHost")
      case None => []
      case Some(host) =>
        var r := Prefixed(host, DelimitedSet(s, "bigip/apiPaths", delimiter));
        assert forall i :: 0 <= i < |r| ==> r[i][..|host|] == host;
        r
  }

  /** What `fetchExternalHostsAndPaths` reports is what the generated `BigIp` object
      publishes: its external host followed by each of its API paths. */
  lemma ExternalPathsMatchBigIp(s: Spec, routeSuffix: string, sha1Hex: string -> string, delimiter: char)
    requires FetchExternalHostsAndPaths(s, delimiter) != []
    ensures var r := FetchExternalHostsAndPaths(s, delimiter);
      var spec := Generate(s, routeSuffix, sha1Hex, delimiter)[1].resource.spec;
      spec.externalHost.Some? && spec.apiPaths.Some? &&
      r == Prefixed(spec.externalHost.value, spec.apiPaths.value)
  {
  }
}

=== FILE: collection_utils.dfy ===
/** Collection helpers: `addIfNotNull`/`addIf`, label normalisation, the nested-map
    `deepSet`, `nullOnEmpty`/`takeIfNotEmpty` and `filterNullValues`. Kotlin ordered
    sets are sequences without duplicates; an absent argument is `None`. */
module CollectionUtils {
  import opened Wrappers
  import opened Lists
  import opened JsonTree
  import opened FieldHandlers

  // ---------------------------------------------------------------------------
  // addIfNotNull / addIf

  /** `Map.addIfNotNull(Pair?)`: the pair wins over an existing entry. */
  function MapAddPair<K, V>(m: map<K, V>, entry: Option<(K, V)>): (r: map<K, V>)
    ensures entry.None? ==> r == m
    ensures entry.Some? ==> entry.value.0 in r && r[entry.value.0] == entry.value.1
    ensures entry.Some? ==> r.Keys == m.Keys + {entry.value.0}
    ensures entry.Some? ==> forall k :: k in m && k != entry.value.0 ==> r[k] == m[k]
  {
    match entry
    case None => m
    case Some((k, v)) => m[k := v]
  }

  /** `Map.addIfNotNull(Map?)`: the added map wins on clashing keys. */
  function MapAddMap<K, V>(m: map<K, V>, other: Option<map<K, V>>): (r: map<K, V>)
    ensures other.None? ==> r == m
    ensures other.Some? ==> r.Keys == m.Keys + other.value.Keys
    ensures other.Some? ==> forall k :: k in other.value ==> r[k] == other.value[k]
    ensures other.Some? ==> forall k :: k in m && k !in other.value ==> r[k] == m[k]
  {
    match other
    case None => m
    case Some(o) => m + o
  }

  /** `Set.addIfNotNull(T?)` on an insertion-ordered set. */
  function SetAddElement<T(==,!new)>(s: seq<T>, x: Option<T>): (r: seq<T>)
    ensures x.None? ==> r == s
    ensures forall y :: y in r <==> y in s || (x.Some? && y == x.value)
    ensures NoDuplicates(s) ==> NoDuplicates(r)
    ensures |s| <= |r| && r[..|s|] == s
  {
    if x.None? || x.value in s then s else s + [x.value]
  }

  /** `Set.addIfNotNull(Set?)`: the receiver's elements, then the new ones in order. */
  function SetAddAll<T(==,!new)>(s: seq<T>, other: Option<seq<T>>): (r: seq<T>)
    ensures other.None? ==> r == s
    ensures other.Some? ==> NoDuplicates(r) && forall y :: y in r <==> y in s || y in other.value
  {
    match other
    case None => s
    case Some(o) => Distinct(s + o)
  }

  /** Adding a set to a set keeps the receiver first and in order. */
  lemma {:induction false} SetAddAllKeepsReceiver<T(!new)>(s: seq<T>, o: seq<T>)
    requires NoDuplicates(s)
    ensures |s| <= |SetAddAll(s, Some(o))| && SetAddAll(s, Some(o))[..|s|] == s
  {
    if o == [] {
      assert s + o == s;
      DistinctOfDistinct(s);
    } else {
      var u := s + o[..|o| - 1];
      assert s + o == u + [o[|o| - 1]];
      assert (s + o)[..|s + o| - 1] == u;
      SetAddAllKeepsReceiver(s, o[..|o| - 1]);
    }
  }

  /** `List.addIfNotNull(T?)`. */
  function ListAddElement<T>(xs: seq<T>, x: Option<T>): (r: seq<T>)
    ensures x.None? ==> r == xs
    ensures x.Some? ==> |r| == |xs| + 1 && r[..|xs|] == xs && r[|xs|] == x.value
  {
    if x.Some? then xs + [x.value] else xs
  }

  /** `List.addIfNotNull(List?)`. */
  function ListAddAll<T>(xs: seq<T>, ys: Option<seq<T>>): (r: seq<T>)
    ensures ys.None? ==> r == xs
    ensures ys.Some? ==> |r| == |xs| + |ys.value| && r[..|xs|] == xs && r[|xs|..] == ys.value
  {
    if ys.Some? then xs + ys.value else xs
  }

  /** `addIf(condition, value)`: appends iff the condition holds. */
  function AddIf<T>(condition: bool, xs: seq<T>, x: T): (r: seq<T>)
    ensures condition ==> |r| == |xs| + 1 && r[..|xs|] == xs && r[|xs|] == x
    ensures !condition ==> r == xs
  {
    if condition then xs + [x] else xs
  }

  /** `addIf(condition, values)`. */
  function AddIfAll<T>(condition: bool, xs: seq<T>, ys: seq<T>): (r: seq<T>)
    ensures condition ==> |r| == |xs| + |ys| && r[..|xs|] == xs && r[|xs|..] == ys
    ensures !condition ==> r == xs
  {
    if condition then xs + ys else xs
  }

  /** Every `addIfNotNull` of a list is the conditional `addIf` on presence. */
  lemma AddIfNotNullIsAddIf<T>(xs: seq<T>, x: Option<T>, ys: Option<seq<T>>)
    ensures x.Some? ==> ListAddElement(xs, x) == AddIf(true, xs, x.value)
    ensures ListAddAll(xs, ys) == AddIfAll(ys.Some?, xs, ys.GetOr([]))
  {
    if ys.Some? {
      assert ListAddAll(xs, ys) == xs + ys.value;
    }
  }

  // ---------------------------------------------------------------------------
  // nullOnEmpty / takeIfNotEmpty

  /** `Map?.nullOnEmpty()`. */
  function MapNullOnEmpty<K, V>(m: Option<map<K, V>>): (r: Option<map<K, V>>)
    ensures r.None? <==> m.None? || m.value == map[]
    ensures r.Some? ==> r == m
  {
    if m.None? then m else if |m.value| == 0 then None else m
  }

  /** `Collection?.nullOnEmpty()`. */
  function NullOnEmpty<T>(c: Option<seq<T>>): (r: Option<seq<T>>)
    ensures r.None? <==> c.None? || c.value == []
    ensures r.Some? ==> r == c
  {
    if c.None? then c else if |c.value| == 0 then None else c
  }

  /** `Map?.takeIfNotEmpty()`. */
  function MapTakeIfNotEmpty<K, V>(m: Option<map<K, V>>): (r: Option<map<K, V>>)
  {
    if m.Some? && |m.value| != 0 then m else None
  }

  /** `Collection?.takeIfNotEmpty()`. */
  function TakeIfNotEmpty<T>(c: Option<seq<T>>): (r: Option<seq<T>>)
  {
    if c.Some? && |c.value| != 0 then c else None
  }

  /** The two spellings agree on every input, for maps and for collections. */
  lemma TakeIfNotEmptyIsNullOnEmpty<K, V, T>(m: Option<map<K, V>>, c: Option<seq<T>>)
    ensures MapTakeIfNotEmpty(m) == MapNullOnEmpty(m)
    ensures TakeIfNotEmpty(c) == NullOnEmpty(c)
  {
  }

  // ---------------------------------------------------------------------------
  // filterNullValues

  /** The entries with a value, in iteration order. */
  function PresentEntries<K, V>(entries: seq<(K, Option<V>)>): (r: seq<(K, V)>)
    ensures |r| <= |entries|
  {
    if entries == [] then []
    else
      var last := entries[|entries| - 1];
      var init := PresentEntries(entries[..|entries| - 1]);
      if last.1.Some? then init + [(last.0, last.1.value)] else init
  }

  /** `filterNullValues`: the map's entries (in iteration order) whose value is not null. */
  method FilterNullValues<K, V>(entries: seq<(K, Option<V>)>) returns (r: seq<(K, V)>)
    ensures r == PresentEntries(entries)
  {
    r := [];
    for i := 0 to |entries|
      invariant r == PresentEntries(entries[..i])
    {
      assert entries[..i + 1][..i] == entries[..i];
      if entries[i].1.Some? {
        r := r + [(entries[i].0, entries[i].1.value)];
      }
    }
    assert entries[..|entries|] == entries;
  }

  /** Exactly the entries with a value survive, with that value. */
  lemma {:induction false} PresentEntriesMembers<K, V>(entries: seq<(K, Option<V>)>)
    ensures forall k, v :: (k, v) in PresentEntries(entries) <==> (k, Some(v)) in entries
  {
    if entries != [] {
      var init := entries[..|entries| - 1];
      PresentEntriesMembers(init);
      assert entries == init + [entries[|entries| - 1]];
    }
  }

  /** Filtering keeps the order: the result is the present values read left to right. */
  lemma {:induction false} PresentEntriesAllPresent<K, V>(entries: seq<(K, Option<V>)>)
    requires forall i :: 0 <= i < |entries| ==> entries[i].1.Some?
    ensures |PresentEntries(entries)| == |entries|
    ensures forall i :: 0 <= i < |entries| ==> PresentEntries(entries)[i] == (entries[i].0, entries[i].1.value)
  {
    if entries != [] {
      PresentEntriesAllPresent(entries[..|entries| - 1]);
    }
  }

  // ---------------------------------------------------------------------------
  // normalizeLabels

  const MaxLabelValueLength: nat := 63

  predicate Alnum(c: char) {
    'A' <= c <= 'Z' || 'a' <= c <= 'z' || '0' <= c <= '9'
  }

  predicate LabelInnerChar(c: char) {
    Alnum(c) || c == '-' || c == '_' || c == '.'
  }

  /** A full match of `(([A-Za-z0-9][-A-Za-z0-9_.]*)?[A-Za-z0-9])?`: empty, or
      alphanumeric at both ends with only label characters between. */
  predicate LabelMatches(s: string) {
    s == [] || (Alnum(s[0]) && Alnum(s[|s| - 1]) && forall i :: 0 < i < |s| - 1 ==> LabelInnerChar(s[i]))
  }

  /** The last 63 characters (everything when shorter). */
  function LabelTail(value: string): (r: string)
    ensures |r| <= MaxLabelValueLength
    ensures |r| == if |value| < MaxLabelValueLength then |value| else MaxLabelValueLength
    ensures r == value[|value| - |r|..]
  {
    var start := if |value| - MaxLabelValueLength >= 0 then |value| - MaxLabelValueLength else 0;
    value[start..]
  }

  /** Drop leading characters until what remains matches the label pattern. */
  function StripUntilLabel(t: string): (r: string)
    ensures LabelMatches(r)
    ensures |r| <= |t| && r == t[|t| - |r|..]
    decreases |t|
  {
    if LabelMatches(t) then t else StripUntilLabel(t[1..])
  }

  /** What `StripUntilLabel` drops never matched: it keeps the longest matching suffix. */
  lemma {:induction false} StripUntilLabelLongest(t: string)
    ensures forall i :: 0 <= i < |t| - |StripUntilLabel(t)| ==> !LabelMatches(t[i..])
    decreases |t|
  {
    if !LabelMatches(t) {
      StripUntilLabelLongest(t[1..]);
      assert forall i :: 1 <= i <= |t| ==> t[1..][i - 1..] == t[i..];
    }
  }

  /** The label value `toOpenShiftSafeLabel` produces. */
  function SafeLabel(value: string): string {
    StripUntilLabel(LabelTail(value))
  }

  /** `toOpenShiftSafeLabel`: cut to the last 63 characters, then drop leading
      characters while the pattern does not match; the empty string always matches,
      so the loop ends. */
  method ToOpenShiftSafeLabel(value: string) returns (tail: string)
    ensures tail == SafeLabel(value)
  {
    var startIndex := if |value| - MaxLabelValueLength >= 0 then |value| - MaxLabelValueLength else 0;
    tail := value[startIndex..];
    while !LabelMatches(tail)
      invariant StripUntilLabel(tail) == SafeLabel(value)
      decreases |tail|
    {
      tail := tail[1..];
    }
  }

  /** A safe label is a suffix of the original of at most 63 characters that matches
      the pattern, and the longest such suffix of the 63-character tail. */
  lemma SafeLabelProperties(value: string)
    ensures LabelMatches(SafeLabel(value))
    ensures |SafeLabel(value)| <= MaxLabelValueLength
    ensures SafeLabel(value) == value[|value| - |SafeLabel(value)|..]
    ensures forall j :: |value| - |LabelTail(value)| <= j < |value| - |SafeLabel(value)| ==> !LabelMatches(value[j..])
  {
    var t := LabelTail(value);
    var r := SafeLabel(value);
    var d := |value| - |t|;
    StripUntilLabelLongest(t);
    assert r == t[|t| - |r|..];
    assert t[|t| - |r|..] == value[d + |t| - |r|..];
    forall j | d <= j < |value| - |r|
      ensures !LabelMatches(value[j..])
    {
      assert value[j..] == t[j - d..];
    }
  }

  /** A value that already is a short legal label is kept as it is. */
  lemma SafeLabelKeepsLegal(value: string)
    requires |value| <= MaxLabelValueLength && LabelMatches(value)
    ensures SafeLabel(value) == value
  {
    assert LabelTail(value) == value;
  }

  /** A value ending in a non-alphanumeric character has no non-empty matching
      suffix, so it is normalised to the empty label. */
  lemma SafeLabelTrailingSymbol(value: string)
    requires value != [] && !Alnum(value[|value| - 1])
    ensures SafeLabel(value) == ""
  {
    SafeLabelProperties(value);
  }

  /** `normalizeLabels`: the same keys, each value made a safe label. */
  function NormalizeLabels(labels: map<string, string>): (r: map<string, string>)
    ensures r.Keys == labels.Keys
    ensures forall k :: k in r ==> r[k] == SafeLabel(labels[k])
  {
    map k | k in labels :: SafeLabel(labels[k])
  }

  /** One entry of `normalizeLabels`, for callers that know the value under a key. */
  lemma NormalizedValue(labels: map<string, string>, k: string, v: string)
    ensures k in labels && labels[k] == v ==> k in NormalizeLabels(labels) && NormalizeLabels(labels)[k] == SafeLabel(v)
  {
  }

  // ---------------------------------------------------------------------------
  // deepSet

  /** The values of a `MutableMap<String, Any>`: nested maps, or anything else. */
  datatype Tree = Value(v: Json) | Node(children: map<string, Tree>)

  /** The map reached by following `parts` through nested maps, if every step is one. */
  function Descend(m: map<string, Tree>, parts: seq<string>): Option<map<string, Tree>>
    decreases |parts|
  {
    if parts == [] then Some(m)
    else if parts[0] !in m then None
    else match m[parts[0]]
      case Node(c) => Descend(c, parts[1..])
      case Value(_) => None
  }

  /** `deepSet(parts, value)`: walks `parts`, reusing an existing nested map or
      creating an empty one at each step, and writes every entry of `value` into the
      innermost map. An existing entry on the path that is not a map fails the cast
      to `MutableMap`, a `ClassCastException`; the model's message names the key where
      the JVM's names the two classes. */
  function DeepSet(m: map<string, Tree>, parts: seq<string>, value: map<string, Tree>): (r: Result<map<string, Tree>, Problem>)
    ensures r.Ok? && parts != [] ==> r.value.Keys == m.Keys + {parts[0]}
    ensures r.Ok? && parts != [] ==> forall k :: k in m && k != parts[0] ==> r.value[k] == m[k]
    ensures parts == [] ==> r == Ok(m + value)
    decreases |parts|
  {
    if parts == [] then Ok(m + value)
    else
      var key := parts[0];
      if key in m && m[key].Value? then Err(Problem(ClassCast, "the value at " + key + " is not a map"))
      else
        var sub := if key in m then m[key].children else map[];
        var inner :- DeepSet(sub, parts[1..], value);
        Ok(m[key := Node(inner)])
  }

  /** After a successful `deepSet`, the map at the end of `parts` holds every entry of
      `value`, and kept every other entry it had. */
  lemma {:induction false} DeepSetThenDescend(m: map<string, Tree>, parts: seq<string>, value: map<string, Tree>)
    requires DeepSet(m, parts, value).Ok?
    decreases |parts|
    ensures Descend(DeepSet(m, parts, value).value, parts).Some?
    ensures forall k :: k in value ==>
      k in Descend(DeepSet(m, parts, value).value, parts).value && Descend(DeepSet(m, parts, value).value, parts).value[k] == value[k]
    ensures Descend(m, parts).Some? ==> forall k :: k in Descend(m, parts).value && k !in value ==>
      k in Descend(DeepSet(m, parts, value).value, parts).value
      && Descend(DeepSet(m, parts, value).value, parts).value[k] == Descend(m, parts).value[k]
  {
    if parts != [] {
      var key := parts[0];
      var sub := if key in m then m[key].children else map[];
      DeepSetThenDescend(sub, parts[1..], value);
      if key in m {
        assert Descend(m, parts) == Descend(sub, parts[1..]);
      }
    }
  }

  /** `deepSet` fails exactly when some step of the path already holds a non-map value. */
  lemma {:induction false} DeepSetFailsIff(m: map<string, Tree>, parts: seq<string>, value: map<string, Tree>)
    ensures DeepSet(m, parts, value).Err? <==>
      exists i :: 0 <= i < |parts| && BlockedAt(m, parts, i)
    decreases |parts|
  {
    if parts != [] {
      var key := parts[0];
      if key in m && m[key].Value? {
        assert BlockedAt(m, parts, 0);
      } else {
        var sub := if key in m then m[key].children else map[];
        DeepSetFailsIff(sub, parts[1..], value);
        if key in m {
          forall i | 0 <= i < |parts[1..]|
            ensures BlockedAt(sub, parts[1..], i) <==> BlockedAt(m, parts, i + 1)
          {
            assert parts[..i + 1][1..] == parts[1..][..i];
            assert parts[i + 1] == parts[1..][i];
          }
          assert !BlockedAt(m, parts, 0);
          if DeepSet(m, parts, value).Err? {
            var i :| 0 <= i < |parts[1..]| && BlockedAt(sub, parts[1..], i);
            assert BlockedAt(m, parts, i + 1);
          }
          if exists i :: 0 <= i < |parts| && BlockedAt(m, parts, i) {
            var i :| 0 <= i < |parts| && BlockedAt(m, parts, i);
            assert i != 0;
            assert BlockedAt(sub, parts[1..], i - 1);
          }
        } else {
          NothingBlocksFresh(parts[1..], value);
          forall i | 0 <= i < |parts| ensures !BlockedAt(m, parts, i) {
            if i > 0 {
              assert parts[..i][0] == key;
            }
          }
        }
      }
    }
  }

  /** Step `i` of `parts` holds a value that is not a map. */
  predicate BlockedAt(m: map<string, Tree>, parts: seq<string>, i: nat)
    requires i < |parts|
  {
    var d := Descend(m, parts[..i]);
    d.Some? && parts[i] in d.value && d.value[parts[i]].Value?
  }

  /** Writing below a fresh (empty) map never fails. */
  lemma {:induction false} NothingBlocksFresh(parts: seq<string>, value: map<string, Tree>)
    ensures DeepSet(map[], parts, value).Ok?
    decreases |parts|
  {
    if parts != [] {
      NothingBlocksFresh(parts[1..], value);
    }
  }
}

=== FILE: command_service.dfy ===
/** Command construction for the cluster: CREATE or UPDATE decided by whether the
    object already exists, the ordering of a deployment's objects (image stream and
    its import first when the deployment was paused), the route recreation rule, the
    delete commands and the error extraction from responses. Calls to the cluster and
    the merge, image-stream and status helpers are parameters. */
module CommandService {
  import opened Wrappers
  import opened Strings
  import opened Lists
  import opened JsonTree
  import opened DeploymentSpec

  datatype OperationType = CREATE | UPDATE | DELETE | NOOP

  datatype Command = Command(
    operationType: OperationType,
    payload: Json,
    previous: Option<Json>,
    generated: Option<Json>)

  datatype Response = Response(
    command: Command,
    responseBody: Option<Json>,
    success: bool,
    exception: Option<string>)

  /** `openshiftKind`: the object's `kind`, lower-cased. */
  function OpenShiftKind(j: Json): string {
    ToLower(AsText(At(j, ["kind"]).GetOr(JNull)))
  }

  /** `openshiftName`: the object's `metadata/name`. */
  function OpenShiftName(j: Json): string {
    AsText(At(j, ["metadata", "name"]).GetOr(JNull))
  }

  /** The cluster lookup `get(kind, namespace, name, retry)`: the existing object's body. */
  type Getter = (string, string, string, bool) -> Option<Json>

  /** `createOpenShiftCommand`: CREATE with the new object when merging is off, the
      kind is `imagestreamimport` or nothing exists; otherwise UPDATE with the merge
      of new and existing, remembering the existing body and the generated object. */
  function CreateOpenShiftCommand(namespace: string, newResource: Json, mergeWithExisting: bool, retry: bool,
                                  get: Getter, merge: (Json, Json) -> Json): (c: Command)
    ensures c.operationType == CREATE || c.operationType == UPDATE
    ensures c.operationType == CREATE <==>
      !mergeWithExisting || OpenShiftKind(newResource) == "imagestreamimport"
      || get(OpenShiftKind(newResource), namespace, OpenShiftName(newResource), retry).None?
    ensures c.operationType == CREATE ==> c == Command(CREATE, newResource, None, None)
    ensures c.operationType == UPDATE ==>
      var existing := get(OpenShiftKind(newResource), namespace, OpenShiftName(newResource), retry).value;
      c == Command(UPDATE, merge(newResource, existing), Some(existing), Some(newResource))
  {
    var kind := OpenShiftKind(newResource);
    var name := OpenShiftName(newResource);
    var existing := if mergeWithExisting && kind != "imagestreamimport" then get(kind, namespace, name, retry) else None;
    match existing
    case None => Command(CREATE, newResource, None, None)
    case Some(body) => Command(UPDATE, merge(newResource, body), Some(body), Some(newResource))
  }

  /** `createMergedUpdateCommand`: the merged command, always sent as an UPDATE. */
  function CreateMergedUpdateCommand(namespace: string, resource: Json, get: Getter, merge: (Json, Json) -> Json): (c: Command)
    ensures c.operationType == UPDATE
    ensures get(OpenShiftKind(resource), namespace, OpenShiftName(resource), true).None? || OpenShiftKind(resource) == "imagestreamimport" ==>
      c.payload == resource && c.previous.None?
    ensures c.payload == CreateOpenShiftCommand(namespace, resource, true, true, get, merge).payload
  {
    CreateOpenShiftCommand(namespace, resource, true, true, get, merge).(operationType := UPDATE)
  }

  // ---------------------------------------------------------------------------
  // Ordering

  predicate IsImageStreamOrDc(j: Json) {
    OpenShiftKind(j) == "imagestream" || OpenShiftKind(j) == "deploymentconfig"
  }

  /** The first object of a kind (`deploymentConfig()`, `imageStream()`). */
  function FirstOfKind(objects: seq<Json>, kind: string): (r: Option<Json>)
    ensures r.Some? ==> r.value in objects && OpenShiftKind(r.value) == kind
    ensures r.None? <==> forall o :: o in objects ==> OpenShiftKind(o) != kind
  {
    Find(objects, (o: Json) => OpenShiftKind(o) == kind)
  }

  /** `deploymentPaused`: the existing deployment config runs zero replicas. */
  predicate DeploymentPaused(previous: Json) {
    At(previous, ["spec", "replicas"]) == Some(JInt(0))
  }

  /** The helpers of `importImageStreamCommand` that are not part of this model. */
  datatype ImportHelpers = ImportHelpers(
    imageChangeTagName: Json -> Option<string>,
    dockerImageUrl: (Json, string) -> Option<string>,
    createImport: (string, string) -> Json)

  /** `importImageStreamCommand`: the import of the tag the deployment config follows,
      when the stream knows a docker image for that tag. */
  function ImportImageStreamCommand(dc: Command, imageStream: Command, h: ImportHelpers): (r: Option<Json>)
    ensures r.Some? <==> h.imageChangeTagName(dc.payload).Some?
                         && h.dockerImageUrl(imageStream.payload, h.imageChangeTagName(dc.payload).value).Some?
    ensures r.Some? ==>
      var tag := h.imageChangeTagName(dc.payload).value;
      r.value == h.createImport(h.dockerImageUrl(imageStream.payload, tag).value, OpenShiftName(imageStream.payload))
  {
    match h.imageChangeTagName(dc.payload)
    case None => None
    case Some(tag) =>
      match h.dockerImageUrl(imageStream.payload, tag)
      case None => None
      case Some(url) => Some(h.createImport(url, OpenShiftName(imageStream.payload)))
  }

  /** The commands `orderObjects` builds for the deployment config and the image stream. */
  function DcCommand(objects: seq<Json>, namespace: string, merge: bool, get: Getter, mergeFn: (Json, Json) -> Json): Option<Command> {
    match FirstOfKind(objects, "deploymentconfig")
    case None => None
    case Some(n) => Some(CreateOpenShiftCommand(namespace, n, merge, false, get, mergeFn))
  }

  function IsCommand(objects: seq<Json>, namespace: string, merge: bool, get: Getter, mergeFn: (Json, Json) -> Json): Option<Command> {
    match FirstOfKind(objects, "imagestream")
    case None => None
    case Some(n) => Some(CreateOpenShiftCommand(namespace, n, merge, false, get, mergeFn))
  }

  /** The image-stream import of `orderObjects`: made only for a deployment config and
      an image stream that both exist, outside development, for a stream that already
      exists in the cluster, and when its tag and docker image are known. */
  function ImageStreamImport(objects: seq<Json>, templateType: TemplateType, namespace: string, merge: bool,
                             get: Getter, mergeFn: (Json, Json) -> Json, h: ImportHelpers): (r: Option<Json>)
    ensures r.Some? <==>
      var dc := DcCommand(objects, namespace, merge, get, mergeFn);
      var isCmd := IsCommand(objects, namespace, merge, get, mergeFn);
      && dc.Some? && isCmd.Some? && templateType != Development && isCmd.value.operationType == UPDATE
      && h.imageChangeTagName(dc.value.payload).Some?
      && h.dockerImageUrl(isCmd.value.payload, h.imageChangeTagName(dc.value.payload).value).Some?
    ensures r.Some? ==>
      var dc := DcCommand(objects, namespace, merge, get, mergeFn);
      var isCmd := IsCommand(objects, namespace, merge, get, mergeFn);
      && dc.Some? && isCmd.Some?
      && r == ImportImageStreamCommand(dc.value, isCmd.value, h)
      && r.value == h.createImport(h.dockerImageUrl(isCmd.value.payload, h.imageChangeTagName(dc.value.payload).value).value,
                                   OpenShiftName(isCmd.value.payload))
  {
    var dc := DcCommand(objects, namespace, merge, get, mergeFn);
    var isCmd := IsCommand(objects, namespace, merge, get, mergeFn);
    if dc.None? || isCmd.None? then None
    else if templateType == Development then None
    else if isCmd.value.operationType == CREATE then None
    else ImportImageStreamCommand(dc.value, isCmd.value, h)
  }

  /** The order of a paused deployment: the image stream payload, the import, the
      other objects, the deployment config object. */
  function PausedOrder(isPayload: Option<Json>, imp: Option<Json>, others: seq<Json>, dcNode: Json): (r: seq<Json>)
    ensures |r| == |ToSeq(isPayload)| + |ToSeq(imp)| + |others| + 1
    ensures r[|r| - 1] == dcNode
    ensures isPayload.Some? ==> r[0] == isPayload.value
    ensures imp.Some? ==> r[|ToSeq(isPayload)|] == imp.value
    ensures r[|ToSeq(isPayload)| + |ToSeq(imp)|..|r| - 1] == others
    ensures forall o :: o in others ==> o in r
    ensures imp.Some? ==> imp.value in r
  {
    var r := ToSeq(isPayload) + ToSeq(imp) + others + [dcNode];
    assert r[|ToSeq(isPayload)| + |ToSeq(imp)|..|r| - 1] == others;
    assert imp.Some? ==> r[|ToSeq(isPayload)|] == imp.value;
    r
  }

  predicate Paused(objects: seq<Json>, namespace: string, merge: bool, get: Getter, mergeFn: (Json, Json) -> Json) {
    var dc := DcCommand(objects, namespace, merge, get, mergeFn);
    dc.Some? && dc.value.previous.Some? && DeploymentPaused(dc.value.previous.value)
  }

  function IsPayload(objects: seq<Json>, namespace: string, merge: bool, get: Getter, mergeFn: (Json, Json) -> Json): Option<Json> {
    var isCmd := IsCommand(objects, namespace, merge, get, mergeFn);
    if isCmd.Some? then Some(isCmd.value.payload) else None
  }

  /** `orderObjects`: when the existing deployment config is paused, the image stream
      (as merged) and its import go first and the deployment config last, with every
      other object between in its order; otherwise the objects as given, then the
      import. */
  function OrderObjects(objects: seq<Json>, templateType: TemplateType, namespace: string, merge: bool,
                        get: Getter, mergeFn: (Json, Json) -> Json, h: ImportHelpers): (r: seq<Json>)
    ensures forall o :: o in objects && !IsImageStreamOrDc(o) ==> o in r
    ensures ImageStreamImport(objects, templateType, namespace, merge, get, mergeFn, h).Some? ==>
      ImageStreamImport(objects, templateType, namespace, merge, get, mergeFn, h).value in r
    ensures Paused(objects, namespace, merge, get, mergeFn) ==>
      (FirstOfKind(objects, "deploymentconfig").Some? && |r| > 0 && r[|r| - 1] == FirstOfKind(objects, "deploymentconfig").value)
  {
    var imp := ImageStreamImport(objects, templateType, namespace, merge, get, mergeFn, h);
    if Paused(objects, namespace, merge, get, mergeFn) then
      var dc := FirstOfKind(objects, "deploymentconfig");
      assert dc.Some? by {
        assert DcCommand(objects, namespace, merge, get, mergeFn).Some?;
      }
      PausedOrder(IsPayload(objects, namespace, merge, get, mergeFn), imp,
        Filter(objects, (o: Json) => !IsImageStreamOrDc(o)), dc.value)
    else
      var r := objects + ToSeq(imp);
      assert imp.Some? ==> r[|objects|] == imp.value;
      r
  }


  /** Without a paused deployment the objects keep their order and only the import,
      when there is one, is appended. */
  lemma OrderObjectsNotPaused(objects: seq<Json>, templateType: TemplateType, namespace: string, merge: bool,
                              get: Getter, mergeFn: (Json, Json) -> Json, h: ImportHelpers)
    requires !Paused(objects, namespace, merge, get, mergeFn)
    ensures var r := OrderObjects(objects, templateType, namespace, merge, get, mergeFn, h);
      var imp := ImageStreamImport(objects, templateType, namespace, merge, get, mergeFn, h);
      && |r| == |objects| + |ToSeq(imp)|
      && r[..|objects|] == objects
      && (imp.Some? ==> r[|objects|] == imp.value)
  {
  }

  /** A paused deployment is reordered: the merged image stream (when there is one)
      first, then the import (which needs the stream), then every object that is
      neither an image stream nor a deployment config in its order, and the deployment
      config object last. */
  lemma OrderObjectsPaused(objects: seq<Json>, templateType: TemplateType, namespace: string, merge: bool,
                           get: Getter, mergeFn: (Json, Json) -> Json, h: ImportHelpers)
    requires Paused(objects, namespace, merge, get, mergeFn)
    ensures FirstOfKind(objects, "deploymentconfig").Some?
    ensures ImageStreamImport(objects, templateType, namespace, merge, get, mergeFn, h).Some? ==>
      IsPayload(objects, namespace, merge, get, mergeFn).Some?
    ensures OrderObjects(objects, templateType, namespace, merge, get, mergeFn, h)
      == PausedOrder(IsPayload(objects, namespace, merge, get, mergeFn),
                     ImageStreamImport(objects, templateType, namespace, merge, get, mergeFn, h),
                     Filter(objects, (o: Json) => !IsImageStreamOrDc(o)),
                     FirstOfKind(objects, "deploymentconfig").value)
    ensures forall o :: o in Filter(objects, (o: Json) => !IsImageStreamOrDc(o)) <==> o in objects && !IsImageStreamOrDc(o)
  {
  }

  // ---------------------------------------------------------------------------
  // Delete commands

  const DefaultApiResources: seq<string> :=
    ["BuildConfig", "DeploymentConfig", "ConfigMap", "Secret", "Service", "Route", "ImageStream"]

  /** The label selectors of the objects of earlier deploys of the application. */
  function LabelSelectors(name: string, deployId: string): seq<string> {
    ["app=" + name, "booberDeployId", "booberDeployId!=" + deployId]
  }

  function DeleteAll(objects: seq<Json>): (r: seq<Command>)
    ensures |r| == |objects|
    ensures forall i :: 0 <= i < |objects| ==> r[i] == Command(DELETE, objects[i], Some(objects[i]), None)
  {
    if objects == [] then [] else [Command(DELETE, objects[0], Some(objects[0]), None)] + DeleteAll(objects[1..])
  }

  /** `createOpenShiftDeleteCommands`: a DELETE for every object of every listed kind
      that carries the application's label but another deploy id; `list` stands for
      `getByLabelSelectors(kind, namespace, selectors)`. */
  function CreateOpenShiftDeleteCommands(name: string, namespace: string, deployId: string, apiResources: seq<string>,
                                         list: (string, string, seq<string>) -> seq<Json>): (r: seq<Command>)
    ensures |r| == |FoundObjects(name, namespace, deployId, apiResources, list)|
    ensures forall i :: 0 <= i < |r| ==>
      var o := FoundObjects(name, namespace, deployId, apiResources, list)[i];
      r[i] == Command(DELETE, o, Some(o), None)
  {
    DeleteAll(FoundObjects(name, namespace, deployId, apiResources, list))
  }

  function FoundObjects(name: string, namespace: string, deployId: string, apiResources: seq<string>,
                        list: (string, string, seq<string>) -> seq<Json>): (r: seq<Json>)
    ensures forall o :: o in r <==> exists k :: k in apiResources && o in list(k, namespace, LabelSelectors(name, deployId))
  {
    if apiResources == [] then []
    else
      var rest := FoundObjects(name, namespace, deployId, apiResources[1..], list);
      assert forall k :: k in apiResources <==> k == apiResources[0] || k in apiResources[1..];
      list(apiResources[0], namespace, LabelSelectors(name, deployId)) + rest
  }

  // ---------------------------------------------------------------------------
  // Applying commands

  /** `textValue()` of a node reached by a pointer; a missing node has none. */
  function TextAt(j: Json, path: seq<string>): Option<string> {
    match At(j, path)
    case None => None
    case Some(n) => TextValue(n)
  }

  /** `mustRecreateRoute`: a route that existed before must be recreated when its host
      text or its path node changed. */
  function MustRecreateRoute(newRoute: Json, previousRoute: Option<Json>): (r: bool)
    ensures previousRoute.None? ==> !r
    ensures previousRoute.Some? ==>
      (r <==> TextAt(previousRoute.value, ["spec", "host"]) != TextAt(newRoute, ["spec", "host"])
              || At(previousRoute.value, ["spec", "path"]) != At(newRoute, ["spec", "path"]))
  {
    if previousRoute.None? then false
    else
      var hostChanged := TextAt(previousRoute.value, ["spec", "host"]) != TextAt(newRoute, ["spec", "host"]);
      var pathChanged := At(previousRoute.value, ["spec", "path"]) != At(newRoute, ["spec", "path"]);
      hostChanged || pathChanged
  }

  /** `isType(UPDATE, "route")`. */
  predicate IsRouteUpdate(c: Command) {
    c.operationType == UPDATE && OpenShiftKind(c.payload) == "route"
  }

  /** The commands `createAndApplyObjects` sends for one command. */
  function CommandsToSend(c: Command): (r: seq<Command>)
    ensures IsRouteUpdate(c) && MustRecreateRoute(c.payload, c.previous) && c.generated.Some? ==>
      r == [c.(operationType := DELETE), c.(operationType := CREATE, payload := c.generated.value)]
    ensures !(IsRouteUpdate(c) && MustRecreateRoute(c.payload, c.previous)) ==> r == [c]
  {
    if IsRouteUpdate(c) && MustRecreateRoute(c.payload, c.previous) then
      [c.(operationType := DELETE), c.(operationType := CREATE, payload := c.generated.GetOr(c.payload))]
    else [c]
  }

  /** Every UPDATE made by `createOpenShiftCommand` remembers the generated object, so
      a recreated route is created from exactly what was generated. */
  lemma RecreatedRouteUsesGenerated(namespace: string, newResource: Json, merge: bool, get: Getter, mergeFn: (Json, Json) -> Json)
    requires var c := CreateOpenShiftCommand(namespace, newResource, merge, false, get, mergeFn);
      IsRouteUpdate(c) && MustRecreateRoute(c.payload, c.previous)
    ensures var c := CreateOpenShiftCommand(namespace, newResource, merge, false, get, mergeFn);
      && |CommandsToSend(c)| == 2
      && CommandsToSend(c)[0].operationType == DELETE && CommandsToSend(c)[0].payload == c.payload
      && CommandsToSend(c)[1] == Command(CREATE, newResource, c.previous, Some(newResource))
  {
  }

  /** The status helpers `findErrorMessage` delegates to for routes and image-stream
      imports. */
  type StatusError = (string, Json) -> Option<string>

  /** `findErrorMessage`: a failed response reports its exception; a successful route
      or imagestreamimport reports what its status says; any other successful response
      reports none. */
  function FindErrorMessage(response: Response, statusError: StatusError): (r: Option<string>)
    ensures !response.success ==> r == response.exception
    ensures response.success && response.responseBody.None? ==> r.None?
    ensures (response.success && response.responseBody.Some?
             && OpenShiftKind(response.responseBody.value) != "route"
             && OpenShiftKind(response.responseBody.value) != "imagestreamimport") ==> r.None?
    ensures (response.success && response.responseBody.Some?
             && (OpenShiftKind(response.responseBody.value) == "route"
                 || OpenShiftKind(response.responseBody.value) == "imagestreamimport")) ==>
      r == statusError(OpenShiftKind(response.responseBody.value), response.responseBody.value)
  {
    if !response.success then response.exception
    else match response.responseBody
      case None => None
      case Some(body) =>
        var kind := OpenShiftKind(body);
        if kind == "route" || kind == "imagestreamimport" then statusError(kind, body) else None
  }

  /** A response with an error becomes a failure carrying the message. */
  function MarkError(response: Response, statusError: StatusError): (r: Response)
    ensures FindErrorMessage(response, statusError).Some? ==>
      r == response.(success := false, exception := FindErrorMessage(response, statusError))
    ensures FindErrorMessage(response, statusError).None? ==> r == response
  {
    match FindErrorMessage(response, statusError)
    case None => response
    case Some(e) => response.(success := false, exception := Some(e))
  }

  function MarkErrors(responses: seq<Response>, statusError: StatusError): (r: seq<Response>)
    ensures |r| == |responses|
    ensures forall i :: 0 <= i < |r| ==> r[i] == MarkError(responses[i], statusError)
  {
    if responses == [] then [] else [MarkError(responses[0], statusError)] + MarkErrors(responses[1..], statusError)
  }

  function PerformAll(namespace: string, commands: seq<Command>, perform: (string, Command) -> Response): (r: seq<Response>)
    ensures |r| == |commands|
    ensures forall i :: 0 <= i < |r| ==> r[i] == perform(namespace, commands[i])
  {
    if commands == [] then [] else [perform(namespace, commands[0])] + PerformAll(namespace, commands[1..], perform)
  }

  /** `createAndApplyObjects`: build the command, split a route that must be recreated
      into DELETE then CREATE, send each and mark the responses that carry an error. */
  function CreateAndApplyObjects(namespace: string, resource: Json, merge: bool, get: Getter, mergeFn: (Json, Json) -> Json,
                                 perform: (string, Command) -> Response, statusError: StatusError): (r: seq<Response>)
    ensures var cmds := CommandsToSend(CreateOpenShiftCommand(namespace, resource, merge, false, get, mergeFn));
      && |r| == |cmds|
      && forall i :: 0 <= i < |r| ==> r[i] == MarkError(perform(namespace, cmds[i]), statusError)
  {
    var command := CreateOpenShiftCommand(namespace, resource, merge, false, get, mergeFn);
    MarkErrors(PerformAll(namespace, CommandsToSend(command), perform), statusError)
  }

  /** Marking errors never turns a failure into a success, and a response without an
      error is passed on untouched, whatever the other responses hold. */
  lemma MarkErrorsIndependent(responses: seq<Response>, statusError: StatusError, i: nat)
    requires i < |responses|
    ensures !responses[i].success ==> !MarkErrors(responses, statusError)[i].success
    ensures MarkErrors(responses, statusError)[i].success <==>
      responses[i].success && FindErrorMessage(responses[i], statusError).None?
  {
  }
}

=== FILE: config_mapper_v1.dfy ===
/** The version-1 configuration mapper: the handlers it derives from the application's
    files (config, route annotations, mounts, parameters), its fixed handlers, the
    route it builds, and the group, user and secret-folder validators. */
module ConfigMapperV1 {
  import opened Wrappers
  import opened Strings
  import opened Lists
  import opened JsonTree
  import opened FieldHandlers
  import opened DeploymentSpec
  import opened AuroraConfigModel
  import opened MappingFunctions
  import opened Patterns

  // ---------------------------------------------------------------------------
  // Derived handlers

  /** V1's handlers for one config sub-key: one per field, none when it has none. */
  function V1ConfigKeyHandlers(key: string, fields: seq<string>): (r: seq<Handler>)
    ensures |r| == |fields|
    ensures forall i :: 0 <= i < |fields| ==> r[i] == Plain("config/" + key + "/" + fields[i])
  {
    FieldHandlersFor("config/" + key + "/", fields)
  }

  function V1ConfigHandlersFor(keys: seq<string>, files: seq<AuroraConfigFile>): seq<Handler> {
    if keys == [] then []
    else V1ConfigKeyHandlers(keys[0], ConfigFields(files, keys[0])) + V1ConfigHandlersFor(keys[1..], files)
  }

  /** `findConfigFieldHandlers` of the V1 mapper: `config/<key>/<field>` for every field
      of every config sub-key. */
  function FindConfigFieldHandlersV1(files: seq<AuroraConfigFile>): seq<Handler> {
    V1ConfigHandlersFor(FindSubKeys(files, "config"), files)
  }

  predicate HasConfigFields(files: seq<AuroraConfigFile>, key: string) {
    ConfigFields(files, key) != []
  }

  lemma {:induction false} V1ConfigHandlersSkipEmpty(keys: seq<string>, files: seq<AuroraConfigFile>)
    ensures V1ConfigHandlersFor(keys, files) == ConfigHandlersFor(Filter(keys, (k: string) => HasConfigFields(files, k)), files)
  {
    if keys != [] {
      V1ConfigHandlersSkipEmpty(keys[1..], files);
      var fields := ConfigFields(files, keys[0]);
      if fields != [] {
        assert V1ConfigKeyHandlers(keys[0], fields) == ConfigKeyHandlers(keys[0], fields);
      }
    }
  }

  /** V1 and the shared discovery agree except on config sub-keys without fields: the
      shared version addresses such a key as `config/<key>`, V1 drops it. */
  lemma V1ConfigHandlersDropEmptyKeys(files: seq<AuroraConfigFile>)
    ensures FindConfigFieldHandlersV1(files)
      == ConfigHandlersFor(Filter(FindSubKeys(files, "config"), (k: string) => HasConfigFields(files, k)), files)
    ensures (forall k :: k in FindSubKeys(files, "config") ==> HasConfigFields(files, k)) ==>
      FindConfigFieldHandlersV1(files) == FindConfigFieldHandlers(files)
  {
    var keys := FindSubKeys(files, "config");
    V1ConfigHandlersSkipEmpty(keys, files);
    if forall k :: k in keys ==> HasConfigFields(files, k) {
      FilterAll(keys, (k: string) => HasConfigFields(files, k));
    }
  }

  /** The route annotation keys used by any file, each once. */
  function RouteAnnotationKeys(files: seq<AuroraConfigFile>): (r: seq<string>)
    ensures NoDuplicates(r)
    ensures forall k :: k in r <==> exists f :: f in files && k in FieldNamesOf(At(f.contents, ["route", "annotations"]))
  {
    FieldsAt(files, ["route", "annotations"])
  }

  /** `findRouteAnnotaionHandlers`: one plain handler `route/annotations/<key>` per key. */
  function FindRouteAnnotationHandlersV1(files: seq<AuroraConfigFile>): (r: seq<Handler>)
    ensures |r| == |RouteAnnotationKeys(files)|
    ensures forall i :: 0 <= i < |r| ==> r[i] == Plain("route/annotations/" + RouteAnnotationKeys(files)[i])
  {
    FieldHandlersFor("route/annotations/", RouteAnnotationKeys(files))
  }

  /** The key of field `field` of mount `mountName`. */
  function MountKey(mountName: string, field: string): string {
    "mounts/" + mountName + "/" + field
  }

  /** The seven handlers of one mount: `path` is required, `type` must name a mount
      type, `mountName` and `volumeName` default to the mount's own name, `exist`
      defaults to `false`, and `content` and `secretFolder` are plain. */
  function MountHandlers(mountName: string, mountTypes: seq<string>): (r: seq<Handler>)
    ensures |r| == 7
    ensures forall i :: 0 <= i < 7 ==> StartsWith(r[i].name, "mounts/" + mountName + "/")
    ensures r[0] == Validated(MountKey(mountName, "path"), Required("Path is required for mount"))
    ensures r[1] == Validated(MountKey(mountName, "type"), OneOf(mountTypes, None))
    ensures r[2] == WithDefault(MountKey(mountName, "mountName"), JStr(mountName))
    ensures r[3] == WithDefault(MountKey(mountName, "volumeName"), JStr(mountName))
    ensures r[4] == WithDefault(MountKey(mountName, "exist"), JStr("false"))
    ensures r[5] == Plain(MountKey(mountName, "content"))
    ensures r[6] == Plain(MountKey(mountName, "secretFolder"))
    ensures forall i :: 0 <= i < 7 ==> (r[i].defaultValue.Some? <==> 2 <= i <= 4) && (r[i].validator.NoValidation? <==> i >= 2)
  {
    var p := "mounts/" + mountName + "/";
    ExtensionStartsWith(p, "path");
    ExtensionStartsWith(p, "type");
    ExtensionStartsWith(p, "mountName");
    ExtensionStartsWith(p, "volumeName");
    ExtensionStartsWith(p, "exist");
    ExtensionStartsWith(p, "content");
    ExtensionStartsWith(p, "secretFolder");
    [ Validated(MountKey(mountName, "path"), Required("Path is required for mount")),
      Validated(MountKey(mountName, "type"), OneOf(mountTypes, None)),
      WithDefault(MountKey(mountName, "mountName"), JStr(mountName)),
      WithDefault(MountKey(mountName, "volumeName"), JStr(mountName)),
      WithDefault(MountKey(mountName, "exist"), JStr("false")),
      Plain(MountKey(mountName, "content")),
      Plain(MountKey(mountName, "secretFolder")) ]
  }

  function MountHandlersFor(keys: seq<string>, mountTypes: seq<string>): (r: seq<Handler>)
    ensures |r| == 7 * |keys|
    ensures forall i :: 0 <= i < |keys| ==> r[7 * i..7 * i + 7] == MountHandlers(keys[i], mountTypes)
  {
    if keys == [] then []
    else
      var rest := MountHandlersFor(keys[1..], mountTypes);
      var r := MountHandlers(keys[0], mountTypes) + rest;
      assert forall i :: 1 <= i < |keys| ==> r[7 * i..7 * i + 7] == rest[7 * (i - 1)..7 * (i - 1) + 7];
      r
  }

  /** `findMounts`: seven handlers for every mount name, in the order the names are
      first used; `mountTypes` are the names of the mount types. */
  function FindMounts(files: seq<AuroraConfigFile>, mountTypes: seq<string>): (r: seq<Handler>)
    ensures |r| == 7 * |FindSubKeys(files, "mounts")|
    ensures forall i :: 0 <= i < |FindSubKeys(files, "mounts")| ==>
      r[7 * i..7 * i + 7] == MountHandlers(FindSubKeys(files, "mounts")[i], mountTypes)
  {
    MountHandlersFor(FindSubKeys(files, "mounts"), mountTypes)
  }

  /** `findParameters`: `parameters/<key>` for every parameter key. */
  function FindParameters(files: seq<AuroraConfigFile>): (r: seq<Handler>)
    ensures |r| == |FindSubKeys(files, "parameters")|
    ensures forall i :: 0 <= i < |r| ==> r[i] == Plain("parameters/" + FindSubKeys(files, "parameters")[i])
  {
    FieldHandlersFor("parameters/", FindSubKeys(files, "parameters"))
  }

  // ---------------------------------------------------------------------------
  // Fixed handlers and the complete list

  const LowerLetters: seq<ClassItem> := [Range('a', 'z')]

  /** `^[a-z]{0,23}[a-z]$` */
  const AffiliationRegex: Pattern := [Atom(LowerLetters, 0, 23), Atom(LowerLetters, 1, 1)]

  /** `^[a-z][-a-z0-9]{0,23}[a-z0-9]$` */
  const NameRegex: Pattern := [Atom(LowerLetters, 1, 1),
                               Atom([Single('-'), Range('a', 'z'), Range('0', '9')], 0, 23),
                               Atom([Range('a', 'z'), Range('0', '9')], 1, 1)]

  const AffiliationMessage := "Affiliation is must be alphanumeric and under 24 characters"
  const NameMessage := "Name must be alphanumeric and under 24 characters"

  /** The fifteen handlers every V1 deployment has. */
  const FixedV1Handlers: seq<Handler> := [
      Validated("affiliation", MatchesPattern(AffiliationRegex, AffiliationMessage)),
      Validated("cluster", NotBlank("Cluster must be set")),
      Validated("name", MatchesPattern(NameRegex, NameMessage)),
      Plain("envName"),
      Validated("permissions/admin/groups", ValidGroups(true)),
      Validated("permissions/admin/users", ValidUsers),
      Validated("permissions/view/groups", ValidGroups(false)),
      Validated("permissions/view/users", ValidUsers),
      Plain("database"),
      Plain("route/host"),
      Validated("route/path", StartsWithIfPresent("/", "Path must start with /")),
      WithDefault("route/generate", JStr("false")),
      Plain("webseal/host"),
      Plain("webseal/roles"),
      Validated("secretFolder", SecretFolderHasSecrets) ]

  /** The handlers found by scanning the files: route annotations, config, mounts and
      parameters, in that order. */
  function DiscoveredHandlers(files: seq<AuroraConfigFile>, mountTypes: seq<string>): (r: seq<Handler>)
    ensures |r| == |RouteAnnotationKeys(files)| + |FindConfigFieldHandlersV1(files)|
                   + 7 * |FindSubKeys(files, "mounts")| + |FindSubKeys(files, "parameters")|
  {
    FindRouteAnnotationHandlersV1(files) + FindConfigFieldHandlersV1(files)
      + FindMounts(files, mountTypes) + FindParameters(files)
  }

  /** The discovered handlers are, in order, a plain handler per route annotation,
      the config-field handlers, the seven handlers of each mount and a plain handler
      per parameter. */
  lemma DiscoveredHandlersContents(files: seq<AuroraConfigFile>, mountTypes: seq<string>)
    ensures var r := DiscoveredHandlers(files, mountTypes);
      var a := RouteAnnotationKeys(files);
      var c := FindConfigFieldHandlersV1(files);
      var m := FindSubKeys(files, "mounts");
      var p := FindSubKeys(files, "parameters");
      (forall i :: 0 <= i < |a| ==> r[i] == Plain("route/annotations/" + a[i])) &&
      r[|a|..|a| + |c|] == c &&
      (forall i :: 0 <= i < |m| ==> r[|a| + |c| + 7 * i..|a| + |c| + 7 * i + 7] == MountHandlers(m[i], mountTypes)) &&
      (forall i :: 0 <= i < |p| ==> r[|a| + |c| + 7 * |m| + i] == Plain("parameters/" + p[i]))
  {
    HandlerLayout(FindRouteAnnotationHandlersV1(files), FindConfigFieldHandlersV1(files),
                  FindMounts(files, mountTypes), FindParameters(files),
                  RouteAnnotationKeys(files), FindSubKeys(files, "mounts"), FindSubKeys(files, "parameters"), mountTypes);
  }

  /** Where each part of `annotations + config + mounts + parameters` lands. */
  lemma HandlerLayout(annotations: seq<Handler>, config: seq<Handler>, mounts: seq<Handler>, parameters: seq<Handler>,
                      a: seq<string>, m: seq<string>, p: seq<string>, mountTypes: seq<string>)
    requires |annotations| == |a| && forall i :: 0 <= i < |a| ==> annotations[i] == Plain("route/annotations/" + a[i])
    requires |mounts| == 7 * |m| && forall i :: 0 <= i < |m| ==> mounts[7 * i..7 * i + 7] == MountHandlers(m[i], mountTypes)
    requires |parameters| == |p| && forall i :: 0 <= i < |p| ==> parameters[i] == Plain("parameters/" + p[i])
    ensures var r := annotations + config + mounts + parameters;
      (forall i :: 0 <= i < |a| ==> r[i] == Plain("route/annotations/" + a[i])) &&
      r[|a|..|a| + |config|] == config &&
      (forall i :: 0 <= i < |m| ==> r[|a| + |config| + 7 * i..|a| + |config| + 7 * i + 7] == MountHandlers(m[i], mountTypes)) &&
      (forall i :: 0 <= i < |p| ==> r[|a| + |config| + 7 * |m| + i] == Plain("parameters/" + p[i]))
  {
    var r := annotations + config + mounts + parameters;
    FourParts(annotations, config, mounts, parameters);
    var off := |a| + |config|;
    forall i | 0 <= i < |m|
      ensures r[off + 7 * i..off + 7 * i + 7] == MountHandlers(m[i], mountTypes)
    {
      var k := 7 * i;
      assert mounts[k..k + 7] == MountHandlers(m[i], mountTypes);
      SliceOfSlice(r, off, off + |mounts|, k, k + 7);
    }
  }

  lemma CountText()
    ensures "{" + NatToString(0) + "," + NatToString(23) + "}" == "{0,23}"
  {
    assert NatToString(2) == "2";
  }

  lemma LowerAtomTexts()
    ensures AtomText(Atom(LowerLetters, 1, 1)) == "[a-z]"
    ensures AtomText(Atom(LowerLetters, 0, 23)) == "[a-z]{0,23}"
  {
    assert ItemsText(LowerLetters[1..]) == "";
    CountText();
  }

  lemma NameAtomTexts()
    ensures AtomText(NameRegex[1]) == "[-a-z0-9]{0,23}"
    ensures AtomText(NameRegex[2]) == "[a-z0-9]"
  {
    var alnum := [Range('a', 'z'), Range('0', '9')];
    assert alnum[1..][1..] == [];
    assert ItemsText(alnum[1..]) == "0-9";
    assert NameRegex[1].items[1..] == alnum;
    assert ItemsText(NameRegex[1].items) == "-a-z0-9";
    CountText();
  }

  /** The `affiliation` handler checks the affiliation pattern, written as the source
      writes it. */
  lemma AffiliationPatternText()
    ensures FixedV1Handlers[0] == Validated("affiliation", MatchesPattern(AffiliationRegex, AffiliationMessage))
    ensures PatternText(AffiliationRegex) == "^[a-z]{0,23}[a-z]$"
  {
    LowerAtomTexts();
    assert AffiliationRegex[1..][1..] == [];
    assert AtomsText(AffiliationRegex[1..]) == "[a-z]";
  }

  /** The `name` handler checks the name pattern, written as the source writes it. */
  lemma NamePatternText()
    ensures FixedV1Handlers[2] == Validated("name", MatchesPattern(NameRegex, NameMessage))
    ensures PatternText(NameRegex) == "^[a-z][-a-z0-9]{0,23}[a-z0-9]$"
  {
    LowerAtomTexts();
    NameAtomTexts();
    assert NameRegex[2..][1..] == [];
    assert AtomsText(NameRegex[2..]) == "[a-z0-9]";
    assert NameRegex[1..][1..] == NameRegex[2..];
    assert AtomsText(NameRegex[1..]) == "[-a-z0-9]{0,23}[a-z0-9]";
  }

  /** `v1Handlers`: the base handlers, then the discovered ones, then the fixed ones. */
  function V1Handlers(baseHandlers: seq<Handler>, files: seq<AuroraConfigFile>, mountTypes: seq<string>): (r: seq<Handler>)
    ensures |r| == |baseHandlers| + |DiscoveredHandlers(files, mountTypes)| + |FixedV1Handlers|
    ensures r[..|baseHandlers|] == baseHandlers
    ensures r[|baseHandlers|..|baseHandlers| + |DiscoveredHandlers(files, mountTypes)|] == DiscoveredHandlers(files, mountTypes)
    ensures r[|baseHandlers| + |DiscoveredHandlers(files, mountTypes)|..] == FixedV1Handlers
  {
    ConcatParts(baseHandlers, DiscoveredHandlers(files, mountTypes), FixedV1Handlers);
    baseHandlers + DiscoveredHandlers(files, mountTypes) + FixedV1Handlers
  }

  // ---------------------------------------------------------------------------
  // The route

  datatype RouteV1 = RouteV1(host: Option<string>, path: Option<string>, annotations: map<string, string>)

  /** `getRoute`: a route is made when `route/generate` reads "true", when a host or a
      path is given, or when any file declares route annotations. The annotations are
      the declared keys that have a value. */
  function GetRouteV1(s: Spec, files: seq<AuroraConfigFile>): (r: Option<RouteV1>)
    ensures r.Some? <==> (Text(s, "route/generate") == Some("true") || "route/host" in s.fields
                          || "route/path" in s.fields || RouteAnnotationKeys(files) != [])
    ensures r.Some? ==> r.value.host == Text(s, "route/host") && r.value.path == Text(s, "route/path")
    ensures r.Some? ==> forall a :: a in r.value.annotations <==>
      a in RouteAnnotationKeys(files) && "route/annotations/" + a in s.fields
  {
    var keys := RouteAnnotationKeys(files);
    if Text(s, "route/generate") == Some("true") || Text(s, "route/host").Some? || Text(s, "route/path").Some?
       || |FindRouteAnnotationHandlersV1(files)| != 0
    then
      Some(RouteV1(Text(s, "route/host"), Text(s, "route/path"),
        map a | a in keys && "route/annotations/" + a in s.fields :: AsText(s.fields["route/annotations/" + a].value)))
    else None
  }

  // ---------------------------------------------------------------------------
  // Validators

  /** The names in `t` between single spaces, each once, that `isValid` rejects. */
  function Rejected(t: string, isValid: string -> bool): (r: seq<string>)
    ensures NoDuplicates(r)
    ensures forall g :: g in r <==> g in Split(t, ' ') && !isValid(g)
  {
    Filter(Distinct(Split(t, ' ')), (g: string) => !isValid(g))
  }

  /** `validateGroups(required)`: when required, a missing or blank value is an error
      and a value that is not text makes `textValue()` null and throws; otherwise
      every space-separated group must be valid. */
  function ValidateGroups(node: Option<Json>, required: bool, isValidGroup: string -> bool): (r: Verdict)
    ensures required && (node.None? || (node.value.JStr? && IsBlank(node.value.s))) ==>
      r == Invalid(Problem(ErrorKind.IllegalArgument, "Groups must be set"))
    ensures r.Throws? <==> required && node.Some? && !node.value.JStr?
    ensures r.Throws? ==> r.thrown.kind == NullPointer
  {
    if required && node.None? then Invalid(Problem(ErrorKind.IllegalArgument, "Groups must be set"))
    else if required && TextValue(node.value).None? then Throws(Problem(NullPointer, "textValue() is null"))
    else if required && IsBlank(TextValue(node.value).value) then Invalid(Problem(ErrorKind.IllegalArgument, "Groups must be set"))
    else if node.None? || TextValue(node.value).None? then Valid
    else
      var bad := Rejected(TextValue(node.value).value, isValidGroup);
      if bad == [] then Valid
      else Invalid(Problem(AuroraConfigError, "The following groups are not valid=" + Join(bad, ", ")))
  }

  /** The group validator accepts exactly the text values whose groups are all valid
      (and, when required, that are not blank), and names precisely the rejected
      groups otherwise. */
  lemma ValidateGroupsVerdict(node: Option<Json>, required: bool, isValidGroup: string -> bool)
    ensures !required && (node.None? || !node.value.JStr?) ==> ValidateGroups(node, required, isValidGroup) == Valid
    ensures node.Some? && node.value.JStr? && !(required && IsBlank(node.value.s)) ==>
      (ValidateGroups(node, required, isValidGroup) == Valid <==> forall g :: g in Split(node.value.s, ' ') ==> isValidGroup(g))
    ensures node.Some? && node.value.JStr? && !(required && IsBlank(node.value.s)) && ValidateGroups(node, required, isValidGroup) != Valid ==>
      ValidateGroups(node, required, isValidGroup) == Invalid(Problem(AuroraConfigError,
        "The following groups are not valid=" + Join(Rejected(node.value.s, isValidGroup), ", ")))
  {
    if node.Some? && node.value.JStr? && !(required && IsBlank(node.value.s)) {
      var bad := Rejected(node.value.s, isValidGroup);
      if bad == [] {
        assert forall g :: g in Split(node.value.s, ' ') ==> isValidGroup(g);
      } else {
        assert bad[0] in Split(node.value.s, ' ') && !isValidGroup(bad[0]);
      }
    }
  }

  /** `validateUsers`: every space-separated user of a text value must be valid;
      anything else passes. */
  function ValidateUsers(node: Option<Json>, isValidUser: string -> bool): (r: Verdict)
    ensures r.Valid? <==> node.None? || !node.value.JStr? || forall u :: u in Split(node.value.s, ' ') ==> isValidUser(u)
    ensures !r.Valid? ==> r == Invalid(Problem(AuroraConfigError,
      "The following users are not valid=" + Join(Rejected(node.value.s, isValidUser), ", ")))
  {
    if node.None? || TextValue(node.value).None? then Valid
    else
      var bad := Rejected(TextValue(node.value).value, isValidUser);
      if bad == [] then Valid
      else
        assert bad[0] in Split(node.value.s, ' ');
        Invalid(Problem(AuroraConfigError, "The following users are not valid=" + Join(bad, ", ")))
  }

  /** `validateSecrets`: a text value naming a folder without secrets is an error;
      `secretsIn` stands for the configuration's secret lookup. */
  function ValidateSecrets(node: Option<Json>, secretsIn: string -> seq<string>): (r: Verdict)
    ensures r.Throws? == false
    ensures r.Invalid? <==> node.Some? && node.value.JStr? && secretsIn(node.value.s) == []
    ensures r.Invalid? ==> r.problem == Problem(ErrorKind.IllegalArgument, "No secrets in folder=" + node.value.s)
  {
    if node.Some? && TextValue(node.value).Some? && secretsIn(TextValue(node.value).value) == [] then
      Invalid(Problem(ErrorKind.IllegalArgument, "No secrets in folder=" + TextValue(node.value).value))
    else Valid
  }

  // ---------------------------------------------------------------------------
  // The name and affiliation patterns

  predicate Lower(c: char) { 'a' <= c <= 'z' }
  predicate LowerOrDigit(c: char) { Lower(c) || '0' <= c <= '9' }

  /** `^[a-z]{0,23}[a-z]$` */
  predicate AffiliationMatches(s: string) {
    1 <= |s| <= 24 && forall i :: 0 <= i < |s| ==> Lower(s[i])
  }

  /** `^[a-z][-a-z0-9]{0,23}[a-z0-9]$` */
  predicate NameMatches(s: string) {
    2 <= |s| <= 25 && Lower(s[0]) && LowerOrDigit(s[|s| - 1])
    && forall i :: 1 <= i < |s| - 1 ==> (LowerOrDigit(s[i]) || s[i] == '-')
  }

  lemma LowerLettersIff(c: char)
    ensures InClass(c, LowerLetters) <==> Lower(c)
  {
    assert Lower(c) ==> InItem(c, LowerLetters[0]);
  }

  /** The affiliation pattern accepts exactly the texts of one to 24 lower-case letters. */
  lemma AffiliationPatternMeaning(s: string)
    ensures Matches(AffiliationRegex, s) <==> AffiliationMatches(s)
  {
    var last := [Atom(LowerLetters, 1, 1)];
    assert AffiliationRegex[1..] == last;
    MatchesStep(AffiliationRegex, s);
    forall c | c in s ensures InClass(c, LowerLetters) <==> Lower(c) {
      LowerLettersIff(c);
    }
    if Matches(AffiliationRegex, s) {
      var j :| 0 <= j <= 23 && j <= |s| && AllIn(s[..j], LowerLetters) && Matches(last, s[j..]);
      MatchesOne(LowerLetters, s[j..]);
      assert |s| == j + 1;
      forall i | 0 <= i < |s| ensures Lower(s[i]) {
        if i < j {
          assert s[..j][i] == s[i];
        } else {
          assert s[j..][0] == s[i];
        }
      }
    }
    if AffiliationMatches(s) {
      var j := |s| - 1;
      assert AllIn(s[..j], LowerLetters) by {
        forall i | 0 <= i < j ensures InClass(s[..j][i], LowerLetters) {
          assert s[..j][i] == s[i];
        }
      }
      MatchesOne(LowerLetters, s[j..]);
      assert s[j..][0] == s[j];
      assert Matches(last, s[j..]);
    }
  }

  lemma MiddleClassIff(c: char)
    ensures InClass(c, NameRegex[1].items) <==> LowerOrDigit(c) || c == '-'
  {
    var items := NameRegex[1].items;
    if c == '-' { assert InItem(c, items[0]); }
    if Lower(c) { assert InItem(c, items[1]); }
    if '0' <= c <= '9' { assert InItem(c, items[2]); }
  }

  lemma EndClassIff(c: char)
    ensures InClass(c, NameRegex[2].items) <==> LowerOrDigit(c)
  {
    var items := NameRegex[2].items;
    if Lower(c) { assert InItem(c, items[0]); }
    if '0' <= c <= '9' { assert InItem(c, items[1]); }
  }

  /** The name pattern accepts exactly the texts of two to 25 characters that start
      with a lower-case letter, end with a lower-case letter or digit, and hold only
      those and `-` in between. */
  lemma NamePatternMeaning(s: string)
    ensures Matches(NameRegex, s) <==> NameMatches(s)
  {
    var tail := NameRegex[1..];
    var last := [NameRegex[2]];
    assert tail[1..] == last;
    MatchesStep(NameRegex, s);
    if Matches(NameRegex, s) {
      var j :| 1 <= j <= 1 && j <= |s| && AllIn(s[..j], LowerLetters) && Matches(tail, s[j..]);
      LowerLettersIff(s[..1][0]);
      var t := s[1..];
      MatchesStep(tail, t);
      var k :| 0 <= k <= 23 && k <= |t| && AllIn(t[..k], tail[0].items) && Matches(last, t[k..]);
      MatchesOne(NameRegex[2].items, t[k..]);
      assert |s| == k + 2;
      EndClassIff(t[k..][0]);
      assert t[k..][0] == s[|s| - 1];
      forall i | 1 <= i < |s| - 1 ensures LowerOrDigit(s[i]) || s[i] == '-' {
        assert t[..k][i - 1] == s[i];
        MiddleClassIff(s[i]);
      }
    }
    if NameMatches(s) {
      var t := s[1..];
      var k := |t| - 1;
      LowerLettersIff(s[0]);
      assert AllIn(s[..1], LowerLetters) by {
        assert s[..1][0] == s[0];
      }
      assert AllIn(t[..k], tail[0].items) by {
        forall i | 0 <= i < k ensures InClass(t[..k][i], tail[0].items) {
          assert t[..k][i] == s[i + 1];
          MiddleClassIff(s[i + 1]);
        }
      }
      EndClassIff(s[|s| - 1]);
      assert t[k..][0] == s[|s| - 1];
      MatchesOne(NameRegex[2].items, t[k..]);
      assert Matches(tail, t) by {
        MatchesStep(tail, t);
      }
      assert s[1..] == t;
    }
  }

  /** The patterns bound the lengths: an affiliation has one to 24 letters and a name
      two to 25 characters. */
  lemma PatternLengths(s: string)
    ensures Matches(AffiliationRegex, s) ==> 1 <= |s| <= 24
    ensures Matches(NameRegex, s) ==> 2 <= |s| <= 25
  {
    AffiliationPatternMeaning(s);
    NamePatternMeaning(s);
  }

  /** The patterns admit more than their messages ("under 24 characters") say: an
      affiliation of 24 letters and a name of 25 characters pass, while a one-letter
      name is refused. */
  lemma PatternExamples()
    ensures Matches(AffiliationRegex, "abcdefghijklmnopqrstuvwx")
    ensures Matches(NameRegex, "abcdefghijklmnopqrstuvwxy")
    ensures !Matches(NameRegex, "a")
  {
    var a := "abcdefghijklmnopqrstuvwx";
    assert |a| == 24;
    assert forall i :: 0 <= i < |a| ==> Lower(a[i]);
    AffiliationPatternMeaning(a);
    var n := "abcdefghijklmnopqrstuvwxy";
    assert |n| == 25;
    assert forall i :: 1 <= i < |n| - 1 ==> LowerOrDigit(n[i]);
    NamePatternMeaning(n);
    NamePatternMeaning("a");
  }
}

=== FILE: deployment_spec.dfy ===
/** The resolved deployment specification the features read: a map from field path to
    value with its source, plus the identity of the deployment. The accessors below
    (`get`, `getOrNull`, `isSimplifiedConfig`, `hasSubKeys`, `getOrDefault`,
    `getRouteAnnotations`, `getDelimitedStringOrArrayAsSet`) live in
    AuroraDeploymentSpec.kt, which is not part of this model; they are given the
    meaning their call sites rely on. */
module DeploymentSpec {
  import opened Wrappers
  import opened Strings
  import opened Lists
  import opened JsonTree

  /** The template type of a deployment; only the two values the core tests are named. */
  datatype TemplateType = Development | LocalTemplate | OtherTemplateType(typeName: string)

  /** A resolved field: its value, the file (or "default") it came from, and whether
      the value is a handler default. */
  datatype Field = Field(value: Json, source: string, isDefault: bool)

  datatype Spec = Spec(
    fields: map<string, Field>,
    name: string,
    namespace: string,
    affiliation: string,
    envName: string,
    templateType: TemplateType,
    isJob: bool)

  /** `getOrNull(path)`: the field's value when the field is present. */
  function GetOrNull(s: Spec, path: string): (r: Option<Json>)
    ensures r.Some? <==> path in s.fields
    ensures r.Some? ==> r.value == s.fields[path].value
  {
    if path in s.fields then Some(s.fields[path].value) else None
  }

  /** A field read as a string (`getOrNull<String>`). */
  function Text(s: Spec, path: string): (r: Option<string>)
    ensures r.Some? <==> path in s.fields
  {
    if path in s.fields then Some(AsText(s.fields[path].value)) else None
  }

  /** `adc[path]` read as text; a missing field reads as the empty text. */
  function FieldText(s: Spec, path: string): (r: string)
    ensures path in s.fields ==> r == AsText(s.fields[path].value)
  {
    if path in s.fields then AsText(s.fields[path].value) else ""
  }

  function TextOr(o: Option<Json>): string {
    if o.Some? then AsText(o.value) else ""
  }

  /** A field read as a list of strings (`getOrNull<List<String>>`); empty when the
      field is missing or not a list. */
  function TextList(s: Spec, path: string): seq<string> {
    if path in s.fields && s.fields[path].value.JArr? then Texts(s.fields[path].value.items) else []
  }

  /** A field read as a string map (`getOrNull<Map<String, String>>`), in the order
      of its entries; nothing when the field is missing or not an object. */
  function TextMap(s: Spec, path: string): (r: Option<seq<(string, string)>>)
    ensures r.Some? <==> path in s.fields && s.fields[path].value.JObj?
  {
    if path in s.fields && s.fields[path].value.JObj? then Some(TextPairs(s.fields[path].value.fields)) else None
  }

  function TextPairs(fs: seq<(string, Json)>): (r: seq<(string, string)>)
    ensures |r| == |fs|
    ensures forall i :: 0 <= i < |fs| ==> r[i] == (fs[i].0, AsText(fs[i].1))
  {
    if fs == [] then [] else [(fs[0].0, AsText(fs[0].1))] + TextPairs(fs[1..])
  }

  /** A field read as a Boolean (`adc[path]` / `getOrNull<Boolean>`): present, and `true`. */
  function BoolOrNull(s: Spec, path: string): (r: Option<bool>)
    ensures r.Some? <==> path in s.fields
  {
    if path in s.fields then Some(AsText(s.fields[path].value) == "true") else None
  }

  predicate Flag(s: Spec, path: string) {
    BoolOrNull(s, path) == Some(true)
  }

  /** The key was written as a scalar standing in for its whole sub-tree. */
  predicate IsSimplifiedConfig(s: Spec, path: string) {
    path in s.fields && !s.fields[path].value.JObj?
  }

  /** Some field lies below `name`. */
  predicate HasSubKeys(s: Spec, name: string) {
    exists k :: k in s.fields && StartsWith(k, name + "/")
  }

  /** `getOrDefault(root, index, suffix)`: `root/index/suffix`, falling back to
      `rootDefaults/suffix`. */
  function GetOrDefault(s: Spec, root: string, index: string, suffix: string): (r: Option<Json>)
    ensures root + "/" + index + "/" + suffix in s.fields ==> r == Some(s.fields[root + "/" + index + "/" + suffix].value)
    ensures root + "/" + index + "/" + suffix !in s.fields ==> r == GetOrNull(s, root + "Defaults/" + suffix)
  {
    match GetOrNull(s, root + "/" + index + "/" + suffix)
    case Some(v) => Some(v)
    case None => GetOrNull(s, root + "Defaults/" + suffix)
  }

  /** `getRouteAnnotations(prefix)`: every field below `prefix`, keyed by the rest of its path. */
  function RouteAnnotations(s: Spec, prefix: string): (r: map<string, string>)
    ensures forall a :: a in r <==> prefix + a in s.fields
    ensures forall a :: a in r ==> r[a] == AsText(s.fields[prefix + a].value)
  {
    assert forall k :: StartsWith(k, prefix) ==> k == prefix + k[|prefix|..];
    assert forall a :: (prefix + a)[..|prefix|] == prefix && (prefix + a)[|prefix|..] == a;
    map k | k in s.fields && StartsWith(k, prefix) :: k[|prefix|..] := AsText(s.fields[k].value)
  }

  /** The pieces that are not empty. */
  function NonEmptyPieces(pieces: seq<string>): (r: seq<string>)
    ensures forall x :: x in r <==> x in pieces && x != ""
  {
    if pieces == [] then []
    else
      var rest := NonEmptyPieces(pieces[1..]);
      assert forall x :: x in pieces <==> x == pieces[0] || x in pieces[1..];
      if pieces[0] == "" then rest else [pieces[0]] + rest
  }

  function Texts(items: seq<Json>): (r: seq<string>)
    ensures |r| == |items|
    ensures forall i :: 0 <= i < |items| ==> r[i] == AsText(items[i])
  {
    if items == [] then [] else [AsText(items[0])] + Texts(items[1..])
  }

  /** `getDelimitedStringOrArrayAsSetOrNull(path, delimiter)`: a text field split on
      the delimiter or an array's items, without duplicates; nothing when the field is
      missing. */
  function DelimitedSetOrNull(s: Spec, path: string, delimiter: char): (r: Option<seq<string>>)
    ensures r.Some? <==> path in s.fields
    ensures r.Some? ==> NoDuplicates(r.value)
    ensures r.Some? && s.fields[path].value.JStr? ==>
      forall x :: x in r.value <==> x in Split(s.fields[path].value.s, delimiter) && x != ""
  {
    if path !in s.fields then None
    else
      match s.fields[path].value
      case JStr(t) => Some(Distinct(NonEmptyPieces(Split(t, delimiter))))
      case JArr(items) => Some(Distinct(Texts(items)))
      case _ => Some([])
  }

  /** `getDelimitedStringOrArrayAsSet(path, delimiter)`: as above, empty when missing. */
  function DelimitedSet(s: Spec, path: string, delimiter: char): (r: seq<string>)
    ensures NoDuplicates(r)
    ensures path !in s.fields ==> r == []
  {
    DelimitedSetOrNull(s, path, delimiter).GetOr([])
  }
}

=== FILE: environment_feature.dfy ===
/** The environment feature: the namespace of an environment, its admin and view role
    bindings, and the validation of the admin permissions. The group directory, the
    authenticated user, the clock and the duration parser are parameters. */
module EnvironmentFeature {
  import opened Wrappers
  import opened Strings
  import opened Lists
  import opened FieldHandlers
  import opened DeploymentSpec
  import opened Resources
  import opened CollectionUtils

  const FeatureName := "EnvironmentFeature"

  /** A permission: the groups (absent or a set) and the users. */
  datatype Permission = Permission(groups: Option<seq<string>>, users: seq<string>)
  datatype Permissions = Permissions(admin: Permission, view: Option<Permission>)

  /** What the group directory knows of a group. */
  datatype GroupInfo = GroupInfo(id: string, hasMembers: bool)

  /** The authenticated user: the name, the display name and the groups it is in. */
  datatype User = User(username: string, fullName: string, roles: seq<string>)

  /** The environment feature declares no handlers. */
  function Handlers(): seq<Handler> {
    []
  }

  // ---------------------------------------------------------------------------
  // generate

  /** `envTTL`, in seconds: `env/ttl` parsed by the duration parser, when set. */
  function EnvTtl(s: Spec, parseSeconds: string -> int): (r: Option<int>)
    ensures r.Some? <==> "env/ttl" in s.fields
  {
    match Text(s, "env/ttl")
    case None => None
    case Some(t) => Some(parseSeconds(t))
  }

  /** The `removeAfter` label: the epoch second at which the environment may go. */
  function TtlLabel(s: Spec, now: int, parseSeconds: string -> int): (r: Option<(string, string)>)
    ensures r.Some? <==> "env/ttl" in s.fields
    ensures r.Some? ==> r.value == ("removeAfter", IntToString(now + EnvTtl(s, parseSeconds).value))
  {
    match EnvTtl(s, parseSeconds)
    case None => None
    case Some(ttl) => Some(("removeAfter", IntToString(now + ttl)))
  }

  /** `generateNamespace`: named after the spec's namespace, labelled with the
      affiliation and, with a TTL, the removal time; every label value made safe. */
  function GenerateNamespace(s: Spec, now: int, parseSeconds: string -> int): (r: KubeObject)
    ensures r.NamespaceObj? && r.meta.name == s.namespace
    ensures r.meta.labels.Keys == if "env/ttl" in s.fields then {"affiliation", "removeAfter"} else {"affiliation"}
    ensures "affiliation" in r.meta.labels && r.meta.labels["affiliation"] == SafeLabel(s.affiliation)
    ensures "env/ttl" in s.fields ==>
      r.meta.labels["removeAfter"] == SafeLabel(TtlLabel(s, now, parseSeconds).value.1)
  {
    var ttl := TtlLabel(s, now, parseSeconds);
    NamespaceLabels(s.affiliation, ttl);
    NamespaceObj(ObjectMeta(s.namespace, "", NormalizeLabels(MapAddPair(map["affiliation" := s.affiliation], ttl)), map[]))
  }

  lemma NamespaceLabels(affiliation: string, ttl: Option<(string, string)>)
    requires ttl.Some? ==> ttl.value.0 == "removeAfter"
    ensures var n := NormalizeLabels(MapAddPair(map["affiliation" := affiliation], ttl));
      n.Keys == (if ttl.Some? then {"affiliation", "removeAfter"} else {"affiliation"}) &&
      n["affiliation"] == SafeLabel(affiliation) &&
      (ttl.Some? ==> n["removeAfter"] == SafeLabel(ttl.value.1))
  {
    var labels := MapAddPair(map["affiliation" := affiliation], ttl);
    AffiliationLabelKeys(affiliation, ttl);
    NormalizedValue(labels, "affiliation", affiliation);
    NormalizedValue(labels, "removeAfter", if ttl.Some? then ttl.value.1 else "");
  }

  lemma AffiliationLabelKeys(affiliation: string, ttl: Option<(string, string)>)
    requires ttl.Some? ==> ttl.value.0 == "removeAfter"
    ensures var labels := MapAddPair(map["affiliation" := affiliation], ttl);
      labels.Keys == (if ttl.Some? then {"affiliation", "removeAfter"} else {"affiliation"}) &&
      labels["affiliation"] == affiliation &&
      (ttl.Some? ==> labels["removeAfter"] == ttl.value.1)
  {
    assert "affiliation" != "removeAfter";
  }

  /** `extractPermissions`: the admin groups and service accounts, and view groups
      when any are given. */
  function ExtractPermissions(s: Spec): (r: Permissions)
    ensures r.admin.groups == Some(DelimitedSet(s, "permissions/admin", ' '))
    ensures r.admin.users == DelimitedSet(s, "permissions/adminServiceAccount", ' ')
    ensures r.view.Some? <==> DelimitedSet(s, "permissions/view", ' ') != []
    ensures r.view.Some? ==> r.view.value == Permission(Some(DelimitedSet(s, "permissions/view", ' ')), [])
  {
    var viewGroups := DelimitedSet(s, "permissions/view", ' ');
    var admin := Permission(Some(DelimitedSet(s, "permissions/admin", ' ')), DelimitedSet(s, "permissions/adminServiceAccount", ' '));
    Permissions(admin, if viewGroups != [] then Some(Permission(Some(viewGroups), [])) else None)
  }

  function UserSubjects(users: seq<string>): (r: seq<Subject>)
    ensures |r| == |users|
    ensures forall i :: 0 <= i < |r| ==> r[i] == Subject("User", Some(users[i]))
  {
    seq(|users|, i requires 0 <= i < |users| => Subject("User", Some(users[i])))
  }

  /** Group subjects carry the directory id of the group; an unknown group has none. */
  function GroupSubjects(groups: seq<string>, fetchGroupInfo: string -> Option<GroupInfo>): (r: seq<Subject>)
    ensures |r| == |groups|
    ensures forall i :: 0 <= i < |r| ==>
      r[i].kind == "Group" &&
      (r[i].name.Some? <==> fetchGroupInfo(groups[i]).Some?) &&
      (r[i].name.Some? ==> r[i].name.value == fetchGroupInfo(groups[i]).value.id)
  {
    seq(|groups|, i requires 0 <= i < |groups| =>
      Subject("Group", match fetchGroupInfo(groups[i]) case Some(g) => Some(g.id) case None => None))
  }

  /** `createRoleBinding`: a binding of the cluster role of the same name to the users,
      then the groups. */
  function CreateRoleBinding(name: string, permission: Permission, namespace: string,
                             fetchGroupInfo: string -> Option<GroupInfo>): (r: KubeObject)
    ensures r.RoleBindingObj? && r.meta.name == name && r.meta.namespace == namespace
    ensures r.roleRefKind == "ClusterRole" && r.roleRefName == name
    ensures var groups := permission.groups.GetOr([]);
      |r.subjects| == |permission.users| + |groups| &&
      r.subjects[..|permission.users|] == UserSubjects(permission.users) &&
      r.subjects[|permission.users|..] == GroupSubjects(groups, fetchGroupInfo)
  {
    var users := UserSubjects(permission.users);
    var groups := match permission.groups case Some(g) => Some(GroupSubjects(g, fetchGroupInfo)) case None => None;
    RoleBindingObj(ObjectMeta(name, namespace, map[], map[]), ListAddAll(users, groups), "ClusterRole", name)
  }

  /** `generateRolebindings`: the admin binding, then the view binding when there are
      view groups. */
  function GenerateRolebindings(s: Spec, fetchGroupInfo: string -> Option<GroupInfo>): (r: seq<KubeObject>)
    ensures |r| == if DelimitedSet(s, "permissions/view", ' ') != [] then 2 else 1
    ensures r[0] == CreateRoleBinding("admin", ExtractPermissions(s).admin, s.namespace, fetchGroupInfo)
    ensures |r| == 2 ==> r[1] == CreateRoleBinding("view", ExtractPermissions(s).view.value, s.namespace, fetchGroupInfo)
    ensures forall i :: 0 <= i < |r| ==> r[i].RoleBindingObj?
    ensures r[0].meta.name == "admin" && (|r| == 2 ==> r[1].meta.name == "view")
  {
    var permissions := ExtractPermissions(s);
    var admin := CreateRoleBinding("admin", permissions.admin, s.namespace, fetchGroupInfo);
    var view := match permissions.view
      case Some(v) => Some(CreateRoleBinding("view", v, s.namespace, fetchGroupInfo))
      case None => None;
    ListAddElement([admin], view)
  }

  /** The resources of `generate` from the namespace and the role bindings: the
      namespace first, all in the environment header. */
  function HeaderResources(ns: KubeObject, rbs: seq<KubeObject>): (r: seq<AuroraResource>)
    ensures |r| == 1 + |rbs|
    ensures r[0] == Generated(ns, FeatureName, true)
    ensures forall i :: 1 <= i < |r| ==> r[i] == Generated(rbs[i - 1], FeatureName, true)
    ensures forall x :: x in r ==> x.header && x.createdBy == FeatureName
  {
    [Generated(ns, FeatureName, true)] + seq(|rbs|, i requires 0 <= i < |rbs| => Generated(rbs[i], FeatureName, true))
  }

  /** `generate`: the set of the namespace and the role bindings. No two of them
      coincide, so the set keeps all of them, in order. */
  function Generate(s: Spec, now: int, parseSeconds: string -> int, fetchGroupInfo: string -> Option<GroupInfo>): (r: seq<AuroraResource>)
    ensures r == HeaderResources(GenerateNamespace(s, now, parseSeconds), GenerateRolebindings(s, fetchGroupInfo))
    ensures NoDuplicates(r)
  {
    var ns := GenerateNamespace(s, now, parseSeconds);
    var rbs := GenerateRolebindings(s, fetchGroupInfo);
    var all := HeaderResources(ns, rbs);
    assert "admin" != "view";
    BindingsDistinct(ns, rbs);
    assert [all[0]] + all[1..] == all;
    DistinctOfDistinct(all);
    SetAddAll([all[0]], Some(all[1..]))
  }

  /** A namespace and at most two role bindings of different names never collide. */
  lemma BindingsDistinct(ns: KubeObject, rbs: seq<KubeObject>)
    requires ns.NamespaceObj?
    requires |rbs| <= 2
    requires forall i :: 0 <= i < |rbs| ==> rbs[i].RoleBindingObj?
    requires |rbs| == 2 ==> rbs[0].meta.name != rbs[1].meta.name
    ensures NoDuplicates(HeaderResources(ns, rbs))
  {
    var all := HeaderResources(ns, rbs);
    forall i, j | 0 <= i < j < |all| ensures all[i] != all[j] {
      if i == 0 {
        assert all[j].resource == rbs[j - 1];
      } else {
        assert all[i].resource == rbs[0] && all[j].resource == rbs[1];
      }
    }
  }

  // ---------------------------------------------------------------------------
  // validate

  /** `validateAdminGroups`: the admin groups must be given, all known to the directory,
      and not all empty. The first failure is thrown. */
  function ValidateAdminGroups(s: Spec, fetchGroupInfo: string -> Option<GroupInfo>): (r: Option<Problem>)
    ensures var groups := ExtractPermissions(s).admin.groups.GetOr([]);
      r.None? <==>
        (groups != [] &&
         (forall g :: g in groups ==> fetchGroupInfo(g).Some?) &&
         exists g :: g in groups && fetchGroupInfo(g).value.hasMembers)
    ensures var groups := ExtractPermissions(s).admin.groups.GetOr([]);
      groups == [] ==> r == Some(EmptyAdminProblem)
    ensures var groups := ExtractPermissions(s).admin.groups.GetOr([]);
      var unknown := Filter(groups, g => fetchGroupInfo(g).None?);
      groups != [] && unknown != [] ==>
        r == Some(Problem(ValidationError, "[" + Join(unknown, ", ") + "] are not valid groupNames"))
    ensures var groups := ExtractPermissions(s).admin.groups.GetOr([]);
      groups != [] && (forall g :: g in groups ==> fetchGroupInfo(g).Some?) &&
      (forall g :: g in groups ==> !fetchGroupInfo(g).value.hasMembers) ==>
        r == Some(Problem(ValidationError, "All groups=[" + Join(groups, ", ") + "] are empty"))
  {
    var groups := ExtractPermissions(s).admin.groups.GetOr([]);
    if groups == [] then Some(EmptyAdminProblem)
    else
      var unknown := Filter(groups, g => fetchGroupInfo(g).None?);
      if unknown != [] then
        assert unknown[0] in unknown;
        Some(Problem(ValidationError, "[" + Join(unknown, ", ") + "] are not valid groupNames"))
      else
        assert forall g :: g !in unknown;
        var withMembers := Filter(groups, g => fetchGroupInfo(g).Some? && fetchGroupInfo(g).value.hasMembers);
        if withMembers == [] then
          assert forall g :: g !in withMembers;
          Some(Problem(ValidationError, "All groups=[" + Join(groups, ", ") + "] are empty"))
        else
          assert withMembers[0] in withMembers;
          None
  }

  /** `hasAnyRole`: the user is in one of the groups. */
  predicate HasAnyRole(user: User, groups: Option<seq<string>>) {
    groups.Some? && exists g :: g in groups.value && g in user.roles
  }

  const EmptyAdminProblem := Problem(ValidationError, "permissions.admin cannot be empty")

  /** The user may administer the environment: a listed admin user, or in an admin group. */
  predicate CanAdmin(user: User, admin: Permission) {
    user.username in admin.users || HasAnyRole(user, admin.groups)
  }

  const NoAccessText := " does not have access to admin this environment from the groups="

  function AccessProblem(user: User, admin: Permission): Problem {
    Problem(IllegalArgument, "User=" + user.fullName + NoAccessText + "[" + Join(admin.groups.GetOr([]), ", ") + "]")
  }

  /** `validate`: the admin-group error, if any; with full validation also the error for
      a user who may not administer the environment. */
  function Validate(s: Spec, fullValidation: bool, user: User, fetchGroupInfo: string -> Option<GroupInfo>): (r: seq<Problem>)
    ensures var groupErrors := ToSeq(ValidateAdminGroups(s, fetchGroupInfo));
      |groupErrors| <= |r| && r[..|groupErrors|] == groupErrors
    ensures var admin := ExtractPermissions(s).admin;
      |r| == |ToSeq(ValidateAdminGroups(s, fetchGroupInfo))| + (if fullValidation && !CanAdmin(user, admin) then 1 else 0)
    ensures fullValidation && !CanAdmin(user, ExtractPermissions(s).admin) ==>
      r[|r| - 1] == AccessProblem(user, ExtractPermissions(s).admin)
  {
    var errors := ToSeq(ValidateAdminGroups(s, fetchGroupInfo));
    if !fullValidation then errors
    else
      var admin := ExtractPermissions(s).admin;
      var notAdminUser := user.username !in admin.users;
      var notInAdminGroup := !HasAnyRole(user, admin.groups);
      if notAdminUser && notInAdminGroup then ListAddElement(errors, Some(AccessProblem(user, admin)))
      else errors
  }

  /** The admin binding names every admin user and every admin group. */
  lemma AdminBindingCoversPermissions(s: Spec, fetchGroupInfo: string -> Option<GroupInfo>)
    ensures var rb := GenerateRolebindings(s, fetchGroupInfo)[0];
      (forall u :: u in DelimitedSet(s, "permissions/adminServiceAccount", ' ') ==> Subject("User", Some(u)) in rb.subjects) &&
      (forall g :: g in DelimitedSet(s, "permissions/admin", ' ') && fetchGroupInfo(g).Some? ==>
         Subject("Group", Some(fetchGroupInfo(g).value.id)) in rb.subjects)
  {
    var rb := GenerateRolebindings(s, fetchGroupInfo)[0];
    var users := DelimitedSet(s, "permissions/adminServiceAccount", ' ');
    var groups := DelimitedSet(s, "permissions/admin", ' ');
    forall u | u in users ensures Subject("User", Some(u)) in rb.subjects {
      var i :| 0 <= i < |users| && users[i] == u;
      assert rb.subjects[..|users|][i] == rb.subjects[i];
    }
    forall g | g in groups && fetchGroupInfo(g).Some? ensures Subject("Group", Some(fetchGroupInfo(g).value.id)) in rb.subjects {
      var i :| 0 <= i < |groups| && groups[i] == g;
      assert rb.subjects[|users|..][i] == rb.subjects[|users| + i];
    }
  }

  /** Once the admin groups validate, every group subject of the admin binding carries a
      directory id. */
  lemma ValidAdminGroupsHaveIds(s: Spec, fetchGroupInfo: string -> Option<GroupInfo>)
    requires ValidateAdminGroups(s, fetchGroupInfo).None?
    ensures forall x :: x in GenerateRolebindings(s, fetchGroupInfo)[0].subjects ==> x.name.Some?
  {
    var admin := ExtractPermissions(s).admin;
    var groups := admin.groups.GetOr([]);
    assert forall g :: g in groups ==> fetchGroupInfo(g).Some?;
    var rb := CreateRoleBinding("admin", admin, s.namespace, fetchGroupInfo);
    KnownGroupsNamed(admin.users, groups, rb.subjects, fetchGroupInfo);
  }

  lemma KnownGroupsNamed(users: seq<string>, groups: seq<string>, subjects: seq<Subject>,
                         fetchGroupInfo: string -> Option<GroupInfo>)
    requires forall g :: g in groups ==> fetchGroupInfo(g).Some?
    requires |subjects| == |users| + |groups|
    requires subjects[..|users|] == UserSubjects(users)
    requires subjects[|users|..] == GroupSubjects(groups, fetchGroupInfo)
    ensures forall x :: x in subjects ==> x.name.Some?
  {
    forall x | x in subjects ensures x.name.Some? {
      var i :| 0 <= i < |subjects| && subjects[i] == x;
      if i < |users| {
        assert subjects[..|users|][i] == x;
      } else {
        assert subjects[|users|..][i - |users|] == x;
        assert groups[i - |users|] in groups;
      }
    }
  }

  /** A user listed among the admin service accounts is never refused access. */
  lemma AdminUserNeverRefused(s: Spec, user: User, fetchGroupInfo: string -> Option<GroupInfo>)
    requires user.username in DelimitedSet(s, "permissions/adminServiceAccount", ' ')
    ensures Validate(s, true, user, fetchGroupInfo) == ToSeq(ValidateAdminGroups(s, fetchGroupInfo))
  {
  }
}

=== FILE: field_handlers.dfy ===
/** Field handlers: the addressable configuration keys a mapper or feature declares,
    with an optional default, the check its validator performs and whether a scalar
    may stand in for the whole sub-tree ("simplified config"). */
module FieldHandlers {
  import opened Wrappers
  import opened JsonTree
  import opened Patterns

  /** The check a handler's validator performs, with the arguments the closure
      captures. The JSON helpers `pattern`, `notBlank`, `required`, `oneOf`,
      `startsWith` and `boolean` are not part of this model: those checks are named
      here, and only the validators whose bodies are in the modelled files are given
      a meaning (in the modules that declare them). A pattern is kept as the
      structure of its regular expression, which gives the texts it accepts. */
  datatype Validator =
    | NoValidation
    | MatchesPattern(pattern: Pattern, message: string)
    | NotBlank(message: string)
    | Required(message: string)
    | OneOf(candidates: seq<string>, isRequired: Option<bool>)  // None: the helper's own default
    | StartsWithIfPresent(prefix: string, message: string)
    | IsBoolean
    | ValidGroups(required: bool)
    | ValidUsers
    | SecretFolderHasSecrets
    | AnnotationKeyHasNoSlash(key: string)
    | TemplateFileExists

  datatype Handler = Handler(
    name: string,
    defaultValue: Option<Json>,
    validator: Validator,
    canBeSimplifiedConfig: bool)

  /** A handler with neither default nor validator: `AuroraConfigFieldHandler(name)`. */
  function Plain(name: string): (h: Handler)
    ensures h.name == name && h.defaultValue.None? && h.validator.NoValidation? && !h.canBeSimplifiedConfig
  {
    Handler(name, None, NoValidation, false)
  }

  function WithDefault(name: string, default: Json): (h: Handler)
    ensures h.name == name && h.defaultValue == Some(default) && h.validator.NoValidation? && !h.canBeSimplifiedConfig
  {
    Handler(name, Some(default), NoValidation, false)
  }

  function Validated(name: string, v: Validator): (h: Handler)
    ensures h.name == name && h.defaultValue.None? && h.validator == v && !h.canBeSimplifiedConfig
  {
    Handler(name, None, v, false)
  }

  /** The handler names, in order. */
  function Names(hs: seq<Handler>): (r: seq<string>)
    ensures |r| == |hs|
    ensures forall i :: 0 <= i < |hs| ==> r[i] == hs[i].name
  {
    if hs == [] then [] else [hs[0].name] + Names(hs[1..])
  }

  /** The class and message of an exception a validator returns or throws. */
  datatype ErrorKind = IllegalArgument | AuroraConfigError | ValidationError | NullPointer | ClassCast
  datatype Problem = Problem(kind: ErrorKind, message: string)

  /** What running a validator gives: no error, an error it returns, or an exception
      that escapes it. */
  datatype Verdict = Valid | Invalid(problem: Problem) | Throws(thrown: Problem)
}

=== FILE: json_tree.dfy ===
/** The parsed content of a configuration file, with the Jackson `JsonNode` accessors
    the core uses: `get`, `has`, `at` (a JSON pointer), `fieldNames`, `asText`,
    `textValue`. */
module JsonTree {
  import opened Wrappers
  import opened Strings

  datatype Json =
    | JNull
    | JBool(b: bool)
    | JInt(i: int)
    | JStr(s: string)
    | JArr(items: seq<Json>)
    | JObj(fields: seq<(string, Json)>)

  /** `get(key)`: the value of the first field named `key` of an object; absent
      for a missing key and for every node that is not an object. */
  function Get(j: Json, key: string): (r: Option<Json>)
    ensures r.Some? ==> j.JObj?
  {
    match j
    case JObj(fs) => Lookup(fs, key)
    case _ => None
  }

  function Lookup(fs: seq<(string, Json)>, key: string): (r: Option<Json>)
    ensures r.Some? <==> exists i :: 0 <= i < |fs| && fs[i].0 == key
  {
    if fs == [] then None
    else if fs[0].0 == key then Some(fs[0].1)
    else
      var r := Lookup(fs[1..], key);
      assert forall i :: 1 <= i < |fs| ==> fs[i] == fs[1..][i - 1];
      r
  }

  predicate Has(j: Json, key: string) {
    Get(j, key).Some?
  }

  /** `at("/a/b")`: follows the pointer's segments; a missing step is the missing node. */
  function At(j: Json, path: seq<string>): Option<Json>
    decreases |path|
  {
    if path == [] then Some(j)
    else
      match Get(j, path[0])
      case None => None
      case Some(child) => At(child, path[1..])
  }

  /** `fieldNames()`: the keys of an object, in order; nothing for any other node. */
  function FieldNames(j: Json): (r: seq<string>)
    ensures j.JObj? ==> |r| == |j.fields|
    ensures !j.JObj? ==> r == []
    ensures forall k :: k in r <==> Has(j, k)
  {
    match j
    case JObj(fs) => Keys(fs)
    case _ => []
  }

  function Keys(fs: seq<(string, Json)>): (r: seq<string>)
    ensures |r| == |fs|
    ensures forall k :: k in r <==> exists i :: 0 <= i < |fs| && fs[i].0 == k
  {
    if fs == [] then []
    else
      var rest := Keys(fs[1..]);
      assert forall i :: 1 <= i < |fs| ==> fs[i] == fs[1..][i - 1];
      [fs[0].0] + rest
  }

  /** `fieldNames()` of an optional node (Kotlin `?.fieldNames() ?: emptyList()`). */
  function FieldNamesOf(o: Option<Json>): seq<string> {
    if o.Some? then FieldNames(o.value) else []
  }

  /** `textValue()`: the string of a text node, null for every other node. */
  function TextValue(j: Json): Option<string> {
    if j.JStr? then Some(j.s) else None
  }

  /** `asText()`: the text of a value node; containers give the empty string. */
  function AsText(j: Json): string {
    match j
    case JNull => "null"
    case JBool(b) => if b then "true" else "false"
    case JInt(i) => if i >= 0 then NatToString(i) else "-" + NatToString(-i)
    case JStr(s) => s
    case _ => ""
  }
}

=== FILE: lists.dfy ===
/** Kotlin list and set helpers over `seq`: `toSet()` (ordered, duplicates dropped),
    `indexOfFirst` and `find`. */
module Lists {
  import opened Wrappers

  predicate NoDuplicates<T(==)>(s: seq<T>) {
    forall i, j :: 0 <= i < j < |s| ==> s[i] != s[j]
  }

  /** Kotlin `toSet()` on a list (a LinkedHashSet): first occurrences, in order. */
  function Distinct<T(==,!new)>(s: seq<T>): (r: seq<T>)
    ensures forall x :: x in r <==> x in s
    ensures NoDuplicates(r)
    ensures |r| <= |s|
  {
    if s == [] then []
    else
      var r0 := Distinct(s[..|s| - 1]);
      assert forall x :: x in s <==> x in s[..|s| - 1] || x == s[|s| - 1];
      if s[|s| - 1] in r0 then r0 else r0 + [s[|s| - 1]]
  }

  /** The three parts of `a + b + c` are where they were put. */
  lemma ConcatParts<T>(a: seq<T>, b: seq<T>, c: seq<T>)
    ensures |a + b + c| == |a| + |b| + |c|
    ensures (a + b + c)[..|a|] == a
    ensures (a + b + c)[|a|..|a| + |b|] == b
    ensures (a + b + c)[|a| + |b|..] == c
  {
    assert (a + b + c)[..|a|] == a;
    assert (a + b + c)[|a|..|a| + |b|] == b;
  }

  /** The four parts of `a + b + c + d` are where they were put. */
  lemma FourParts<T>(a: seq<T>, b: seq<T>, c: seq<T>, d: seq<T>)
    ensures forall i :: 0 <= i < |a| ==> (a + b + c + d)[i] == a[i]
    ensures (a + b + c + d)[|a|..|a| + |b|] == b
    ensures (a + b + c + d)[|a| + |b|..|a| + |b| + |c|] == c
    ensures forall i :: 0 <= i < |d| ==> (a + b + c + d)[|a| + |b| + |c| + i] == d[i]
  {
    assert (a + b + c + d)[|a|..|a| + |b|] == b;
    assert (a + b + c + d)[|a| + |b|..|a| + |b| + |c|] == c;
  }

  lemma SliceOfSlice<T>(s: seq<T>, a: int, b: int, i: int, j: int)
    requires 0 <= a <= b <= |s| && 0 <= i <= j <= b - a
    ensures s[a..b][i..j] == s[a + i..a + j]
  {
    forall k | 0 <= k < j - i ensures s[a..b][i..j][k] == s[a + i..a + j][k] {
      assert s[a..b][i..j][k] == s[a..b][i + k] == s[a + i + k];
    }
  }

  /** The first `|a|` elements of `a + b` come from `a`. */
  lemma PrefixMembers<T>(a: seq<T>, b: seq<T>)
    ensures forall i :: 0 <= i < |a| ==> (a + b)[i] in a
  {
    forall i | 0 <= i < |a| ensures (a + b)[i] in a {
      assert (a + b)[i] == a[i];
    }
  }

  lemma DistinctOfDistinct<T(!new)>(s: seq<T>)
    requires NoDuplicates(s)
    ensures Distinct(s) == s
  {
    if s != [] {
      DistinctOfDistinct(s[..|s| - 1]);
    }
  }

  /** Kotlin `indexOfFirst`: the first index whose element satisfies `p`, or -1. */
  function IndexOfFirst<T>(xs: seq<T>, p: T -> bool): (i: int)
    ensures -1 <= i < |xs|
    ensures i >= 0 ==> p(xs[i]) && forall j :: 0 <= j < i ==> !p(xs[j])
    ensures i == -1 ==> forall j :: 0 <= j < |xs| ==> !p(xs[j])
  {
    if xs == [] then -1
    else if p(xs[0]) then 0
    else
      var k := IndexOfFirst(xs[1..], p);
      if k == -1 then -1 else k + 1
  }

  /** Kotlin `find`: the first element satisfying `p`, or nothing. */
  function Find<T>(xs: seq<T>, p: T -> bool): (r: Option<T>)
    ensures r.None? <==> forall j :: 0 <= j < |xs| ==> !p(xs[j])
    ensures r.Some? ==> exists i :: 0 <= i < |xs| && xs[i] == r.value && p(xs[i]) && forall j :: 0 <= j < i ==> !p(xs[j])
  {
    var i := IndexOfFirst(xs, p);
    if i == -1 then None else Some(xs[i])
  }

  /** Appending elements that are already present leaves `Distinct` unchanged. */
  lemma {:induction false} DistinctAppendKnown<T(!new)>(s: seq<T>, t: seq<T>)
    requires forall x :: x in t ==> x in s
    ensures Distinct(s + t) == Distinct(s)
  {
    if t != [] {
      var u := s + t[..|t| - 1];
      var x := t[|t| - 1];
      var v := s + t;
      assert v == u + [x];
      assert v[..|v| - 1] == u && v[|v| - 1] == x;
      DistinctAppendKnown(s, t[..|t| - 1]);
      assert x in t;
      assert x in Distinct(u);
    } else {
      assert s + t == s;
    }
  }

  /** Kotlin `filter`: the elements satisfying `p`, in order. */
  function Filter<T(!new)>(xs: seq<T>, p: T -> bool): (r: seq<T>)
    ensures |r| <= |xs|
    ensures forall x :: x in r <==> x in xs && p(x)
    ensures NoDuplicates(xs) ==> NoDuplicates(r)
  {
    if xs == [] then []
    else
      var rest := Filter(xs[1..], p);
      assert forall x :: x in xs <==> x == xs[0] || x in xs[1..];
      if p(xs[0]) then [xs[0]] + rest else rest
  }

  /** Filtering by a predicate every element satisfies keeps the sequence whole. */
  lemma {:induction false} FilterAll<T(!new)>(xs: seq<T>, p: T -> bool)
    requires forall x :: x in xs ==> p(x)
    ensures Filter(xs, p) == xs
  {
    if xs != [] {
      FilterAll(xs[1..], p);
      assert xs == [xs[0]] + xs[1..];
    }
  }
  /** How often `x` occurs in `xs`. */
  function Count<T(==)>(xs: seq<T>, x: T): (n: nat)
    ensures n <= |xs|
    ensures n > 0 <==> x in xs
  {
    if xs == [] then 0 else (if xs[0] == x then 1 else 0) + Count(xs[1..], x)
  }

  lemma NoDuplicatesCons<T>(xs: seq<T>)
    requires xs != []
    ensures NoDuplicates(xs) <==> xs[0] !in xs[1..] && NoDuplicates(xs[1..])
  {
    if xs[0] !in xs[1..] && NoDuplicates(xs[1..]) {
      forall i, j | 0 <= i < j < |xs| ensures xs[i] != xs[j] {
        if i == 0 {
          assert xs[j] == xs[1..][j - 1];
        } else {
          assert xs[i] == xs[1..][i - 1] && xs[j] == xs[1..][j - 1];
        }
      }
    }
    if NoDuplicates(xs) {
      forall i, j | 0 <= i < j < |xs[1..]| ensures xs[1..][i] != xs[1..][j] {
        assert xs[1..][i] == xs[i + 1] && xs[1..][j] == xs[j + 1];
      }
      forall k | 0 <= k < |xs[1..]| ensures xs[1..][k] != xs[0] {
        assert xs[1..][k] == xs[k + 1];
      }
    }
  }

  /** A list is free of duplicates exactly when each of its elements occurs once. */
  lemma {:induction false} NoDuplicatesIffCountOne<T>(xs: seq<T>)
    ensures NoDuplicates(xs) <==> forall x :: x in xs ==> Count(xs, x) == 1
  {
    if xs != [] {
      NoDuplicatesIffCountOne(xs[1..]);
      NoDuplicatesCons(xs);
      assert forall x :: x in xs <==> x == xs[0] || x in xs[1..];
      if !NoDuplicates(xs) {
        if xs[0] in xs[1..] {
          assert Count(xs, xs[0]) > 1;
        } else {
          var y :| y in xs[1..] && Count(xs[1..], y) != 1;
          assert Count(xs, y) == Count(xs[1..], y);
        }
      }
    }
  }

  /** The elements occurring more than once, each once, in order of first occurrence
      (`groupBy { it }.filter { it.value.size > 1 }.keys`). */
  function Repeated<T(==,!new)>(xs: seq<T>): (r: seq<T>)
    ensures NoDuplicates(r)
    ensures forall x :: x in r <==> x in xs && Count(xs, x) > 1
  {
    Filter(Distinct(xs), x => Count(xs, x) > 1)
  }

  /** Nothing is repeated exactly when the list has no duplicates. */
  lemma RepeatedEmptyIff<T(!new)>(xs: seq<T>)
    ensures Repeated(xs) == [] <==> NoDuplicates(xs)
  {
    NoDuplicatesIffCountOne(xs);
    if Repeated(xs) != [] {
      assert Repeated(xs)[0] in Repeated(xs);
    }
  }

  /** `size != toSet().size` detects exactly the lists with a duplicate. */
  lemma {:induction false} DistinctShorterIff<T(!new)>(xs: seq<T>)
    ensures |Distinct(xs)| == |xs| <==> NoDuplicates(xs)
  {
    if NoDuplicates(xs) {
      DistinctOfDistinct(xs);
    } else {
      var init := xs[..|xs| - 1];
      var last := xs[|xs| - 1];
      if last !in init {
        var i, j :| 0 <= i < j < |xs| && xs[i] == xs[j];
        assert xs[i] == init[i];
        assert j < |xs| - 1;
        assert init[i] == init[j];
        DistinctShorterIff(init);
      }
    }
  }
}

=== FILE: local_template_feature.dfy ===
/** The local-template feature: a deployment of template type `localTemplate` names,
    in `templateFile`, a file of the AuroraConfig holding the template to process. */
module LocalTemplateFeature {
  import opened Wrappers
  import opened JsonTree
  import opened FieldHandlers
  import opened AuroraConfigModel
  import opened DeploymentSpec

  /** `enable`: exactly the deployments of template type `localTemplate`. */
  predicate Enable(s: Spec) {
    s.templateType == LocalTemplate
  }

  /** `templateHandlers`: the one field `templateFile`, checked to name a file. */
  function TemplateHandlers(): (r: seq<Handler>)
    ensures |r| == 1 && r[0] == Validated("templateFile", TemplateFileExists)
  {
    [Validated("templateFile", TemplateFileExists)]
  }

  /** Kotlin's rendering of the file name the validator read: `null` when the node is
      missing or not a string. */
  function NameText(fileName: Option<string>): string {
    if fileName.Some? then fileName.value else "null"
  }

  /** Some file of the AuroraConfig is called exactly `fileName`. */
  predicate HasFileNamed(c: AuroraConfig, fileName: Option<string>) {
    fileName.Some? && exists i :: 0 <= i < |c.files| && c.files[i].name == fileName.value
  }

  /** `json?.textValue()`: the text of a string node, nothing otherwise. */
  function NodeFileName(node: Option<Json>): Option<string> {
    if node.Some? then TextValue(node.value) else None
  }

  function MissingFile(fileName: Option<string>): Problem {
    Problem(ErrorKind.IllegalArgument, "The file named " + NameText(fileName) + " does not exist in AuroraConfig")
  }

  /** The `templateFile` validator: an error, naming the file, unless some file of the
      AuroraConfig has exactly the text of the node as its name. */
  function ValidateTemplateFile(node: Option<Json>, c: AuroraConfig): (r: Verdict)
    ensures r.Valid? <==> HasFileNamed(c, NodeFileName(node))
    ensures !r.Valid? ==> r == Invalid(MissingFile(NodeFileName(node)))
  {
    var fileName := NodeFileName(node);
    if fileName.Some? && FindFile(c, fileName.value).Some? then Valid
    else Invalid(MissingFile(fileName))
  }

  const TemplateFileRequired := Problem(ErrorKind.IllegalArgument, "templateFile is required")

  /** `findTemplate`: the contents of the first file named by `templateFile`, or the
      error `templateFile is required` when there is none. */
  function FindTemplate(s: Spec, c: AuroraConfig): (r: Result<Json, Problem>)
    ensures r.Err? <==> !HasFileNamed(c, Text(s, "templateFile"))
    ensures r.Err? ==> r.error == TemplateFileRequired
    ensures r.Ok? ==> exists i :: IsFirstNamed(c.files, Text(s, "templateFile").value, i) && r.value == c.files[i].contents
  {
    match Text(s, "templateFile")
    case None => Err(TemplateFileRequired)
    case Some(n) =>
      match FindFile(c, n)
      case None => Err(TemplateFileRequired)
      case Some(f) => Ok(f.contents)
  }

  /** A `templateFile` the validator accepts is one `findTemplate` finds. */
  lemma ValidatedTemplateIsFound(s: Spec, c: AuroraConfig)
    requires "templateFile" in s.fields && s.fields["templateFile"].value.JStr?
    requires ValidateTemplateFile(Some(s.fields["templateFile"].value), c).Valid?
    ensures FindTemplate(s, c).Ok?
  {
  }
}

=== FILE: local_template_mapper.dfy ===
/** The version-1 local-template mapper: the handlers of a deployment built from a
    template file in the AuroraConfig (one per template parameter the layers set, plus
    `templateFile`, `version` and `replicas`) and the `AuroraLocalTemplate` it reads
    from the resolved fields. `AuroraConfigFields.getParameters` is not part of this
    model and is a parameter. */
module LocalTemplateMapper {
  import opened Wrappers
  import opened Lists
  import opened JsonTree
  import opened FieldHandlers
  import opened AuroraConfigModel
  import opened DeploymentSpec
  import opened MappingFunctions
  import ConfigMapperV1
  import LocalTemplateFeature

  /** `handlers`: the parameter handlers, then `templateFile` (checked to name a file),
      `version` and `replicas`. */
  function Handlers(applicationFiles: seq<AuroraConfigFile>): (r: seq<Handler>)
    ensures var params := FindSubKeys(applicationFiles, "parameters");
      |r| == |params| + 3 &&
      (forall i :: 0 <= i < |params| ==> r[i] == Plain("parameters/" + params[i])) &&
      r[|params|..] == [Validated("templateFile", TemplateFileExists), Plain("version"), Plain("replicas")]
  {
    ConfigMapperV1.FindParameters(applicationFiles) + [Validated("templateFile", TemplateFileExists), Plain("version"), Plain("replicas")]
  }

  /** Every handler name is distinct: one handler per parameter key, none of them
      clashing with the three fixed fields. */
  lemma HandlerNamesDistinct(applicationFiles: seq<AuroraConfigFile>)
    ensures NoDuplicates(Names(Handlers(applicationFiles)))
  {
    var params := FindSubKeys(applicationFiles, "parameters");
    var hs := Handlers(applicationFiles);
    var n := |params|;
    assert hs[n] == hs[n..][0] && hs[n + 1] == hs[n..][1] && hs[n + 2] == hs[n..][2];
    ParametersThenFixedDistinct(Names(hs), params);
  }

  lemma ParametersThenFixedDistinct(ns: seq<string>, params: seq<string>)
    requires NoDuplicates(params)
    requires |ns| == |params| + 3
    requires forall i :: 0 <= i < |params| ==> ns[i] == "parameters/" + params[i]
    requires ns[|params|] == "templateFile" && ns[|params| + 1] == "version" && ns[|params| + 2] == "replicas"
    ensures NoDuplicates(ns)
  {
    forall i, j | 0 <= i < j < |ns| ensures ns[i] != ns[j] {
      if j < |params| {
        PrefixedDistinct("parameters/", params[i], params[j]);
      } else if i < |params| {
        ParameterIsNotFixed(params[i]);
      }
    }
  }

  lemma PrefixedDistinct(prefix: string, a: string, b: string)
    requires a != b
    ensures prefix + a != prefix + b
  {
    assert a == (prefix + a)[|prefix|..];
    assert b == (prefix + b)[|prefix|..];
  }

  lemma ParameterIsNotFixed(p: string)
    ensures "parameters/" + p !in ["templateFile", "version", "replicas"]
  {
    var n := "parameters/" + p;
    assert |n| >= 11 && n[0] == 'p';
  }

  /** `AuroraLocalTemplate`: the parameters, the template, and the optional version and
      replica count. */
  datatype AuroraLocalTemplate<P> = AuroraLocalTemplate(parameters: P, templateJson: Json, version: Option<Json>, replicas: Option<Json>)

  /** `localTemplate`: fails with `templateFile is required` when `templateFile` names no
      file; otherwise the template is that file's contents, and `version` and
      `replicas` are present exactly when set. */
  function ToLocalTemplate<P>(s: Spec, applicationFiles: seq<AuroraConfigFile>, c: AuroraConfig,
                              getParameters: seq<Handler> -> P): (r: Result<AuroraLocalTemplate<P>, Problem>)
    ensures r.Err? <==> LocalTemplateFeature.FindTemplate(s, c).Err?
    ensures r.Err? ==> r.error == LocalTemplateFeature.TemplateFileRequired
    ensures r.Ok? ==>
      r.value.parameters == getParameters(ConfigMapperV1.FindParameters(applicationFiles)) &&
      r.value.templateJson == LocalTemplateFeature.FindTemplate(s, c).value &&
      (r.value.version.Some? <==> "version" in s.fields) &&
      (r.value.version.Some? ==> r.value.version.value == s.fields["version"].value) &&
      (r.value.replicas.Some? <==> "replicas" in s.fields) &&
      (r.value.replicas.Some? ==> r.value.replicas.value == s.fields["replicas"].value)
  {
    var parameters := getParameters(ConfigMapperV1.FindParameters(applicationFiles));
    match LocalTemplateFeature.FindTemplate(s, c)
    case Err(e) => Err(e)
    case Ok(json) => Ok(AuroraLocalTemplate(parameters, json, GetOrNull(s, "version"), GetOrNull(s, "replicas")))
  }
}

=== FILE: mapping_functions.dfy ===
/** Dynamic handler discovery: the sub-keys the layers use under a top-level key, and
    the handlers derived from the sub-keys of `config`. */
module MappingFunctions {
  import opened Wrappers
  import opened Lists
  import opened JsonTree
  import opened FieldHandlers
  import opened AuroraConfigModel

  /** The field names under a file's top-level key `name`; nothing when it lacks the key. */
  function SubKeysOfFile(f: AuroraConfigFile, name: string): (r: seq<string>)
    ensures !Has(f.contents, name) ==> r == []
    ensures Has(f.contents, name) ==> r == FieldNames(Get(f.contents, name).value)
  {
    if Has(f.contents, name) then FieldNames(Get(f.contents, name).value) else []
  }

  /** The sub-keys of every file, concatenated in file order (the `flatMap`). */
  function AllSubKeys(files: seq<AuroraConfigFile>, name: string): (r: seq<string>)
    ensures forall k :: k in r <==> exists f :: f in files && k in SubKeysOfFile(f, name)
  {
    if files == [] then []
    else
      var rest := AllSubKeys(files[1..], name);
      assert forall f :: f in files <==> f == files[0] || f in files[1..];
      SubKeysOfFile(files[0], name) + rest
  }

  lemma {:induction false} AllSubKeysConcat(a: seq<AuroraConfigFile>, b: seq<AuroraConfigFile>, name: string)
    ensures AllSubKeys(a + b, name) == AllSubKeys(a, name) + AllSubKeys(b, name)
  {
    if a == [] {
      assert a + b == b;
    } else {
      assert (a + b)[1..] == a[1..] + b;
      AllSubKeysConcat(a[1..], b, name);
    }
  }

  /** `findSubKeys(name)`: the union over all files of the field names under `name`,
      each once, in order of first use. */
  function FindSubKeys(files: seq<AuroraConfigFile>, name: string): (r: seq<string>)
    ensures NoDuplicates(r)
    ensures forall k :: k in r <==> exists f :: f in files && k in SubKeysOfFile(f, name)
  {
    Distinct(AllSubKeys(files, name))
  }

  /** Layers that bring no new sub-key change nothing: a file without the key
      contributes nothing, and a key repeated across layers is listed once. */
  lemma {:induction false} FindSubKeysAbsorbs(a: seq<AuroraConfigFile>, b: seq<AuroraConfigFile>, name: string)
    requires forall k :: k in FindSubKeys(b, name) ==> k in FindSubKeys(a, name)
    ensures FindSubKeys(a + b, name) == FindSubKeys(a, name)
  {
    AllSubKeysConcat(a, b, name);
    forall k | k in AllSubKeys(b, name) ensures k in AllSubKeys(a, name) {
      assert k in FindSubKeys(b, name);
    }
    DistinctAppendKnown(AllSubKeys(a, name), AllSubKeys(b, name));
  }

  /** A file lacking the key can be added anywhere after the others without effect. */
  lemma FindSubKeysSkipsFileWithoutKey(files: seq<AuroraConfigFile>, f: AuroraConfigFile, name: string)
    requires !Has(f.contents, name)
    ensures FindSubKeys(files + [f], name) == FindSubKeys(files, name)
  {
    FindSubKeysAbsorbs(files, [f], name);
  }

  /** Repeating the layers does not repeat their sub-keys. */
  lemma FindSubKeysIdempotent(files: seq<AuroraConfigFile>, name: string)
    ensures FindSubKeys(files + files, name) == FindSubKeys(files, name)
  {
    FindSubKeysAbsorbs(files, files, name);
  }

  // ---------------------------------------------------------------------------
  // config/<key>/<field>

  /** The field names of the node at `path` in every file, concatenated in file order
      (a missing node contributes nothing). */
  function AllFieldsAt(files: seq<AuroraConfigFile>, path: seq<string>): (r: seq<string>)
    ensures forall x :: x in r <==> exists f :: f in files && x in FieldNamesOf(At(f.contents, path))
  {
    if files == [] then []
    else
      var rest := AllFieldsAt(files[1..], path);
      assert forall f :: f in files <==> f == files[0] || f in files[1..];
      FieldNamesOf(At(files[0].contents, path)) + rest
  }

  /** The union across all layers of the field names of the node at `path`, each once,
      in order of first use. */
  function FieldsAt(files: seq<AuroraConfigFile>, path: seq<string>): (r: seq<string>)
    ensures NoDuplicates(r)
    ensures forall x :: x in r <==> exists f :: f in files && x in FieldNamesOf(At(f.contents, path))
  {
    Distinct(AllFieldsAt(files, path))
  }

  /** The fields of config sub-key `key`: the union of its fields across all layers. */
  function ConfigFields(files: seq<AuroraConfigFile>, key: string): (r: seq<string>)
    ensures NoDuplicates(r)
    ensures forall x :: x in r <==> exists f :: f in files && x in FieldNamesOf(At(f.contents, ["config", key]))
  {
    FieldsAt(files, ["config", key])
  }

  /** One plain handler `prefix + field` per field, in order. */
  function FieldHandlersFor(prefix: string, fields: seq<string>): (r: seq<Handler>)
    ensures |r| == |fields|
    ensures forall i :: 0 <= i < |fields| ==> r[i] == Plain(prefix + fields[i])
  {
    if fields == [] then [] else [Plain(prefix + fields[0])] + FieldHandlersFor(prefix, fields[1..])
  }

  /** The handlers of one config sub-key: `config/<key>` alone when it has no fields,
      otherwise `config/<key>/<field>` for each field. */
  function ConfigKeyHandlers(key: string, fields: seq<string>): (r: seq<Handler>)
    ensures fields == [] ==> r == [Plain("config/" + key)]
    ensures fields != [] ==> |r| == |fields| && forall i :: 0 <= i < |fields| ==> r[i] == Plain("config/" + key + "/" + fields[i])
  {
    if fields == [] then [Plain("config/" + key)] else FieldHandlersFor("config/" + key + "/", fields)
  }

  function ConfigHandlersFor(keys: seq<string>, files: seq<AuroraConfigFile>): (r: seq<Handler>)
    ensures forall h :: h in r <==> exists k :: k in keys && h in ConfigKeyHandlers(k, ConfigFields(files, k))
  {
    if keys == [] then []
    else
      var rest := ConfigHandlersFor(keys[1..], files);
      assert forall k :: k in keys <==> k == keys[0] || k in keys[1..];
      ConfigKeyHandlers(keys[0], ConfigFields(files, keys[0])) + rest
  }

  /** `findConfigFieldHandlers()`: for every config sub-key, its handlers. */
  function FindConfigFieldHandlers(files: seq<AuroraConfigFile>): (r: seq<Handler>)
    ensures forall h :: h in r <==>
      exists k :: k in FindSubKeys(files, "config") && h in ConfigKeyHandlers(k, ConfigFields(files, k))
  {
    ConfigHandlersFor(FindSubKeys(files, "config"), files)
  }

  /** A config sub-key without fields yields exactly the bare handler `config/<key>`;
      one with fields yields `config/<key>/<field>` for each field. */
  lemma ConfigKeyHandlersPresent(files: seq<AuroraConfigFile>, key: string)
    requires key in FindSubKeys(files, "config")
    ensures ConfigFields(files, key) == [] ==> Plain("config/" + key) in FindConfigFieldHandlers(files)
    ensures forall fld :: fld in ConfigFields(files, key) ==>
      Plain("config/" + key + "/" + fld) in FindConfigFieldHandlers(files)
  {
    var fields := ConfigFields(files, key);
    if fields == [] {
      assert Plain("config/" + key) in ConfigKeyHandlers(key, fields);
    }
    forall fld | fld in fields
      ensures Plain("config/" + key + "/" + fld) in FindConfigFieldHandlers(files)
    {
      var i :| 0 <= i < |fields| && fields[i] == fld;
      assert ConfigKeyHandlers(key, fields)[i] == Plain("config/" + key + "/" + fld);
    }
  }
}

=== FILE: operation_scope_feature.dfy ===
/** The operation-scope feature: when the platform is configured with an operation
    scope, every generated resource is labelled `operationScope=<scope>`. The
    configured scope is a parameter. */
module OperationScopeFeature {
  import opened Strings
  import opened FieldHandlers
  import opened Resources

  const FeatureName := "OperationScopeFeature"
  const LabelComment := "Added operationScope label"

  /** `handlers`: the feature reads no configuration field. */
  function Handlers(): (r: seq<Handler>)
    ensures |r| == 0
  {
    []
  }

  /** `getLabelsToAdd`: nothing for a blank scope, otherwise the one label. */
  function LabelsToAdd(scope: string): (r: map<string, string>)
    ensures IsBlank(scope) <==> r == map[]
    ensures !IsBlank(scope) ==> r.Keys == {"operationScope"} && r["operationScope"] == scope
  {
    if IsBlank(scope) then map[]
    else
      var r := map["operationScope" := scope];
      assert "operationScope" in r;
      r
  }

  /** `modify`: with a blank scope the resources are left as they are (not even a
      source comment is added); otherwise each gets the label, with the comment. */
  method Modify(rs: ResourceSet, scope: string)
    modifies rs
    ensures IsBlank(scope) ==> rs.resources == old(rs.resources)
    ensures !IsBlank(scope) ==>
      |rs.resources| == |old(rs.resources)| &&
      forall i :: 0 <= i < |rs.resources| ==>
        rs.resources[i] == WithLabels(old(rs.resources)[i], LabelsToAdd(scope), LabelComment, FeatureName)
  {
    if IsBlank(scope) {
      return;
    }
    rs.AddLabels(LabelsToAdd(scope), LabelComment, FeatureName);
  }

  /** A resource labelled by `modify` carries `operationScope=<scope>`, keeps every
      other label it had, and records the feature and its comment as a source. */
  lemma ModifiedResourceIsScoped(r: AuroraResource, scope: string)
    requires !IsBlank(scope)
    ensures var m := WithLabels(r, LabelsToAdd(scope), LabelComment, FeatureName);
      var l := m.resource.meta.labels;
      "operationScope" in l && l["operationScope"] == scope &&
      (forall k :: k in r.resource.meta.labels && k != "operationScope" ==> k in l && l[k] == r.resource.meta.labels[k]) &&
      m.sources == r.sources + [Source(FeatureName, LabelComment)]
  {
    WithLabelsEffect(r, LabelsToAdd(scope), LabelComment, FeatureName);
  }
}

=== FILE: patterns.dfy ===
/** The regular expressions the configuration validators use, which are all anchored
    sequences of bracketed character classes with a repetition count
    (`^[a-z][-a-z0-9]{0,23}[a-z0-9]$`). A pattern is kept as that structure, with
    the text it is written as and the strings it matches. */
module Patterns {
  import opened Strings

  /** One member of a bracketed class: a single character or a range `a-z`. */
  datatype ClassItem = Single(c: char) | Range(lo: char, hi: char)

  /** `[items]{min,max}`; `{1,1}` is written without a count. */
  datatype Atom = Atom(items: seq<ClassItem>, min: nat, max: nat)

  /** `^atom atom … $`: the whole text must match. */
  type Pattern = seq<Atom>

  predicate InItem(c: char, it: ClassItem) {
    match it
    case Single(x) => c == x
    case Range(lo, hi) => lo <= c <= hi
  }

  predicate InClass(c: char, items: seq<ClassItem>) {
    exists i :: 0 <= i < |items| && InItem(c, items[i])
  }

  predicate AllIn(s: string, items: seq<ClassItem>) {
    forall i :: 0 <= i < |s| ==> InClass(s[i], items)
  }

  /** Whether the whole of `s` matches `p`: the first atom takes between `min` and
      `max` characters of its class, and the rest of the pattern the rest of `s`. */
  predicate Matches(p: Pattern, s: string)
    decreases |p|, if p == [] then 0 else p[0].max + 2
  {
    if p == [] then s == [] else MatchesFrom(p, s, p[0].min)
  }

  /** Some count from `k` up to the first atom's `max` lets `s` match. */
  predicate MatchesFrom(p: Pattern, s: string, k: nat)
    requires p != []
    decreases |p|, if k <= p[0].max then p[0].max + 1 - k else 0
  {
    if k > p[0].max || k > |s| then false
    else (AllIn(s[..k], p[0].items) && Matches(p[1..], s[k..])) || MatchesFrom(p, s, k + 1)
  }

  lemma {:induction false} MatchesFromIff(p: Pattern, s: string, k: nat)
    requires p != []
    ensures MatchesFrom(p, s, k) <==>
      exists j :: k <= j <= p[0].max && j <= |s| && AllIn(s[..j], p[0].items) && Matches(p[1..], s[j..])
    decreases if k <= p[0].max then p[0].max + 1 - k else 0
  {
    if k <= p[0].max && k <= |s| {
      MatchesFromIff(p, s, k + 1);
    }
  }

  /** A non-empty pattern matches when its first atom takes `j` characters, within its
      bounds, of its class, and the rest of the pattern matches what follows. */
  lemma MatchesStep(p: Pattern, s: string)
    requires p != []
    ensures Matches(p, s) <==>
      exists j :: p[0].min <= j <= p[0].max && j <= |s| && AllIn(s[..j], p[0].items) && Matches(p[1..], s[j..])
  {
    MatchesFromIff(p, s, p[0].min);
  }

  /** A pattern of one single-character atom matches exactly one character of its class. */
  lemma MatchesOne(items: seq<ClassItem>, s: string)
    ensures Matches([Atom(items, 1, 1)], s) <==> |s| == 1 && InClass(s[0], items)
  {
    var p := [Atom(items, 1, 1)];
    MatchesStep(p, s);
    assert p[1..] == [];
    if |s| == 1 && InClass(s[0], items) {
      assert AllIn(s[..1], items) && Matches(p[1..], s[1..]);
    }
  }

  // ---------------------------------------------------------------------------
  // The written form

  function ItemText(it: ClassItem): string {
    match it
    case Single(c) => [c]
    case Range(lo, hi) => [lo, '-', hi]
  }

  function ItemsText(items: seq<ClassItem>): string {
    if items == [] then "" else ItemText(items[0]) + ItemsText(items[1..])
  }

  function AtomText(a: Atom): string {
    "[" + ItemsText(a.items) + "]" +
    (if a.min == 1 && a.max == 1 then "" else "{" + NatToString(a.min) + "," + NatToString(a.max) + "}")
  }

  function AtomsText(p: Pattern): string {
    if p == [] then "" else AtomText(p[0]) + AtomsText(p[1..])
  }

  /** The pattern as the source writes it. */
  function PatternText(p: Pattern): string {
    "^" + AtomsText(p) + "$"
  }
}

=== FILE: resource_provisioner.dfy ===
/** External resource provisioning: the database-schema requests and the vault
    requests a deployment spec gives rise to, and the two provisioner calls. The
    schema provisioner and the vault provider are parameters. */
module ResourceProvisioner {
  import opened Wrappers
  import opened Strings

  /** A database the deployment uses: its name and, optionally, a fixed schema id. */
  datatype DatabaseSpec = DatabaseSpec(name: string, id: Option<string>)

  datatype SchemaProvisionRequest =
    | SchemaIdRequest(id: string, schemaName: string)
    | SchemaForAppRequest(affiliation: string, environment: string, application: string, schemaName: string)

  /** A mount, as far as vault requests care: the vault it mounts, if any. */
  datatype Mount = Mount(secretVaultName: Option<string>)

  datatype Volume = Volume(
    secretVaultName: Option<string>,
    secretVaultKeys: seq<string>,
    keyMappings: Option<seq<(string, string)>>,
    mounts: Option<seq<Mount>>)

  /** What a vault lookup is asked for: the collection, the vault, and the keys and key
      mappings to apply. */
  datatype VaultRequest = VaultRequest(
    collectionName: string,
    name: string,
    keys: seq<string>,
    keyMappings: Option<seq<(string, string)>>)

  /** The parts of `AuroraDeploymentSpecInternal` provisioning reads. */
  datatype InternalSpec = InternalSpec(
    name: string,
    affiliation: string,
    envName: string,
    databases: Option<seq<DatabaseSpec>>,
    volume: Option<Volume>)

  datatype ProvisioningResult<S, V> = ProvisioningResult(schemaProvisionResults: Option<S>, vaultResults: V)

  function SchemaRequest(spec: InternalSpec, db: DatabaseSpec): (r: SchemaProvisionRequest)
    ensures r.schemaName == ToLower(db.name)
    ensures r.SchemaIdRequest? <==> db.id.Some?
    ensures r.SchemaIdRequest? ==> r.id == db.id.value
    ensures r.SchemaForAppRequest? ==>
      r.affiliation == spec.affiliation && r.environment == spec.envName && r.application == spec.name
  {
    var name := ToLower(db.name);
    if db.id.Some? then SchemaIdRequest(db.id.value, name)
    else SchemaForAppRequest(spec.affiliation, spec.envName, spec.name, name)
  }

  /** `createSchemaProvisionRequestsFromDeploymentSpec`: one request per database, in
      order (none without an integration). */
  function CreateSchemaRequests(spec: InternalSpec): (r: seq<SchemaProvisionRequest>)
    ensures spec.databases.None? ==> r == []
    ensures spec.databases.Some? ==>
      |r| == |spec.databases.value| &&
      forall i :: 0 <= i < |r| ==> r[i] == SchemaRequest(spec, spec.databases.value[i])
  {
    var dbs := spec.databases.GetOr([]);
    seq(|dbs|, i requires 0 <= i < |dbs| => SchemaRequest(spec, dbs[i]))
  }

  /** The vault names the mounts refer to, in order. */
  function MountVaultNames(mounts: seq<Mount>): (r: seq<string>)
    ensures forall v :: v in r <==> exists m :: m in mounts && m.secretVaultName == Some(v)
    ensures |r| <= |mounts|
    ensures r == Somes(seq(|mounts|, i requires 0 <= i < |mounts| => mounts[i].secretVaultName))
  {
    if mounts == [] then []
    else
      var rest := MountVaultNames(mounts[1..]);
      assert forall m :: m in mounts <==> m == mounts[0] || m in mounts[1..];
      var names := seq(|mounts|, i requires 0 <= i < |mounts| => mounts[i].secretVaultName);
      assert names[1..] == seq(|mounts| - 1, i requires 0 <= i < |mounts| - 1 => mounts[1..][i].secretVaultName);
      ToSeq(mounts[0].secretVaultName) + rest
  }

  /** Every vault the volume refers to: the mounts' vaults, then the volume's own. */
  function AllVaultNames(volume: Volume): (r: seq<string>)
    ensures volume.secretVaultName.None? ==> r == MountVaultNames(volume.mounts.GetOr([]))
    ensures volume.secretVaultName.Some? ==> r == MountVaultNames(volume.mounts.GetOr([])) + [volume.secretVaultName.value]
  {
    MountVaultNames(volume.mounts.GetOr([])) + ToSeq(volume.secretVaultName)
  }

  /** `createVaultRequests`: nothing without a volume; otherwise one request per vault
      name, each with the affiliation and the volume's keys and key mappings. */
  function CreateVaultRequests(spec: InternalSpec): (r: seq<VaultRequest>)
    ensures spec.volume.None? ==> r == []
    ensures spec.volume.Some? ==>
      var names := AllVaultNames(spec.volume.value);
      |r| == |names| &&
      forall i :: 0 <= i < |r| ==>
        r[i] == VaultRequest(spec.affiliation, names[i], spec.volume.value.secretVaultKeys, spec.volume.value.keyMappings)
  {
    if spec.volume.None? then []
    else
      var v := spec.volume.value;
      var names := AllVaultNames(v);
      seq(|names|, i requires 0 <= i < |names| => VaultRequest(spec.affiliation, names[i], v.secretVaultKeys, v.keyMappings))
  }

  /** `handleSchemaProvisioning`: no result, and no call, when there is nothing to ask. */
  function HandleSchemaProvisioning<S>(spec: InternalSpec, provisionSchemas: seq<SchemaProvisionRequest> -> S): (r: Option<S>)
    ensures r.None? <==> CreateSchemaRequests(spec) == []
    ensures r.Some? ==> r.value == provisionSchemas(CreateSchemaRequests(spec))
  {
    var requests := CreateSchemaRequests(spec);
    if requests == [] then None else Some(provisionSchemas(requests))
  }

  /** `handleVaults`: the vault provider is asked even for an empty request list. */
  function HandleVaults<V>(spec: InternalSpec, findVaultData: seq<VaultRequest> -> V): V {
    findVaultData(CreateVaultRequests(spec))
  }

  /** `provisionResources`: the schema results, absent when no schema was asked for,
      and the vault results. */
  function ProvisionResources<S, V>(spec: InternalSpec, provisionSchemas: seq<SchemaProvisionRequest> -> S,
                                    findVaultData: seq<VaultRequest> -> V): (r: ProvisioningResult<S, V>)
    ensures r.schemaProvisionResults.None? <==> CreateSchemaRequests(spec) == []
    ensures r.schemaProvisionResults.Some? ==> r.schemaProvisionResults.value == provisionSchemas(CreateSchemaRequests(spec))
    ensures r.vaultResults == findVaultData(CreateVaultRequests(spec))
  {
    ProvisioningResult(HandleSchemaProvisioning(spec, provisionSchemas), HandleVaults(spec, findVaultData))
  }

  /** Without databases the schema provisioner's answer never matters: it is not asked. */
  lemma NoDatabasesNoSchemaCall<S>(spec: InternalSpec, p1: seq<SchemaProvisionRequest> -> S, p2: seq<SchemaProvisionRequest> -> S)
    requires spec.databases.None? || spec.databases.value == []
    ensures HandleSchemaProvisioning(spec, p1) == HandleSchemaProvisioning(spec, p2) == None
  {
  }

  /** Without a volume the vault provider is asked about the empty request list. */
  lemma NoVolumeStillAsksVault<V>(spec: InternalSpec, findVaultData: seq<VaultRequest> -> V)
    requires spec.volume.None?
    ensures HandleVaults(spec, findVaultData) == findVaultData([])
  {
  }

  /** Each vault a mount names, and the volume's own vault, is requested. */
  lemma EveryVaultRequested(spec: InternalSpec, name: string)
    requires spec.volume.Some?
    requires name in AllVaultNames(spec.volume.value)
    ensures exists q :: q in CreateVaultRequests(spec) && q.name == name && q.collectionName == spec.affiliation
  {
    var names := AllVaultNames(spec.volume.value);
    var i :| 0 <= i < |names| && names[i] == name;
    assert CreateVaultRequests(spec)[i].name == name;
  }
}

=== FILE: resources.dfy ===
/** The objects features generate and the shared, mutable set of generated resources
    that `modify` passes rewrite in place. The OpenShift/Kubernetes builders are
    modelled as records holding only the fields the core sets. The set helpers
    `addEnvVar` and `addLabels` live in a file that is not part of this model; they
    are given the meaning their call sites rely on: environment variables are appended
    to every container of every deployment config, labels are merged into every
    resource's labels (the new labels win), and either change records its source. */
module Resources {
  import opened Wrappers

  datatype ObjectMeta = ObjectMeta(
    name: string,
    namespace: string,
    labels: map<string, string>,
    annotations: map<string, string>)

  /** An environment variable's value: a literal or a reference to a secret's key. */
  datatype EnvValue = Literal(text: string) | SecretKeyRef(secretName: string, key: string)
  datatype EnvVar = EnvVar(name: string, value: EnvValue)
  datatype Container = Container(name: string, env: seq<EnvVar>)

  /** A role-binding subject; a group unknown to the directory has no name. */
  datatype Subject = Subject(kind: string, name: Option<string>)

  datatype RouteTls = RouteTls(insecureEdgeTerminationPolicy: string, termination: string)

  datatype BigIpSpec = BigIpSpec(
    routeName: string,
    serviceName: string,
    asmPolicy: Option<string>,
    oauthScopes: Option<seq<string>>,
    apiPaths: Option<seq<string>>,
    externalHost: Option<string>)

  datatype KubeObject =
    | RouteObj(meta: ObjectMeta, toKind: string, toName: string, host: string, path: Option<string>, tls: Option<RouteTls>)
    | SecretObj(meta: ObjectMeta, data: map<string, string>)
    | RoleBindingObj(meta: ObjectMeta, subjects: seq<Subject>, roleRefKind: string, roleRefName: string)
    | NamespaceObj(meta: ObjectMeta)
    | BigIpObj(meta: ObjectMeta, spec: BigIpSpec)
    | DeploymentConfigObj(meta: ObjectMeta, containers: seq<Container>)
    | OtherObj(meta: ObjectMeta, kind: string)

  /** Which feature touched a resource, and why. */
  datatype Source = Source(feature: string, comment: string)

  /** A generated resource: the explicit name some features give it, its object, the
      feature that created it, the features that modified it since, and whether it
      belongs to the environment header. */
  datatype AuroraResource = AuroraResource(
    name: Option<string>,
    resource: KubeObject,
    createdBy: string,
    sources: seq<Source>,
    header: bool)

  /** `generateResource(content, header)`: a fresh resource with no modifications. */
  function Generated(obj: KubeObject, feature: string, header: bool): (r: AuroraResource)
    ensures r.name.None? && r.resource == obj && r.createdBy == feature && r.sources == [] && r.header == header
  {
    AuroraResource(None, obj, feature, [], header)
  }

  /** `AuroraResource(name, content)`: a fresh resource under an explicit name. */
  function Named(name: string, obj: KubeObject, feature: string): (r: AuroraResource)
    ensures r.name == Some(name) && r.resource == obj && r.createdBy == feature && r.sources == [] && !r.header
  {
    AuroraResource(Some(name), obj, feature, [], false)
  }

  const EnvVarComment := "Added env vars"

  function AppendEnv(cs: seq<Container>, env: seq<EnvVar>): (r: seq<Container>)
    ensures |r| == |cs|
    ensures forall i :: 0 <= i < |cs| ==> r[i] == cs[i].(env := cs[i].env + env)
  {
    seq(|cs|, i requires 0 <= i < |cs| => cs[i].(env := cs[i].env + env))
  }

  /** One resource after `addEnvVar`: a deployment config gets the variables appended
      to each container and a source entry; anything else is untouched. */
  function WithEnv(r: AuroraResource, env: seq<EnvVar>, feature: string): AuroraResource {
    match r.resource
    case DeploymentConfigObj(meta, cs) =>
      r.(resource := DeploymentConfigObj(meta, AppendEnv(cs, env)),
         sources := r.sources + [Source(feature, EnvVarComment)])
    case _ => r
  }

  /** One resource after `addLabels`: the labels merged, the new ones winning. */
  function WithLabels(r: AuroraResource, labels: map<string, string>, comment: string, feature: string): AuroraResource {
    r.(resource := r.resource.(meta := r.resource.meta.(labels := r.resource.meta.labels + labels)),
       sources := r.sources + [Source(feature, comment)])
  }

  /** A modify pass keeps the resource count and each resource's kind, name and creator. */
  predicate SameShape(a: AuroraResource, b: AuroraResource) {
    a.name == b.name && a.resource.meta.name == b.resource.meta.name &&
    a.resource.meta.namespace == b.resource.meta.namespace &&
    a.createdBy == b.createdBy && a.header == b.header &&
    (a.resource.DeploymentConfigObj? <==> b.resource.DeploymentConfigObj?)
  }

  lemma WithEnvEffect(r: AuroraResource, env: seq<EnvVar>, feature: string)
    ensures SameShape(r, WithEnv(r, env, feature))
    ensures !r.resource.DeploymentConfigObj? ==> WithEnv(r, env, feature) == r
    ensures r.resource.DeploymentConfigObj? ==>
      var cs := WithEnv(r, env, feature).resource.containers;
      |cs| == |r.resource.containers| &&
      (forall i :: 0 <= i < |cs| ==>
         (cs[i].name == r.resource.containers[i].name &&
          cs[i].env[..|r.resource.containers[i].env|] == r.resource.containers[i].env &&
          cs[i].env[|r.resource.containers[i].env|..] == env)) &&
      WithEnv(r, env, feature).sources == r.sources + [Source(feature, EnvVarComment)]
  {
  }

  lemma WithLabelsEffect(r: AuroraResource, labels: map<string, string>, comment: string, feature: string)
    ensures SameShape(r, WithLabels(r, labels, comment, feature))
    ensures var l := WithLabels(r, labels, comment, feature).resource.meta.labels;
      (forall k :: k in l <==> k in r.resource.meta.labels || k in labels) &&
      (forall k :: k in labels ==> l[k] == labels[k]) &&
      (forall k :: k in l && k !in labels ==> l[k] == r.resource.meta.labels[k])
    ensures WithLabels(r, labels, comment, feature).sources == r.sources + [Source(feature, comment)]
  {
  }

  /** The set of resources generated for one deployment, which `modify` passes of the
      features rewrite in place. */
  class ResourceSet {
    var resources: seq<AuroraResource>

    constructor (initial: seq<AuroraResource>)
      ensures resources == initial
    {
      resources := initial;
    }

    /** `addEnvVar(envVars, clazz)`. */
    method AddEnvVars(env: seq<EnvVar>, feature: string)
      modifies this
      ensures |resources| == |old(resources)|
      ensures forall i :: 0 <= i < |resources| ==> resources[i] == WithEnv(old(resources)[i], env, feature)
    {
      var i := 0;
      while i < |resources|
        invariant i <= |resources| == |old(resources)|
        invariant forall j :: 0 <= j < i ==> resources[j] == WithEnv(old(resources)[j], env, feature)
        invariant forall j :: i <= j < |resources| ==> resources[j] == old(resources)[j]
      {
        resources := resources[i := WithEnv(resources[i], env, feature)];
        i := i + 1;
      }
    }

    /** `addLabels(commonLabels, comment, clazz)`. */
    method AddLabels(labels: map<string, string>, comment: string, feature: string)
      modifies this
      ensures |resources| == |old(resources)|
      ensures forall i :: 0 <= i < |resources| ==> resources[i] == WithLabels(old(resources)[i], labels, comment, feature)
    {
      var i := 0;
      while i < |resources|
        invariant i <= |resources| == |old(resources)|
        invariant forall j :: 0 <= j < i ==> resources[j] == WithLabels(old(resources)[j], labels, comment, feature)
        invariant forall j :: i <= j < |resources| ==> resources[j] == old(resources)[j]
      {
        resources := resources[i := WithLabels(resources[i], labels, comment, feature)];
        i := i + 1;
      }
    }
  }
}

=== FILE: route_feature.dfy ===
/** The route feature: the route handlers, the routes a deployment asks for (the
    simplified `route: true` form or one route per `route` sub-key), the OpenShift
    Route objects generated from them, the route environment variables, and the
    route-set validation (TLS hosts, duplicate names, duplicate targets).
    The names of the `TlsTermination` and `InsecurePolicy` enums, the `Route.url`,
    `Route.protocol` and `Route.target` members and the `findSubKeysExpanded` /
    `findSubHandlers` helpers are defined outside this model; the enum names and the
    three members are parameters, and the helpers are given the meaning their call
    sites rely on (`route/<key>` per route sub-key, one handler per annotation key). */
module RouteFeature {
  import opened Wrappers
  import opened Strings
  import opened Lists
  import opened JsonTree
  import opened FieldHandlers
  import opened AuroraConfigModel
  import opened MappingFunctions
  import opened DeploymentSpec
  import opened Resources

  const FeatureName := "RouteFeature"

  datatype SecureRoute = SecureRoute(insecurePolicy: string, termination: string)

  /** A route the deployment asks for (`model.Route`). */
  datatype Route = Route(
    objectName: string,
    host: string,
    path: Option<string>,
    annotations: map<string, string>,
    tls: Option<SecureRoute>)

  // ---------------------------------------------------------------------------
  // Handlers

  /** The validator of an annotation handler: an annotation key may not hold `/`. */
  function AnnotationKeyVerdict(key: string): (v: Verdict)
    ensures v.Invalid? <==> '/' in key
    ensures v.Throws? == false
    ensures v.Invalid? ==> v.problem.kind == ErrorKind.IllegalArgument
  {
    if '/' in key then Invalid(Problem(ErrorKind.IllegalArgument, "Annotation " + key + " cannot contain '/'. Use '|' instead"))
    else Valid
  }

  function AnnotationHandlersFor(prefix: string, keys: seq<string>): (r: seq<Handler>)
    ensures |r| == |keys|
    ensures forall i :: 0 <= i < |keys| ==>
      r[i] == Validated(prefix + "/annotations/" + keys[i], AnnotationKeyHasNoSlash(keys[i]))
    ensures forall h :: h in r ==> h.validator.AnnotationKeyHasNoSlash? && h.name == prefix + "/annotations/" + h.validator.key
    ensures forall key :: key in keys ==> Validated(prefix + "/annotations/" + key, AnnotationKeyHasNoSlash(key)) in r
  {
    if keys == [] then []
    else
      var rest := AnnotationHandlersFor(prefix, keys[1..]);
      assert forall key :: key in keys ==> key == keys[0] || key in keys[1..];
      [Validated(prefix + "/annotations/" + keys[0], AnnotationKeyHasNoSlash(keys[0]))] + rest
  }

  /** `findRouteAnnotationHandlers(prefix)`: one handler per annotation key any layer
      sets under `prefix/annotations` (`node` is the JSON path of `prefix`), each
      guarded by the no-`/` check on its own key. */
  function FindRouteAnnotationHandlers(prefix: string, node: seq<string>, files: seq<AuroraConfigFile>): (r: seq<Handler>)
    ensures |r| == |FieldsAt(files, node + ["annotations"])|
    ensures forall h :: h in r ==> h.validator.AnnotationKeyHasNoSlash? && h.name == prefix + "/annotations/" + h.validator.key
    ensures forall key :: key in FieldsAt(files, node + ["annotations"]) ==>
      Validated(prefix + "/annotations/" + key, AnnotationKeyHasNoSlash(key)) in r
  {
    AnnotationHandlersFor(prefix, FieldsAt(files, node + ["annotations"]))
  }

  /** The five fixed handlers of one expanded route `route/<key>`. */
  function RouteFields(key: string, terminations: seq<string>, policies: seq<string>): (r: seq<Handler>)
    ensures |r| == 5
    ensures r[0] == Plain("route/" + key + "/host")
    ensures r[1] == Validated("route/" + key + "/path", StartsWithIfPresent("/", "Path must start with /"))
    ensures r[2] == Plain("route/" + key + "/tls/enabled")
    ensures r[3] == Validated("route/" + key + "/tls/insecurePolicy", OneOf(policies, Some(false)))
    ensures r[4] == Validated("route/" + key + "/tls/termination", OneOf(terminations, Some(false)))
    ensures forall i :: 0 <= i < 5 ==> r[i].defaultValue.None? && StartsWith(r[i].name, "route/" + key + "/")
  {
    var p := "route/" + key;
    [ Plain(p + "/host"),
      Validated(p + "/path", StartsWithIfPresent("/", "Path must start with /")),
      Plain(p + "/tls/enabled"),
      Validated(p + "/tls/insecurePolicy", OneOf(policies, Some(false))),
      Validated(p + "/tls/termination", OneOf(terminations, Some(false))) ]
  }

  /** The handlers of one expanded route: its fixed fields, then its annotations. */
  function RouteKeyHandlers(key: string, files: seq<AuroraConfigFile>, terminations: seq<string>, policies: seq<string>): (r: seq<Handler>)
    ensures |r| >= 5
    ensures r[..5] == RouteFields(key, terminations, policies)
    ensures r[1] == Validated("route/" + key + "/path", StartsWithIfPresent("/", "Path must start with /"))
    ensures r[3].validator == OneOf(policies, Some(false)) && r[4].validator == OneOf(terminations, Some(false))
    ensures r[5..] == FindRouteAnnotationHandlers("route/" + key, ["route", key], files)
  {
    var fixed := RouteFields(key, terminations, policies);
    var annotations := FindRouteAnnotationHandlers("route/" + key, ["route", key], files);
    assert (fixed + annotations)[..5] == fixed;
    assert (fixed + annotations)[5..] == annotations;
    fixed + annotations
  }

  function RouteHandlersFor(keys: seq<string>, files: seq<AuroraConfigFile>, terminations: seq<string>, policies: seq<string>): (r: seq<Handler>)
    ensures forall h :: h in r <==> exists k :: k in keys && h in RouteKeyHandlers(k, files, terminations, policies)
  {
    if keys == [] then []
    else
      var rest := RouteHandlersFor(keys[1..], files, terminations, policies);
      assert forall k :: k in keys <==> k == keys[0] || k in keys[1..];
      RouteKeyHandlers(keys[0], files, terminations, policies) + rest
  }

  /** `findRouteHandlers`: the handlers of every route sub-key. */
  function FindRouteHandlers(files: seq<AuroraConfigFile>, terminations: seq<string>, policies: seq<string>): (r: seq<Handler>)
    ensures forall h :: h in r <==>
      exists k :: k in FindSubKeys(files, "route") && h in RouteKeyHandlers(k, files, terminations, policies)
  {
    RouteHandlersFor(FindSubKeys(files, "route"), files, terminations, policies)
  }

  /** `handlers`: the per-route handlers, the four `route`/`routeDefaults` handlers and
      the `routeDefaults` annotation handlers. */
  function Handlers(files: seq<AuroraConfigFile>, terminations: seq<string>, policies: seq<string>): (r: seq<Handler>)
    ensures Handler("route", Some(JBool(false)), NoValidation, true) in r
    ensures WithDefault("routeDefaults/host", JStr("@name@-@affiliation@-@env@")) in r
    ensures WithDefault("routeDefaults/tls/enabled", JBool(false)) in r
    ensures Handler("routeDefaults/tls/termination", Some(JStr("edge")), OneOf(terminations, None), false) in r
    ensures forall h :: h in FindRouteHandlers(files, terminations, policies) ==> h in r
    ensures forall h :: h in FindRouteAnnotationHandlers("routeDefaults", ["routeDefaults"], files) ==> h in r
    ensures forall h :: h in r ==>
      h in FindRouteHandlers(files, terminations, policies) ||
      h in FindRouteAnnotationHandlers("routeDefaults", ["routeDefaults"], files) ||
      h == Handler("route", Some(JBool(false)), NoValidation, true) ||
      h == WithDefault("routeDefaults/host", JStr("@name@-@affiliation@-@env@")) ||
      h == WithDefault("routeDefaults/tls/enabled", JBool(false)) ||
      h == Handler("routeDefaults/tls/termination", Some(JStr("edge")), OneOf(terminations, None), false)
  {
    FindRouteHandlers(files, terminations, policies)
    + [ Handler("route", Some(JBool(false)), NoValidation, true),
        WithDefault("routeDefaults/host", JStr("@name@-@affiliation@-@env@")),
        WithDefault("routeDefaults/tls/enabled", JBool(false)),
        Handler("routeDefaults/tls/termination", Some(JStr("edge")), OneOf(terminations, None), false) ]
    + FindRouteAnnotationHandlers("routeDefaults", ["routeDefaults"], files)
  }

  /** Every expanded route gets a `path` handler that demands a leading `/`, and every
      annotation key it uses gets a handler that rejects keys holding `/`. */
  lemma RouteHandlersGuardPathAndAnnotations(files: seq<AuroraConfigFile>, terminations: seq<string>, policies: seq<string>, key: string)
    requires key in FindSubKeys(files, "route")
    ensures Validated("route/" + key + "/path", StartsWithIfPresent("/", "Path must start with /")) in Handlers(files, terminations, policies)
    ensures forall a :: a in FieldsAt(files, ["route", key, "annotations"]) ==>
      Validated("route/" + key + "/annotations/" + a, AnnotationKeyHasNoSlash(a)) in Handlers(files, terminations, policies)
  {
    var hs := RouteKeyHandlers(key, files, terminations, policies);
    assert hs[1] in hs;
    RouteKeyHandlerIncluded(files, terminations, policies, key, hs[1]);
    forall a | a in FieldsAt(files, ["route", key, "annotations"])
      ensures Validated("route/" + key + "/annotations/" + a, AnnotationKeyHasNoSlash(a)) in Handlers(files, terminations, policies)
    {
      AnnotationInRouteKey(files, terminations, policies, key, a);
      RouteKeyHandlerIncluded(files, terminations, policies, key, Validated("route/" + key + "/annotations/" + a, AnnotationKeyHasNoSlash(a)));
    }
  }

  lemma AnnotationInRouteKey(files: seq<AuroraConfigFile>, terminations: seq<string>, policies: seq<string>,
                             key: string, a: string)
    requires a in FieldsAt(files, ["route", key, "annotations"])
    ensures Validated("route/" + key + "/annotations/" + a, AnnotationKeyHasNoSlash(a)) in RouteKeyHandlers(key, files, terminations, policies)
  {
    var hs := RouteKeyHandlers(key, files, terminations, policies);
    assert ["route", key] + ["annotations"] == ["route", key, "annotations"];
    assert Validated("route/" + key + "/annotations/" + a, AnnotationKeyHasNoSlash(a)) in hs[5..];
  }

  lemma RouteKeyHandlerIncluded(files: seq<AuroraConfigFile>, terminations: seq<string>, policies: seq<string>,
                                key: string, h: Handler)
    requires key in FindSubKeys(files, "route")
    requires h in RouteKeyHandlers(key, files, terminations, policies)
    ensures h in Handlers(files, terminations, policies)
  {
    assert h in FindRouteHandlers(files, terminations, policies);
  }

  // ---------------------------------------------------------------------------
  // getRoute

  /** Whether any layer writes TLS settings below `route/<key>/tls`. */
  predicate HasTlsSubKeys(files: seq<AuroraConfigFile>, key: string) {
    FieldsAt(files, ["route", key, "tls"]) != []
  }

  /** The TLS test as the source writes it: `findSubKeys("route/<key>/tls")`, which
      looks the whole text up as a single top-level key of each file. */
  predicate HasTlsSubKeysAsWritten(files: seq<AuroraConfigFile>, key: string) {
    FindSubKeys(files, "route/" + key + "/tls") != []
  }

  /** The route of one expanded `route/<key>` entry; `tlsKeys` says whether the entry
      has TLS sub-keys. */
  function ExpandedRoute(s: Spec, key: string, tlsKeys: bool): (r: Route)
    ensures StartsWith(r.objectName, s.name)
    ensures StartsWith(key, s.name) ==> r.objectName == key
    ensures r.tls.Some? <==> tlsKeys || Flag(s, "routeDefaults/tls/enabled")
    ensures r.path == Text(s, "route/" + key + "/path")
    ensures r.host == TextOr(GetOrDefault(s, "route", key, "host"))
    ensures !StartsWith(key, s.name) ==> r.objectName == s.name + "-" + key
    ensures r.tls.Some? ==>
      r.tls.value == SecureRoute(TextOr(GetOrDefault(s, "route", key, "tls/insecurePolicy")),
                                 TextOr(GetOrDefault(s, "route", key, "tls/termination")))
    ensures forall a :: a in r.annotations <==> "route/" + key + "/annotations/" + a in s.fields
    ensures forall a :: a in r.annotations ==> r.annotations[a] == AsText(s.fields["route/" + key + "/annotations/" + a].value)
  {
    var secure :=
      if tlsKeys || Flag(s, "routeDefaults/tls/enabled") then
        Some(SecureRoute(TextOr(GetOrDefault(s, "route", key, "tls/insecurePolicy")),
                         TextOr(GetOrDefault(s, "route", key, "tls/termination"))))
      else None;
    Route(EnsureStartWith(key, s.name, "-"),
          TextOr(GetOrDefault(s, "route", key, "host")),
          Text(s, "route/" + key + "/path"),
          RouteAnnotations(s, "route/" + key + "/annotations/"),
          secure)
  }

  /** The simplified form: `route: true` gives the one route named after the
      application, on the default host. */
  function SimplifiedRoutes(s: Spec): (r: seq<Route>)
    ensures Flag(s, "route") ==>
      (|r| == 1 && r[0].objectName == s.name &&
       r[0].host == FieldText(s, "routeDefaults/host") && r[0].path.None? &&
       (r[0].tls.Some? <==> Flag(s, "routeDefaults/tls/enabled")) &&
       r[0].annotations == map[])
    ensures Flag(s, "route") && Flag(s, "routeDefaults/tls/enabled") ==>
      r[0].tls == Some(SecureRoute(FieldText(s, "routeDefaults/tls/insecurePolicy"),
                                   FieldText(s, "routeDefaults/tls/termination")))
    ensures !Flag(s, "route") ==> r == []
  {
    if Flag(s, "route") then
      var secure :=
        if Flag(s, "routeDefaults/tls/enabled") then
          Some(SecureRoute(FieldText(s, "routeDefaults/tls/insecurePolicy"), FieldText(s, "routeDefaults/tls/termination")))
        else None;
      [Route(s.name, FieldText(s, "routeDefaults/host"), None, map[], secure)]
    else []
  }

  function RoutesWith(s: Spec, keys: seq<string>, tlsKeys: string -> bool): (r: seq<Route>)
    ensures |r| == |keys|
    ensures forall i :: 0 <= i < |keys| ==> r[i] == ExpandedRoute(s, keys[i], tlsKeys(keys[i]))
  {
    seq(|keys|, i requires 0 <= i < |keys| => ExpandedRoute(s, keys[i], tlsKeys(keys[i])))
  }

  /** `getRoute`: the simplified form when `route` is a scalar, otherwise one route per
      `route` sub-key, with TLS when the route has TLS sub-keys or TLS is on by default. */
  function GetRoute(s: Spec, files: seq<AuroraConfigFile>): (r: seq<Route>)
    ensures IsSimplifiedConfig(s, "route") ==> r == SimplifiedRoutes(s)
    ensures !IsSimplifiedConfig(s, "route") ==>
      var keys := FindSubKeys(files, "route");
      |r| == |keys| &&
      forall i :: 0 <= i < |keys| ==>
        StartsWith(r[i].objectName, s.name) &&
        (r[i].tls.Some? <==> HasTlsSubKeys(files, keys[i]) || Flag(s, "routeDefaults/tls/enabled")) &&
        r[i].path == Text(s, "route/" + keys[i] + "/path") &&
        r[i].host == TextOr(GetOrDefault(s, "route", keys[i], "host")) &&
        r[i] == ExpandedRoute(s, keys[i], HasTlsSubKeys(files, keys[i]))
  {
    if IsSimplifiedConfig(s, "route") then SimplifiedRoutes(s)
    else RoutesWith(s, FindSubKeys(files, "route"), k => HasTlsSubKeys(files, k))
  }

  /** `getRoute` as written, with the literal top-level TLS test. */
  function GetRouteAsWritten(s: Spec, files: seq<AuroraConfigFile>): (r: seq<Route>)
    ensures IsSimplifiedConfig(s, "route") ==> r == SimplifiedRoutes(s)
    ensures !IsSimplifiedConfig(s, "route") ==>
      var keys := FindSubKeys(files, "route");
      |r| == |keys| &&
      forall i :: 0 <= i < |keys| ==>
        (r[i].tls.Some? <==> HasTlsSubKeysAsWritten(files, keys[i]) || Flag(s, "routeDefaults/tls/enabled")) &&
        r[i] == ExpandedRoute(s, keys[i], HasTlsSubKeysAsWritten(files, keys[i]))
  {
    if IsSimplifiedConfig(s, "route") then SimplifiedRoutes(s)
    else RoutesWith(s, FindSubKeys(files, "route"), k => HasTlsSubKeysAsWritten(files, k))
  }

  /** As written, the TLS test never fires for files whose top-level keys hold no `/`
      (every file written as nested YAML): TLS then comes only from `routeDefaults`. */
  lemma TlsTestAsWrittenNeverFires(files: seq<AuroraConfigFile>, key: string)
    requires forall f :: f in files ==> forall k :: k in FieldNames(f.contents) ==> '/' !in k
    ensures !HasTlsSubKeysAsWritten(files, key)
  {
    var n := "route/" + key + "/tls";
    assert n[5] == '/';
    forall f | f in files ensures !Has(f.contents, n) {
      assert n !in FieldNames(f.contents);
    }
    NoFileHasKey(files, n);
  }

  lemma {:induction false} NoFileHasKey(files: seq<AuroraConfigFile>, name: string)
    requires forall f :: f in files ==> !Has(f.contents, name)
    ensures FindSubKeys(files, name) == []
    decreases |files|
  {
    if files != [] {
      NoFileHasKey(files[1..], name);
      assert AllSubKeys(files, name) == AllSubKeys(files[1..], name);
    }
  }

  /** The nested layer below asks for TLS on `web`: the intended test sees it, the
      test as written does not. */
  lemma NestedTlsMissedAsWritten()
    ensures var f := NestedTlsLayer();
      HasTlsSubKeys([f], "web") && !HasTlsSubKeysAsWritten([f], "web")
  {
    var f := NestedTlsLayer();
    NestedTlsSeen(f);
    assert FieldNames(f.contents) == ["route"];
    TlsTestAsWrittenNeverFires([f], "web");
  }

  /** A layer writing `route: {web: {tls: {enabled: true}}}`. */
  function NestedTlsLayer(): AuroraConfigFile {
    var tls := JObj([("enabled", JBool(true))]);
    AuroraConfigFile("utv/app.json", JObj([("route", JObj([("web", JObj([("tls", tls)]))]))]), false, None, "1")
  }

  lemma NestedTlsSeen(f: AuroraConfigFile)
    requires f == NestedTlsLayer()
    ensures HasTlsSubKeys([f], "web")
  {
    assert "enabled" in FieldNamesOf(At(f.contents, ["route", "web", "tls"]));
    assert "enabled" in FieldsAt([f], ["route", "web", "tls"]);
  }

  // ---------------------------------------------------------------------------
  // generate

  /** The annotation keys of a generated route: `|` stands for `/`. Keys that hold `/`
      are refused by the annotation validator and do not reach this point. */
  function OutputAnnotations(a: map<string, string>): (r: map<string, string>)
    ensures forall k :: k in a && '/' !in k ==> ReplaceChar(k, '|', '/') in r && r[ReplaceChar(k, '|', '/')] == a[k]
    ensures forall k :: k in r ==> '|' !in k
    ensures forall k :: k in r ==> exists k0 :: k0 in a && ReplaceChar(k0, '|', '/') == k
  {
    forall k0, k1 | '/' !in k0 && '/' !in k1 && ReplaceChar(k0, '|', '/') == ReplaceChar(k1, '|', '/')
      ensures k0 == k1
    {
      BarReplacementInjective(k0, k1);
    }
    map k | k in a && '/' !in k :: ReplaceChar(k, '|', '/') := a[k]
  }

  lemma BarReplacementInjective(k0: string, k1: string)
    requires '/' !in k0 && '/' !in k1
    requires ReplaceChar(k0, '|', '/') == ReplaceChar(k1, '|', '/')
    ensures k0 == k1
  {
    var r := ReplaceChar(k0, '|', '/');
    assert |k0| == |k1|;
    forall i | 0 <= i < |k0| ensures k0[i] == k1[i] {
      assert r[i] == ReplaceChar(k1, '|', '/')[i];
    }
  }

  /** `generateRoute`: the OpenShift Route of a route, targeting service `serviceName`. */
  function GenerateRoute(route: Route, routeNamespace: string, serviceName: string, routeSuffix: string): (r: KubeObject)
    ensures r.RouteObj? && r.meta.name == route.objectName && r.meta.namespace == routeNamespace
    ensures r.toKind == "Service" && r.toName == serviceName
    ensures r.host == route.host + routeSuffix && EndsWith(r.host, routeSuffix)
    ensures r.path == route.path
    ensures r.tls.Some? <==> route.tls.Some?
    ensures r.tls.Some? ==>
      (r.tls.value.insecureEdgeTerminationPolicy == route.tls.value.insecurePolicy &&
       r.tls.value.termination == ToLower(route.tls.value.termination))
    ensures forall k :: k in r.meta.annotations ==> '|' !in k
  {
    var tls := if route.tls.Some? then Some(RouteTls(route.tls.value.insecurePolicy, ToLower(route.tls.value.termination))) else None;
    var host := route.host + routeSuffix;
    assert host[|host| - |routeSuffix|..] == routeSuffix;
    RouteObj(ObjectMeta(route.objectName, routeNamespace, map[], OutputAnnotations(route.annotations)),
             "Service", serviceName, host, route.path, tls)
  }

  function GenerateAll(routes: seq<Route>, s: Spec, routeSuffix: string): (r: seq<AuroraResource>)
    ensures |r| == |routes|
    ensures forall i :: 0 <= i < |routes| ==>
      r[i] == Named(routes[i].objectName + "-route", GenerateRoute(routes[i], s.namespace, s.name, routeSuffix), FeatureName)
  {
    seq(|routes|, i requires 0 <= i < |routes| =>
      Named(routes[i].objectName + "-route", GenerateRoute(routes[i], s.namespace, s.name, routeSuffix), FeatureName))
  }

  /** The Route resources of `routes` collected into a set: equal resources are kept
      once, in order of first appearance. */
  function GenerateSet(routes: seq<Route>, s: Spec, routeSuffix: string): (r: seq<AuroraResource>)
    ensures NoDuplicates(r)
    ensures forall x :: x in r <==>
      (exists i :: 0 <= i < |routes| &&
        x == Named(routes[i].objectName + "-route", GenerateRoute(routes[i], s.namespace, s.name, routeSuffix), FeatureName))
    ensures forall x :: x in r ==>
      x.resource.RouteObj? && x.resource.meta.namespace == s.namespace && x.resource.toName == s.name
    ensures NoDuplicates(ObjectNames(routes)) ==>
      (|r| == |routes| && forall i :: 0 <= i < |r| ==> r[i].name == Some(routes[i].objectName + "-route"))
  {
    var all := GenerateAll(routes, s, routeSuffix);
    assert forall x :: x in all <==> exists i :: 0 <= i < |routes| && all[i] == x;
    if NoDuplicates(ObjectNames(routes)) then
      GeneratedNamesDistinct(routes, s, routeSuffix);
      DistinctOfDistinct(all);
      Distinct(all)
    else Distinct(all)
  }

  /** `generate`: one Route resource `<objectName>-route` per route, in the namespace,
      targeting the application's service, collected into a set. */
  function Generate(s: Spec, files: seq<AuroraConfigFile>, routeSuffix: string): (r: seq<AuroraResource>)
    ensures NoDuplicates(r)
    ensures forall x :: x in r ==>
      x.resource.RouteObj? && x.resource.meta.namespace == s.namespace && x.resource.toName == s.name
    ensures NoDuplicates(ObjectNames(GetRoute(s, files))) ==>
      (|r| == |GetRoute(s, files)| &&
       forall i :: 0 <= i < |r| ==> r[i].name == Some(GetRoute(s, files)[i].objectName + "-route"))
  {
    GenerateSet(GetRoute(s, files), s, routeSuffix)
  }

  /** Routes with distinct object names give resources with distinct names. */
  lemma GeneratedNamesDistinct(routes: seq<Route>, s: Spec, routeSuffix: string)
    requires NoDuplicates(ObjectNames(routes))
    ensures NoDuplicates(GenerateAll(routes, s, routeSuffix))
  {
    var all := GenerateAll(routes, s, routeSuffix);
    forall i, j | 0 <= i < j < |all| ensures all[i] != all[j] {
      assert ObjectNames(routes)[i] != ObjectNames(routes)[j];
      assert all[i].resource.meta.name != all[j].resource.meta.name;
    }
  }

  // ---------------------------------------------------------------------------
  // modify

  /** The variables `modify` adds for a route with URL `url`. */
  function RouteEnv(url: string, protocol: string): (r: seq<EnvVar>)
    ensures |r| == 2 && r[0].name == "ROUTE_NAME" && r[1].name == "ROUTE_URL"
    ensures r[0].value == Literal(url)
    ensures r[1].value == Literal(protocol + url)
    ensures StartsWith(r[1].value.text, protocol) && EndsWith(r[1].value.text, url)
  {
    var full := protocol + url;
    assert full[..|protocol|] == protocol && full[|full| - |url|..] == url;
    [EnvVar("ROUTE_NAME", Literal(url)), EnvVar("ROUTE_URL", Literal(full))]
  }

  /** `modify`: the URL of the first route, if any, is given to every deployment config. */
  method Modify(rs: ResourceSet, s: Spec, files: seq<AuroraConfigFile>, url: Route -> string, protocol: Route -> string)
    modifies rs
    ensures GetRoute(s, files) == [] ==> rs.resources == old(rs.resources)
    ensures GetRoute(s, files) != [] ==>
      var first := GetRoute(s, files)[0];
      |rs.resources| == |old(rs.resources)| &&
      forall i :: 0 <= i < |rs.resources| ==>
        rs.resources[i] == WithEnv(old(rs.resources)[i], RouteEnv(url(first), protocol(first)), FeatureName)
  {
    var routes := GetRoute(s, files);
    if routes != [] {
      var first := routes[0];
      rs.AddEnvVars(RouteEnv(url(first), protocol(first)), FeatureName);
    }
  }

  // ---------------------------------------------------------------------------
  // validateRoutes

  /** The `AuroraConfigException` `validateRoutes` throws: its message and its errors. */
  datatype RouteRejection = RouteRejection(message: string, errors: seq<string>)

  predicate TlsWithDot(r: Route) {
    r.tls.Some? && '.' in r.host
  }

  function ObjectNames(routes: seq<Route>): (r: seq<string>)
    ensures |r| == |routes|
    ensures forall i :: 0 <= i < |routes| ==> r[i] == routes[i].objectName
  {
    seq(|routes|, i requires 0 <= i < |routes| => routes[i].objectName)
  }

  function Targets(routes: seq<Route>, target: Route -> string): (r: seq<string>)
    ensures |r| == |routes|
    ensures forall i :: 0 <= i < |routes| ==> r[i] == target(routes[i])
  {
    seq(|routes|, i requires 0 <= i < |routes| => target(routes[i]))
  }

  function AppPrefix(ref: ApplicationDeploymentRef): string {
    "Application " + ref.application + " in environment " + ref.environment
  }

  function DuplicateNameErrors(names: seq<string>): (r: seq<string>)
    ensures |r| == |names|
    ensures forall i :: 0 <= i < |names| ==> r[i] == "Route name=" + names[i] + " is duplicated"
  {
    seq(|names|, i requires 0 <= i < |names| => "Route name=" + names[i] + " is duplicated")
  }

  /** The names of the routes with target `t`, in order. */
  function NamesWithTarget(routes: seq<Route>, target: Route -> string, t: string): (r: seq<string>)
    ensures forall n :: n in r <==> exists i :: 0 <= i < |routes| && target(routes[i]) == t && routes[i].objectName == n
  {
    if routes == [] then []
    else
      var rest := NamesWithTarget(routes[1..], target, t);
      assert forall i :: 1 <= i < |routes| ==> routes[i] == routes[1..][i - 1];
      (if target(routes[0]) == t then [routes[0].objectName] else []) + rest
  }

  function DuplicateTargetErrors(routes: seq<Route>, target: Route -> string, targets: seq<string>): (r: seq<string>)
    ensures |r| == |targets|
    ensures forall i :: 0 <= i < |targets| ==>
      r[i] == "target=" + targets[i] + " is duplicated in routes " + Join(NamesWithTarget(routes, target, targets[i]), ",")
  {
    seq(|targets|, i requires 0 <= i < |targets| =>
      "target=" + targets[i] + " is duplicated in routes " + Join(NamesWithTarget(routes, target, targets[i]), ","))
  }

  const TlsDotTail := " with tls uses '.' in host name"
  const TlsDotSummary := " have a tls enabled route with a '.' in the host"
  const DuplicateNamesSummary := " have routes with duplicate names"
  const DuplicateTargetsSummary := " have duplicated targets"

  /** The error naming a TLS route whose host contains a `.`. */
  function TlsDotError(objectName: string): string {
    "Route name=" + objectName + TlsDotTail
  }

  /** `validateRoutes`: nothing when the routes pass; otherwise the exception of the
      first failing check, in order: a TLS route with a `.` in its host, duplicate
      object names, duplicate targets. */
  function ValidateRoutes(routes: seq<Route>, ref: ApplicationDeploymentRef, target: Route -> string): (r: Option<RouteRejection>)
    ensures r.None? <==>
      (forall i :: 0 <= i < |routes| ==> !TlsWithDot(routes[i])) &&
      NoDuplicates(ObjectNames(routes)) && NoDuplicates(Targets(routes, target))
    ensures (exists i :: 0 <= i < |routes| && TlsWithDot(routes[i])) ==>
      exists i :: 0 <= i < |routes| && TlsWithDot(routes[i]) &&
        (forall j :: 0 <= j < i ==> !TlsWithDot(routes[j])) &&
        r == Some(RouteRejection(AppPrefix(ref) + TlsDotSummary, [TlsDotError(routes[i].objectName)]))
    ensures (forall i :: 0 <= i < |routes| ==> !TlsWithDot(routes[i])) && !NoDuplicates(ObjectNames(routes)) ==>
      r == Some(RouteRejection(AppPrefix(ref) + DuplicateNamesSummary, DuplicateNameErrors(Repeated(ObjectNames(routes)))))
    ensures ((forall i :: 0 <= i < |routes| ==> !TlsWithDot(routes[i])) && NoDuplicates(ObjectNames(routes)) &&
             !NoDuplicates(Targets(routes, target))) ==>
      r == Some(RouteRejection(AppPrefix(ref) + DuplicateTargetsSummary,
                               DuplicateTargetErrors(routes, target, Repeated(Targets(routes, target)))))
  {
    RepeatedEmptyIff(ObjectNames(routes));
    RepeatedEmptyIff(Targets(routes, target));
    var bad := IndexOfFirst(routes, TlsWithDot);
    if bad >= 0 then
      Some(RouteRejection(AppPrefix(ref) + TlsDotSummary, [TlsDotError(routes[bad].objectName)]))
    else
      var dupNames := Repeated(ObjectNames(routes));
      if dupNames != [] then
        Some(RouteRejection(AppPrefix(ref) + DuplicateNamesSummary, DuplicateNameErrors(dupNames)))
      else
        var dupTargets := Repeated(Targets(routes, target));
        if dupTargets != [] then
          Some(RouteRejection(AppPrefix(ref) + DuplicateTargetsSummary, DuplicateTargetErrors(routes, target, dupTargets)))
        else None
  }

  /** Every object name used twice is reported, and only those. */
  lemma DuplicateNamesReported(routes: seq<Route>, ref: ApplicationDeploymentRef, target: Route -> string, n: string)
    requires forall i :: 0 <= i < |routes| ==> !TlsWithDot(routes[i])
    requires !NoDuplicates(ObjectNames(routes))
    ensures ("Route name=" + n + " is duplicated" in ValidateRoutes(routes, ref, target).value.errors)
      <==> (Count(ObjectNames(routes), n) > 1)
  {
    var dup := Repeated(ObjectNames(routes));
    var errors := ValidateRoutes(routes, ref, target).value.errors;
    assert errors == DuplicateNameErrors(dup);
    if Count(ObjectNames(routes), n) > 1 {
      var i :| 0 <= i < |dup| && dup[i] == n;
      assert errors[i] == "Route name=" + n + " is duplicated";
    }
    if "Route name=" + n + " is duplicated" in errors {
      var i :| 0 <= i < |errors| && errors[i] == "Route name=" + n + " is duplicated";
      DuplicatedMessageInjective(dup[i], n);
      assert dup[i] in dup;
    }
  }

  /** Every target used by two routes or more is reported with the names of the
      routes that use it, and every reported target is one of those. */
  lemma DuplicateTargetsReported(routes: seq<Route>, ref: ApplicationDeploymentRef, target: Route -> string, t: string)
    requires forall i :: 0 <= i < |routes| ==> !TlsWithDot(routes[i])
    requires NoDuplicates(ObjectNames(routes)) && !NoDuplicates(Targets(routes, target))
    ensures Count(Targets(routes, target), t) > 1 ==>
      "target=" + t + " is duplicated in routes " + Join(NamesWithTarget(routes, target, t), ",")
        in ValidateRoutes(routes, ref, target).value.errors
    ensures forall e :: e in ValidateRoutes(routes, ref, target).value.errors ==>
      exists u :: (Count(Targets(routes, target), u) > 1 &&
                   e == "target=" + u + " is duplicated in routes " + Join(NamesWithTarget(routes, target, u), ","))
  {
    var dup := Repeated(Targets(routes, target));
    var errors := ValidateRoutes(routes, ref, target).value.errors;
    assert errors == DuplicateTargetErrors(routes, target, dup);
    if Count(Targets(routes, target), t) > 1 {
      var i :| 0 <= i < |dup| && dup[i] == t;
      assert errors[i] == "target=" + t + " is duplicated in routes " + Join(NamesWithTarget(routes, target, t), ",");
    }
    forall e | e in errors
      ensures exists u :: (Count(Targets(routes, target), u) > 1 &&
                           e == "target=" + u + " is duplicated in routes " + Join(NamesWithTarget(routes, target, u), ","))
    {
      var i :| 0 <= i < |errors| && errors[i] == e;
      assert dup[i] in dup;
    }
  }

  lemma DuplicatedMessageInjective(a: string, b: string)
    requires "Route name=" + a + " is duplicated" == "Route name=" + b + " is duplicated"
    ensures a == b
  {
    var ma := "Route name=" + a + " is duplicated";
    var mb := "Route name=" + b + " is duplicated";
    assert |a| == |b|;
    assert a == ma[11..11 + |a|];
    assert b == mb[11..11 + |b|];
  }
}

=== FILE: secret_vault_feature.dfy ===
/** The secret-vault feature: the handlers of the legacy `secretVault` form and of each
    `secretVaults` entry, the secrets a deployment asks for, their validation against
    the vault provider, the Kubernetes secrets generated from the vault data and the
    environment variables that refer to them. The vault provider, `filterProperties`,
    `normalizeKubernetesName` and base64 are parameters. */
module SecretVaultFeature {
  import opened Wrappers
  import opened Strings
  import opened Lists
  import opened JsonTree
  import opened FieldHandlers
  import opened AuroraConfigModel
  import opened MappingFunctions
  import opened DeploymentSpec
  import opened Resources
  import opened ResourceProvisioner

  const FeatureName := "SecretVaultFeature"
  const DefaultFile := "latest.properties"
  const MaxSecretNameLength: nat := 63

  /** A secret the deployment asks for (`AuroraSecret`). */
  datatype AuroraSecret = AuroraSecret(
    secretVaultName: string,
    secretVaultKeys: seq<string>,
    keyMappings: Option<seq<(string, string)>>,
    file: string,
    name: string)

  // ---------------------------------------------------------------------------
  // Handlers

  /** `secretVaultKeyMappingHandlers`: the `secretVault/keyMappings` handler, declared
      when some layer sets `secretVault/keyMappings`. */
  function KeyMappingHandler(files: seq<AuroraConfigFile>): (r: Option<Handler>)
    ensures r.Some? <==> exists f :: f in files && At(f.contents, ["secretVault", "keyMappings"]).Some?
    ensures r.Some? ==> r.value == Plain("secretVault/keyMappings")
  {
    var f := Find(files, (f: AuroraConfigFile) => At(f.contents, ["secretVault", "keyMappings"]).Some?);
    if f.Some? then Some(Plain("secretVault/keyMappings")) else None
  }

  /** The handler as written: the test `at(...) != null` holds for every file, because
      a missing node is returned as a missing-node object, never as null. */
  function KeyMappingHandlerAsWritten(files: seq<AuroraConfigFile>): (r: Option<Handler>)
    ensures r.Some? <==> files != []
  {
    var f := Find(files, (f: AuroraConfigFile) => true);
    if f.Some? then Some(Plain("secretVault/keyMappings")) else None
  }

  /** A single layer without `secretVault` gets the handler as written, though nothing
      sets the field. */
  lemma KeyMappingHandlerDeclaredWithoutField()
    ensures var f := AuroraConfigFile("about.json", JObj([]), false, None, "1");
      KeyMappingHandlerAsWritten([f]).Some? && KeyMappingHandler([f]).None?
  {
    var f := AuroraConfigFile("about.json", JObj([]), false, None, "1");
    assert At(f.contents, ["secretVault", "keyMappings"]).None?;
  }

  /** The five handlers of a `secretVaults/<key>` entry. */
  function VaultEntryHandlers(key: string): (r: seq<Handler>)
    ensures |r| == 5
    ensures r[0] == WithDefault("secretVaults/" + key + "/name", JStr(key))
    ensures r[1] == WithDefault("secretVaults/" + key + "/enabled", JBool(true))
    ensures r[2] == WithDefault("secretVaults/" + key + "/file", JStr(DefaultFile))
    ensures r[3] == Plain("secretVaults/" + key + "/keys") && r[4] == Plain("secretVaults/" + key + "/keyMappings")
  {
    [ WithDefault("secretVaults/" + key + "/name", JStr(key)),
      WithDefault("secretVaults/" + key + "/enabled", JBool(true)),
      WithDefault("secretVaults/" + key + "/file", JStr(DefaultFile)),
      Plain("secretVaults/" + key + "/keys"),
      Plain("secretVaults/" + key + "/keyMappings") ]
  }

  function VaultEntriesHandlers(keys: seq<string>): (r: seq<Handler>)
    ensures |r| == 5 * |keys|
    ensures forall i :: 0 <= i < |keys| ==> r[5 * i..5 * i + 5] == VaultEntryHandlers(keys[i])
  {
    if keys == [] then []
    else
      var rest := VaultEntriesHandlers(keys[1..]);
      var r := VaultEntryHandlers(keys[0]) + rest;
      assert forall i :: 1 <= i < |keys| ==> r[5 * i..5 * i + 5] == rest[5 * (i - 1)..5 * (i - 1) + 5];
      r
  }

  /** The handlers of the single, legacy secret vault. */
  const LegacyHandlers := [Plain("secretVault"), Plain("secretVault/name"), Plain("secretVault/keys")]

  /** `handlers`: the three legacy handlers, the key-mapping handler when declared, and
      five handlers per `secretVaults` entry. */
  function Handlers(files: seq<AuroraConfigFile>): (r: seq<Handler>)
    ensures |r| == 3 + |ToSeq(KeyMappingHandler(files))| + 5 * |FindSubKeys(files, "secretVaults")|
    ensures r[..3] == LegacyHandlers
    ensures var n := |ToSeq(KeyMappingHandler(files))|;
      r[3..3 + n] == ToSeq(KeyMappingHandler(files)) &&
      r[3 + n..] == VaultEntriesHandlers(FindSubKeys(files, "secretVaults"))
  {
    var legacy := LegacyHandlers + ToSeq(KeyMappingHandler(files));
    legacy + VaultEntriesHandlers(FindSubKeys(files, "secretVaults"))
  }

  // ---------------------------------------------------------------------------
  // The secrets a deployment asks for

  /** `getSecretVault`: `secretVault/name`, falling back to the scalar `secretVault`. */
  function LegacyVaultName(s: Spec): (r: Option<string>)
    ensures r.Some? <==> "secretVault/name" in s.fields || "secretVault" in s.fields
    ensures "secretVault/name" in s.fields ==> r == Text(s, "secretVault/name")
  {
    match Text(s, "secretVault/name")
    case Some(n) => Some(n)
    case None => Text(s, "secretVault")
  }

  /** The secret of an enabled `secretVaults/<key>` entry. */
  function EntrySecret(s: Spec, key: string, normalize: string -> string): AuroraSecret {
    var p := "secretVaults/" + key + "/";
    AuroraSecret(FieldText(s, p + "name"), TextList(s, p + "keys"), TextMap(s, p + "keyMappings"),
                 FieldText(s, p + "file"), normalize(EnsureStartWith(key, s.name, "-")))
  }

  predicate EntryEnabled(s: Spec, key: string) {
    Flag(s, "secretVaults/" + key + "/enabled")
  }

  function EntrySecrets(s: Spec, keys: seq<string>, normalize: string -> string): (r: seq<AuroraSecret>)
    ensures forall x :: x in r <==> exists k :: k in keys && EntryEnabled(s, k) && x == EntrySecret(s, k, normalize)
    ensures |r| <= |keys|
  {
    if keys == [] then []
    else
      var rest := EntrySecrets(s, keys[1..], normalize);
      assert forall k :: k in keys <==> k == keys[0] || k in keys[1..];
      (if EntryEnabled(s, keys[0]) then [EntrySecret(s, keys[0], normalize)] else []) + rest
  }

  /** The legacy secret, when `secretVault` is set: named after the application and read
      from `latest.properties`. */
  function LegacySecret(s: Spec, files: seq<AuroraConfigFile>): (r: Option<AuroraSecret>)
    ensures r.Some? <==> LegacyVaultName(s).Some?
    ensures r.Some? ==>
      (r.value.name == s.name && r.value.file == DefaultFile &&
       r.value.secretVaultName == LegacyVaultName(s).value)
    ensures r.Some? ==> r.value.secretVaultKeys == TextList(s, "secretVault/keys")
    ensures r.Some? ==>
      r.value.keyMappings == (if KeyMappingHandler(files).Some? then TextMap(s, "secretVault/keyMappings") else None)
  {
    match LegacyVaultName(s)
    case None => None
    case Some(vault) =>
      var mappings := if KeyMappingHandler(files).Some? then TextMap(s, "secretVault/keyMappings") else None;
      Some(AuroraSecret(vault, TextList(s, "secretVault/keys"), mappings, DefaultFile, s.name))
  }

  /** `getSecretVaults`: the enabled `secretVaults` entries in order (each one an
      enabled entry's secret, by `EntrySecrets`), then the legacy secret if there is
      one. */
  function GetSecretVaults(s: Spec, files: seq<AuroraConfigFile>, normalize: string -> string): (r: seq<AuroraSecret>)
    ensures LegacySecret(s, files).Some? ==>
      (|r| > 0 && r[|r| - 1] == LegacySecret(s, files).value && r[|r| - 1].name == s.name)
    ensures LegacySecret(s, files).None? ==> r == EntrySecrets(s, FindSubKeys(files, "secretVaults"), normalize)
    ensures LegacySecret(s, files).Some? ==> r[..|r| - 1] == EntrySecrets(s, FindSubKeys(files, "secretVaults"), normalize)
  {
    var entries := EntrySecrets(s, FindSubKeys(files, "secretVaults"), normalize);
    var legacy := ToSeq(LegacySecret(s, files));
    assert (entries + legacy)[..|entries|] == entries;
    entries + legacy
  }

  // ---------------------------------------------------------------------------
  // validate

  function ValidationProblem(message: string): Problem {
    Problem(ValidationError, message)
  }

  /** The Kotlin rendering of a list or set: `[a, b]`. */
  function Bracketed(xs: seq<string>): string {
    "[" + Join(xs, ", ") + "]"
  }

  /** `validateVaultExistence`: one error per secret whose vault does not exist. */
  function ValidateVaultExistence(secrets: seq<AuroraSecret>, collection: string, vaultExists: (string, string) -> bool): (r: seq<Problem>)
    ensures |r| <= |secrets|
    ensures forall p :: p in r <==>
      (exists x :: x in secrets && !vaultExists(collection, x.secretVaultName) &&
                   p == ValidationProblem("Referenced Vault " + x.secretVaultName + " in Vault Collection " + collection + " does not exist"))
  {
    if secrets == [] then []
    else
      var rest := ValidateVaultExistence(secrets[1..], collection, vaultExists);
      assert forall x :: x in secrets <==> x == secrets[0] || x in secrets[1..];
      var x := secrets[0];
      (if !vaultExists(collection, x.secretVaultName) then
         [ValidationProblem("Referenced Vault " + x.secretVaultName + " in Vault Collection " + collection + " does not exist")]
       else []) + rest
  }

  const NameTooLongLead := "The name of the secretVault="
  const NameTooLongTail := " is too long. Max 63 characters. Note that we ensure that the name starts with @name@-"

  function NameTooLongProblem(name: string): Problem {
    ValidationProblem(NameTooLongLead + name + NameTooLongTail)
  }

  predicate NameTooLong(x: AuroraSecret) {
    |x.name| > MaxSecretNameLength
  }

  /** `validateSecretNames`: one error per secret whose name exceeds 63 characters. */
  function ValidateSecretNames(secrets: seq<AuroraSecret>): (r: seq<Problem>)
    ensures |r| <= |secrets|
    ensures forall x :: x in secrets && NameTooLong(x) ==> NameTooLongProblem(x.name) in r
    ensures forall p :: p in r ==> exists x :: x in secrets && NameTooLong(x) && p == NameTooLongProblem(x.name)
  {
    if secrets == [] then []
    else
      var rest := ValidateSecretNames(secrets[1..]);
      assert forall x :: x in secrets <==> x == secrets[0] || x in secrets[1..];
      (if NameTooLong(secrets[0]) then [NameTooLongProblem(secrets[0].name)] else []) + rest
  }

  function MappingKeys(m: seq<(string, string)>): (r: seq<string>)
    ensures |r| == |m|
    ensures forall i :: 0 <= i < |m| ==> r[i] == m[i].0
  {
    seq(|m|, i requires 0 <= i < |m| => m[i].0)
  }

  /** The mapped keys that are not among the requested keys (`keyMappings.keys - keys`). */
  function UnknownMappedKeys(mappings: seq<(string, string)>, keys: seq<string>): (r: seq<string>)
    ensures forall k :: k in r <==> k in MappingKeys(mappings) && k !in keys
  {
    Filter(Distinct(MappingKeys(mappings)), k => k !in keys)
  }

  /** `validateKeyMapping`: with mappings and keys both given, an error names the
      mapped keys that are not requested keys. */
  function ValidateKeyMapping(x: AuroraSecret): (r: Option<Problem>)
    ensures r.Some? <==>
      (x.keyMappings.Some? && x.keyMappings.value != [] && x.secretVaultKeys != [] &&
       exists k :: k in MappingKeys(x.keyMappings.value) && k !in x.secretVaultKeys)
    ensures r.Some? ==> r.value == ValidationProblem("The secretVault keyMappings " +
      Bracketed(UnknownMappedKeys(x.keyMappings.value, x.secretVaultKeys)) + " were not found in keys")
  {
    if x.keyMappings.None? || x.keyMappings.value == [] || x.secretVaultKeys == [] then None
    else
      var diff := UnknownMappedKeys(x.keyMappings.value, x.secretVaultKeys);
      if diff != [] then
        assert diff[0] in diff;
        Some(ValidationProblem("The secretVault keyMappings " + Bracketed(diff) + " were not found in keys"))
      else
        assert forall k :: k !in diff;
        None
  }

  function ValidateKeyMappings(secrets: seq<AuroraSecret>): (r: seq<Problem>)
    ensures forall p :: p in r <==> exists x :: x in secrets && ValidateKeyMapping(x) == Some(p)
  {
    if secrets == [] then []
    else
      var rest := ValidateKeyMappings(secrets[1..]);
      assert forall x :: x in secrets <==> x == secrets[0] || x in secrets[1..];
      ToSeq(ValidateKeyMapping(secrets[0])) + rest
  }

  /** The requested keys the vault file lacks (`keys - vaultKeys`). */
  function MissingKeys(x: AuroraSecret, collection: string, findVaultKeys: (string, string, string) -> seq<string>): (r: seq<string>)
    ensures forall k :: k in r <==> k in x.secretVaultKeys && k !in findVaultKeys(collection, x.secretVaultName, x.file)
  {
    var vaultKeys := findVaultKeys(collection, x.secretVaultName, x.file);
    Filter(x.secretVaultKeys, k => k !in vaultKeys)
  }

  /** `validateSecretVaultKeys`: the exception thrown for the first secret that asks
      for keys its vault file lacks. */
  function FirstMissingKeys(secrets: seq<AuroraSecret>, collection: string, findVaultKeys: (string, string, string) -> seq<string>): (r: Option<Problem>)
    ensures r.None? <==> forall x :: x in secrets ==> MissingKeys(x, collection, findVaultKeys) == []
    ensures r.Some? ==>
      exists i :: 0 <= i < |secrets| && MissingKeys(secrets[i], collection, findVaultKeys) != [] &&
        (forall j :: 0 <= j < i ==> MissingKeys(secrets[j], collection, findVaultKeys) == []) &&
        r.value == ValidationProblem("The keys " + Bracketed(MissingKeys(secrets[i], collection, findVaultKeys)) + " were not found in the secret vault")
  {
    if secrets == [] then None
    else
      var missing := MissingKeys(secrets[0], collection, findVaultKeys);
      assert forall x :: x in secrets <==> x == secrets[0] || x in secrets[1..];
      if missing != [] then
        Some(ValidationProblem("The keys " + Bracketed(missing) + " were not found in the secret vault"))
      else
        var r := FirstMissingKeys(secrets[1..], collection, findVaultKeys);
        if r.Some? then
          var i :| 0 <= i < |secrets[1..]| && MissingKeys(secrets[1..][i], collection, findVaultKeys) != [] &&
            (forall j :: 0 <= j < i ==> MissingKeys(secrets[1..][j], collection, findVaultKeys) == []) &&
            r.value == ValidationProblem("The keys " + Bracketed(MissingKeys(secrets[1..][i], collection, findVaultKeys)) + " were not found in the secret vault");
          assert forall j :: 1 <= j < i + 1 ==> secrets[j] == secrets[1..][j - 1];
          assert secrets[i + 1] == secrets[1..][i];
          r
        else r
  }

  /** `validateSecretVaultFiles`: one error per secret whose file is not in its vault. */
  function ValidateSecretVaultFiles(secrets: seq<AuroraSecret>, collection: string, fileInVault: (string, string, string) -> bool): (r: seq<Problem>)
    ensures |r| <= |secrets|
    ensures forall p :: p in r <==>
      (exists x :: x in secrets && !fileInVault(collection, x.secretVaultName, x.file) &&
                   p == ValidationProblem("File with name=" + x.file + " is not present in vault=" + x.secretVaultName + " in collection=" + collection))
  {
    if secrets == [] then []
    else
      var rest := ValidateSecretVaultFiles(secrets[1..], collection, fileInVault);
      assert forall x :: x in secrets <==> x == secrets[0] || x in secrets[1..];
      var x := secrets[0];
      (if !fileInVault(collection, x.secretVaultName, x.file) then
         [ValidationProblem("File with name=" + x.file + " is not present in vault=" + x.secretVaultName + " in collection=" + collection)]
       else []) + rest
  }

  function SecretNames(secrets: seq<AuroraSecret>): (r: seq<string>)
    ensures |r| == |secrets|
    ensures forall i :: 0 <= i < |secrets| ==> r[i] == secrets[i].name
  {
    seq(|secrets|, i requires 0 <= i < |secrets| => secrets[i].name)
  }

  /** `validateDuplicateSecretEnvNames`: an error listing all names when two secrets
      share a name. */
  function ValidateDuplicateNames(secrets: seq<AuroraSecret>): (r: Option<Problem>)
    ensures r.Some? <==> !NoDuplicates(SecretNames(secrets))
    ensures r.Some? ==> r.value == ValidationProblem("SecretVaults does not have unique names=" + Bracketed(SecretNames(secrets)))
  {
    var names := SecretNames(secrets);
    DistinctShorterIff(names);
    if |names| != |Distinct(names)| then
      Some(ValidationProblem("SecretVaults does not have unique names=" + Bracketed(names)))
    else None
  }

  /** The vault provider, as far as validation asks it. */
  datatype VaultOracle = VaultOracle(
    vaultExists: (string, string) -> bool,
    findVaultKeys: (string, string, string) -> seq<string>,
    fileInVault: (string, string, string) -> bool)

  /** `validate`: nothing unless the validation is full; otherwise the thrown missing-keys
      exception, or the errors of the checks in order (existence, name length, key
      mappings, files, duplicate names). */
  function Validate(s: Spec, files: seq<AuroraConfigFile>, fullValidation: bool, normalize: string -> string, vault: VaultOracle): (r: Result<seq<Problem>, Problem>)
    ensures !fullValidation ==> r == Ok([])
    ensures fullValidation ==>
      var secrets := GetSecretVaults(s, files, normalize);
      (r.Err? <==> FirstMissingKeys(secrets, s.affiliation, vault.findVaultKeys).Some?) &&
      (r.Ok? ==>
         r.value ==
           ValidateVaultExistence(secrets, s.affiliation, vault.vaultExists) + ValidateSecretNames(secrets) +
           ValidateKeyMappings(secrets) + ValidateSecretVaultFiles(secrets, s.affiliation, vault.fileInVault) +
           ToSeq(ValidateDuplicateNames(secrets)))
  {
    if !fullValidation then Ok([])
    else
      var secrets := GetSecretVaults(s, files, normalize);
      var existence := ValidateVaultExistence(secrets, s.affiliation, vault.vaultExists);
      var names := ValidateSecretNames(secrets);
      var mappings := ValidateKeyMappings(secrets);
      match FirstMissingKeys(secrets, s.affiliation, vault.findVaultKeys)
      case Some(thrown) => Err(thrown)
      case None =>
        Ok(existence + names + mappings + ValidateSecretVaultFiles(secrets, s.affiliation, vault.fileInVault) +
           ToSeq(ValidateDuplicateNames(secrets)))
  }

  // ---------------------------------------------------------------------------
  // generate and modify

  /** What the vault gives for one secret: the secret's name and its properties. */
  datatype VaultSecretEnvResult = VaultSecretEnvResult(name: string, secrets: seq<(string, string)>)

  /** The vault provider and property filter, as far as secret generation asks them:
      the files of a vault by name, and the properties of a file after key selection
      and key mapping. */
  datatype VaultData = VaultData(
    findVaultDataSingle: VaultRequest -> map<string, string>,
    filterProperties: (string, seq<string>, Option<seq<(string, string)>>) -> seq<(string, string)>)

  /** The request for the vault data of one secret. */
  function RequestOf(s: Spec, x: AuroraSecret): VaultRequest {
    VaultRequest(s.affiliation, x.secretVaultName, x.secretVaultKeys, x.keyMappings)
  }

  /** Whether the vault has the file of secret `x`. */
  predicate HasVaultFile(s: Spec, x: AuroraSecret, data: VaultData) {
    x.file in data.findVaultDataSingle(RequestOf(s, x))
  }

  /** The vault result of one secret: present exactly when the vault has its file,
      named after the vault with the application prefix, holding the file's properties
      after key selection and key mapping. */
  function SecretEnv(s: Spec, x: AuroraSecret, data: VaultData): (r: Option<VaultSecretEnvResult>)
    ensures r.Some? <==> HasVaultFile(s, x, data)
    ensures r.Some? ==>
      StartsWith(r.value.name, s.name) && r.value.name == EnsureStartWith(x.secretVaultName, s.name, "-") &&
      r.value.secrets == data.filterProperties(data.findVaultDataSingle(RequestOf(s, x))[x.file], x.secretVaultKeys, x.keyMappings)
  {
    var files := data.findVaultDataSingle(RequestOf(s, x));
    if x.file in files then
      Some(VaultSecretEnvResult(EnsureStartWith(x.secretVaultName, s.name, "-"),
                                data.filterProperties(files[x.file], x.secretVaultKeys, x.keyMappings)))
    else None
  }

  /** The secrets whose file the vault has, in order. */
  function SecretsWithFile(s: Spec, secrets: seq<AuroraSecret>, data: VaultData): (r: seq<AuroraSecret>)
    ensures |r| <= |secrets|
    ensures forall x :: x in r <==> x in secrets && HasVaultFile(s, x, data)
  {
    if secrets == [] then []
    else
      assert forall x :: x in secrets <==> x == secrets[0] || x in secrets[1..];
      (if HasVaultFile(s, secrets[0], data) then [secrets[0]] else []) + SecretsWithFile(s, secrets[1..], data)
  }

  /** `mapNotNull` over the secrets: the vault result of each secret whose file the
      vault has, in the order of the secrets. */
  function SecretEnvs(s: Spec, secrets: seq<AuroraSecret>, data: VaultData): (r: seq<VaultSecretEnvResult>)
    ensures var kept := SecretsWithFile(s, secrets, data);
      |r| == |kept| && forall i :: 0 <= i < |r| ==> Some(r[i]) == SecretEnv(s, kept[i], data)
    ensures forall e :: e in r ==> StartsWith(e.name, s.name)
  {
    if secrets == [] then []
    else
      var head := ToSeq(SecretEnv(s, secrets[0], data));
      var rest := SecretEnvs(s, secrets[1..], data);
      var r := head + rest;
      assert forall i :: 0 <= i < |rest| ==> r[|head| + i] == rest[i];
      r
  }

  /** `handleSecretEnv`: the vault data of every secret whose file the vault has. */
  function HandleSecretEnv(s: Spec, files: seq<AuroraConfigFile>, normalize: string -> string, data: VaultData): (r: seq<VaultSecretEnvResult>)
    ensures var kept := SecretsWithFile(s, GetSecretVaults(s, files, normalize), data);
      |r| == |kept| && forall i :: 0 <= i < |r| ==> Some(r[i]) == SecretEnv(s, kept[i], data)
    ensures forall e :: e in r ==> StartsWith(e.name, s.name)
  {
    SecretEnvs(s, GetSecretVaults(s, files, normalize), data)
  }

  /** The secret data: each property's value encoded, later entries winning. */
  function EncodedData(props: seq<(string, string)>, base64: string -> string): (r: map<string, string>)
    ensures forall k :: k in r <==> exists i :: 0 <= i < |props| && props[i].0 == k
    ensures forall k :: k in r ==> exists i :: 0 <= i < |props| && props[i].0 == k && r[k] == base64(props[i].1)
  {
    if props == [] then map[]
    else
      var init := EncodedData(props[..|props| - 1], base64);
      var last := props[|props| - 1];
      assert forall i :: 0 <= i < |props| - 1 ==> props[..|props| - 1][i] == props[i];
      init[last.0 := base64(last.1)]
  }

  function SecretOf(s: Spec, e: VaultSecretEnvResult, base64: string -> string): (r: AuroraResource)
    ensures r.resource == SecretObj(ObjectMeta(e.name, s.namespace, map[], map[]), EncodedData(e.secrets, base64))
    ensures r.createdBy == FeatureName && r.sources == []
  {
    Generated(SecretObj(ObjectMeta(e.name, s.namespace, map[], map[]), EncodedData(e.secrets, base64)), FeatureName, false)
  }

  /** The secrets of the vault results, in order. */
  function SecretsOf(s: Spec, envs: seq<VaultSecretEnvResult>, base64: string -> string): (r: seq<AuroraResource>)
    ensures |r| == |envs|
    ensures forall i :: 0 <= i < |r| ==> r[i] == SecretOf(s, envs[i], base64)
  {
    seq(|envs|, i requires 0 <= i < |envs| => SecretOf(s, envs[i], base64))
  }

  /** The secrets of the vault results collected into a set: equal secrets are kept
      once, in order of first appearance. */
  function SecretSet(s: Spec, envs: seq<VaultSecretEnvResult>, base64: string -> string): (r: seq<AuroraResource>)
    ensures NoDuplicates(r)
    ensures forall x :: x in r <==> exists i :: 0 <= i < |envs| && x == SecretOf(s, envs[i], base64)
    ensures forall x :: x in r ==> exists e :: e in envs && x.resource.meta.name == e.name && x.resource.meta.namespace == s.namespace
    ensures NoDuplicates(SecretsOf(s, envs, base64)) ==> r == SecretsOf(s, envs, base64)
  {
    var all := SecretsOf(s, envs, base64);
    assert forall x :: x in all <==> exists i :: 0 <= i < |envs| && x == all[i];
    assert forall i :: 0 <= i < |envs| ==> envs[i] in envs;
    if NoDuplicates(all) then
      DistinctOfDistinct(all);
      Distinct(all)
    else Distinct(all)
  }

  /** `generate`: one secret per vault result, named with the application prefix, in the
      application's namespace, holding the encoded properties, collected into a set. */
  function Generate(s: Spec, files: seq<AuroraConfigFile>, normalize: string -> string, data: VaultData, base64: string -> string): (r: seq<AuroraResource>)
    ensures NoDuplicates(r)
    ensures forall x :: x in r <==>
      exists i :: 0 <= i < |HandleSecretEnv(s, files, normalize, data)| &&
        x == SecretOf(s, HandleSecretEnv(s, files, normalize, data)[i], base64)
    ensures forall x :: x in r ==>
      StartsWith(x.resource.meta.name, s.name) && x.resource.meta.namespace == s.namespace
    ensures NoDuplicates(SecretsOf(s, HandleSecretEnv(s, files, normalize, data), base64)) ==>
      r == SecretsOf(s, HandleSecretEnv(s, files, normalize, data), base64)
  {
    SecretSet(s, HandleSecretEnv(s, files, normalize, data), base64)
  }

  /** The variables referring to one secret: one per property, named like the key. */
  function SecretRefs(e: VaultSecretEnvResult): (r: seq<EnvVar>)
    ensures |r| == |e.secrets|
    ensures forall i :: 0 <= i < |r| ==> r[i] == EnvVar(e.secrets[i].0, SecretKeyRef(e.name, e.secrets[i].0))
  {
    seq(|e.secrets|, i requires 0 <= i < |e.secrets| => EnvVar(e.secrets[i].0, SecretKeyRef(e.name, e.secrets[i].0)))
  }

  function AllSecretRefs(envs: seq<VaultSecretEnvResult>): (r: seq<EnvVar>)
    ensures forall v :: v in r <==> exists e :: e in envs && v in SecretRefs(e)
  {
    if envs == [] then []
    else
      var rest := AllSecretRefs(envs[1..]);
      assert forall e :: e in envs <==> e == envs[0] || e in envs[1..];
      SecretRefs(envs[0]) + rest
  }

  /** Every variable `modify` adds refers, by name and key, to a secret `generate`
      produces, and that secret holds the key. */
  lemma {:induction false} ModifyRefersToGeneratedSecrets(s: Spec, files: seq<AuroraConfigFile>, normalize: string -> string,
                                                          data: VaultData, base64: string -> string, v: EnvVar)
    requires v in AllSecretRefs(HandleSecretEnv(s, files, normalize, data))
    ensures v.value.SecretKeyRef? && v.value.key == v.name
    ensures exists r :: r in Generate(s, files, normalize, data, base64) &&
                        r.resource.meta.name == v.value.secretName && v.value.key in r.resource.data
  {
    var envs := HandleSecretEnv(s, files, normalize, data);
    var e :| e in envs && v in SecretRefs(e);
    var j :| 0 <= j < |SecretRefs(e)| && SecretRefs(e)[j] == v;
    var i :| 0 <= i < |envs| && envs[i] == e;
    var r := SecretOf(s, e, base64);
    assert r.resource.meta.name == e.name;
    assert e.secrets[j].0 in EncodedData(e.secrets, base64);
    assert r in Generate(s, files, normalize, data, base64);
  }

  /** `modify`: the secret references are given to every deployment config. */
  method Modify(rs: ResourceSet, s: Spec, files: seq<AuroraConfigFile>, normalize: string -> string, data: VaultData)
    modifies rs
    ensures |rs.resources| == |old(rs.resources)|
    ensures forall i :: 0 <= i < |rs.resources| ==>
      rs.resources[i] == WithEnv(old(rs.resources)[i], AllSecretRefs(HandleSecretEnv(s, files, normalize, data)), FeatureName)
  {
    var env := AllSecretRefs(HandleSecretEnv(s, files, normalize, data));
    rs.AddEnvVars(env, FeatureName);
  }
}

=== FILE: spec_renderer.dfy ===
/** The deployment-spec renderer: the fields of a deployment spec, nested by path,
    printed as an aligned pseudo-JSON text in which every leaf line reads
    `key: value // source`. `removeInactive`, `present` and `JsonNode.toString` are
    not part of this model and are parameters. */
module SpecRenderer {
  import opened Wrappers
  import opened JsonTree
  import opened DeploymentSpec
  import opened Strings

  // ---------------------------------------------------------------------------
  // getFieldsForPresentation

  /** A node of the presented fields, under its key: a leaf holds the source of a
      field and the text of its value; an inner node holds the sub-keys below a path,
      in order. */
  datatype Entry = Leaf(key: string, source: string, value: string) | Node(key: string, children: seq<Entry>)

  /** What `removeDefaults` hands on: without defaults, exactly the fields whose value
      is not a handler default. */
  function PresentationInput(includeDefaults: bool, fields: map<string, Field>): (r: map<string, Field>)
    ensures includeDefaults ==> r == fields
    ensures !includeDefaults ==>
      (forall k :: k in r <==> k in fields && !fields[k].isDefault) &&
      (forall k :: k in r ==> r[k] == fields[k])
  {
    if includeDefaults then fields else map k | k in fields && !fields[k].isDefault :: fields[k]
  }

  /** The leaf `present` makes of a field: its source and the text of its value. */
  function LeafOf(key: string, f: Field, toText: Json -> string): (r: Entry)
    ensures r.Leaf? && r.key == key && r.source == f.source && r.value == toText(f.value)
  {
    Leaf(key, f.source, toText(f.value))
  }

  /** `getFieldsForPresentation`: defaults dropped unless asked for, then inactive
      fields, then the rest nested by path with a leaf per field. */
  function FieldsForPresentation(includeDefaults: bool, fields: map<string, Field>,
                                 removeInactive: map<string, Field> -> map<string, Field>,
                                 present: (map<string, Field>, (string, Field) -> Entry) -> seq<Entry>,
                                 toText: Json -> string): seq<Entry>
  {
    present(removeInactive(PresentationInput(includeDefaults, fields)), (k, f) => LeafOf(k, f, toText))
  }

  /** Without defaults, no default field reaches presentation, and with them every
      field does. */
  lemma DefaultsRemovedIff(includeDefaults: bool, fields: map<string, Field>, k: string)
    requires k in fields
    ensures k in PresentationInput(includeDefaults, fields) <==> includeDefaults || !fields[k].isDefault
  {
  }

  // ---------------------------------------------------------------------------
  // findMaxKeyLength / findMaxValueLength

  const Indent: nat := 2

  function Max(a: nat, b: nat): nat {
    if a < b then b else a
  }

  /** What one entry contributes to `findMaxKeyLength`: a leaf its key length plus the
      indentation accumulated so far, an inner node the maximum of its sub-keys. */
  function KeyLength(e: Entry, indent: nat, accumulated: nat): nat
    decreases e
  {
    match e
    case Leaf(key, _, _) => |key| + accumulated
    case Node(_, children) => MaxKeyLength(children, indent, accumulated + indent)
  }

  /** `findMaxKeyLength`: 0 for no entries, otherwise one more than the largest
      contribution; each nesting level thus adds its indentation and one. */
  function MaxKeyLength(es: seq<Entry>, indent: nat, accumulated: nat): (r: nat)
    ensures es == [] <==> r == 0
    ensures forall i :: 0 <= i < |es| ==> KeyLength(es[i], indent, accumulated) + 1 <= r
    decreases es
  {
    if es == [] then 0
    else
      var rest := MaxKeyLength(es[1..], indent, accumulated);
      assert forall i :: 1 <= i < |es| ==> es[i] == es[1..][i - 1];
      Max(KeyLength(es[0], indent, accumulated) + 1, rest)
  }

  /** What one entry contributes to `findMaxValueLength`. */
  function ValueLength(e: Entry): nat
    decreases e
  {
    match e
    case Leaf(_, _, value) => |value|
    case Node(_, children) => MaxValueLength(children)
  }

  /** `findMaxValueLength`: 0 for no entries, otherwise the largest contribution. */
  function MaxValueLength(es: seq<Entry>): (r: nat)
    ensures forall i :: 0 <= i < |es| ==> ValueLength(es[i]) <= r
    ensures es == [] ==> r == 0
    decreases es
  {
    if es == [] then 0
    else
      var rest := MaxValueLength(es[1..]);
      assert forall i :: 1 <= i < |es| ==> es[i] == es[1..][i - 1];
      Max(ValueLength(es[0]), rest)
  }

  /** The key maximum is attained: it is one more than some entry's contribution. */
  lemma {:induction false} MaxKeyLengthAttained(es: seq<Entry>, indent: nat, accumulated: nat)
    requires es != []
    ensures exists i :: 0 <= i < |es| && MaxKeyLength(es, indent, accumulated) == KeyLength(es[i], indent, accumulated) + 1
    decreases es
  {
    if MaxKeyLength(es, indent, accumulated) != KeyLength(es[0], indent, accumulated) + 1 {
      MaxKeyLengthAttained(es[1..], indent, accumulated);
      var j :| 0 <= j < |es[1..]| && MaxKeyLength(es[1..], indent, accumulated) == KeyLength(es[1..][j], indent, accumulated) + 1;
      assert es[1..][j] == es[j + 1];
    }
  }

  /** The value maximum is attained by some entry. */
  lemma {:induction false} MaxValueLengthAttained(es: seq<Entry>)
    requires es != []
    ensures exists i :: 0 <= i < |es| && MaxValueLength(es) == ValueLength(es[i])
    decreases es
  {
    if MaxValueLength(es) != ValueLength(es[0]) {
      MaxValueLengthAttained(es[1..]);
      var j :| 0 <= j < |es[1..]| && MaxValueLength(es[1..]) == ValueLength(es[1..][j]);
      assert es[1..][j] == es[j + 1];
    }
  }

  // ---------------------------------------------------------------------------
  // renderJsonForAuroraDeploymentSpecPointers

  /** `source` and `value` are the keys of a leaf; sub-keys by those names are skipped
      when an inner node is printed. */
  predicate Reserved(key: string) {
    key == "source" || key == "value"
  }

  function Spaces(n: nat): (r: string)
    ensures |r| == n && forall i :: 0 <= i < n ==> r[i] == ' '
  {
    seq(n, _ => ' ')
  }

  /** Every leaf printed at `level` or below gets at least one space of padding after
      its key and after its value, for the maxima `keyMax` and `valueMax`. */
  predicate FitsEntry(level: nat, keyMax: int, valueMax: int, e: Entry)
    decreases e
  {
    match e
    case Leaf(key, _, value) => keyMax + 2 - |key| - level * 2 >= 1 && valueMax + 1 - |value| >= 1
    case Node(_, children) => FitsAll(level + 1, keyMax, valueMax, children, true)
  }

  predicate FitsAll(level: nat, keyMax: int, valueMax: int, es: seq<Entry>, skipReserved: bool)
    decreases es
  {
    forall i :: 0 <= i < |es| ==> (skipReserved && Reserved(es[i].key)) || FitsEntry(level, keyMax, valueMax, es[i])
  }

  /** `renderJson`: a leaf as one line, `key:` padded to the key column, the value
      padded to the source column, then `// source`; an inner node as `key: {`, its
      non-reserved sub-keys one level deeper, and the closing brace. */
  function RenderEntry(level: nat, keyMax: int, valueMax: int, e: Entry): (r: string)
    requires FitsEntry(level, keyMax, valueMax, e)
    ensures StartsWith(r, Spaces(level * 2) + e.key + ":")
    ensures EndsWith(r, "\n")
    decreases e
  {
    var indents := Spaces(level * 2);
    var head := indents + e.key + ":";
    match e
    case Leaf(key, source, value) =>
      var r := head + Spaces(keyMax + 2 - |key| - level * 2) + value + Spaces(valueMax + 1 - |value|) + "// " + source + "\n";
      assert r[..|head|] == head;
      r
    case Node(key, children) =>
      var r := head + " {\n" + RenderAll(level + 1, keyMax, valueMax, children, true) + indents + "}\n";
      assert r[..|head|] == head;
      r
  }

  /** The fold over a node's entries, each rendered in turn after what came before. */
  function RenderAll(level: nat, keyMax: int, valueMax: int, es: seq<Entry>, skipReserved: bool): (r: string)
    requires FitsAll(level, keyMax, valueMax, es, skipReserved)
    ensures (forall i :: 0 <= i < |es| ==> skipReserved && Reserved(es[i].key)) ==> r == ""
    ensures r != "" ==> EndsWith(r, "\n")
    decreases es
  {
    if es == [] then ""
    else
      assert forall i :: 1 <= i < |es| ==> es[i] == es[1..][i - 1];
      (if skipReserved && Reserved(es[0].key) then "" else RenderEntry(level, keyMax, valueMax, es[0]))
      + RenderAll(level, keyMax, valueMax, es[1..], skipReserved)
  }

  /** The maxima computed over all entries leave room for every leaf at every depth:
      the key maximum grows by the indentation and one per level, which more than
      covers the indentation the line spends. */
  lemma {:induction false} MaximaFit(level: nat, keyMax: int, valueMax: int, es: seq<Entry>, skipReserved: bool)
    requires level >= 1
    requires keyMax >= MaxKeyLength(es, 2, 2 * (level - 1)) + level - 1
    requires valueMax >= MaxValueLength(es)
    ensures FitsAll(level, keyMax, valueMax, es, skipReserved)
    decreases es
  {
    forall i | 0 <= i < |es|
      ensures FitsEntry(level, keyMax, valueMax, es[i])
    {
      EntryFits(level, keyMax, valueMax, es[i]);
    }
  }

  /** One entry fits when the key maximum exceeds its contribution by its level. */
  lemma {:induction false} EntryFits(level: nat, keyMax: int, valueMax: int, e: Entry)
    requires level >= 1
    requires keyMax >= KeyLength(e, 2, 2 * (level - 1)) + level
    requires valueMax >= ValueLength(e)
    ensures FitsEntry(level, keyMax, valueMax, e)
    decreases e
  {
    if e.Node? {
      assert KeyLength(e, 2, 2 * (level - 1)) == MaxKeyLength(e.children, 2, 2 * level);
      MaximaFit(level + 1, keyMax, valueMax, e.children, true);
    }
  }

  /** `renderJsonForAuroraDeploymentSpecPointers`: the entries between `{` and `}`,
      aligned on the maxima over all of them. */
  function RenderPointers(fields: seq<Entry>): (r: string)
    ensures |r| >= 3 && r[..2] == "{\n" && r[|r| - 1] == '}'
  {
    var keyMax := MaxKeyLength(fields, Indent, 0);
    var valueMax := MaxValueLength(fields);
    MaximaFit(1, keyMax, valueMax, fields, false);
    var r := "{\n" + RenderAll(1, keyMax, valueMax, fields, false) + "}";
    assert r[..2] == "{\n";
    r
  }

  /** A leaf line is the indentation, `key:`, padding, the value, padding, `// ` and the
      source; every value starts in the same column, and so does every `//`, whatever
      the depth of the leaf. */
  lemma LeafLineLayout(level: nat, keyMax: int, valueMax: int, key: string, source: string, value: string)
    requires FitsEntry(level, keyMax, valueMax, Leaf(key, source, value))
    ensures var line := RenderEntry(level, keyMax, valueMax, Leaf(key, source, value));
      var valueAt := keyMax + 3;
      var commentAt := keyMax + valueMax + 4;
      |line| == commentAt + 3 + |source| + 1 &&
      line[..level * 2] == Spaces(level * 2) &&
      line[level * 2..level * 2 + |key| + 1] == key + ":" &&
      line[level * 2 + |key| + 1] == ' ' &&
      line[valueAt..valueAt + |value|] == value &&
      line[valueAt + |value|] == ' ' &&
      line[commentAt..commentAt + 3] == "// " &&
      line[commentAt + 3..] == source + "\n"
  {
    var indents := Spaces(level * 2);
    var pad1 := Spaces(keyMax + 2 - |key| - level * 2);
    var pad2 := Spaces(valueMax + 1 - |value|);
    LeafLineSlices(indents, key, pad1, value, pad2, source);
  }

  /** The pieces of a leaf line, whatever their contents, sit where their lengths put
      them. */
  lemma LeafLineSlices(indents: string, key: string, pad1: string, value: string, pad2: string, source: string)
    requires |pad1| >= 1 && |pad2| >= 1
    ensures var line := indents + key + ":" + pad1 + value + pad2 + "// " + source + "\n";
      var v := |indents| + |key| + 1 + |pad1|;
      var c := v + |value| + |pad2|;
      |line| == c + 3 + |source| + 1 &&
      line[..|indents|] == indents &&
      line[|indents|..|indents| + |key| + 1] == key + ":" &&
      line[|indents| + |key| + 1] == pad1[0] &&
      line[v..v + |value|] == value &&
      line[v + |value|] == pad2[0] &&
      line[c..c + 3] == "// " &&
      line[c + 3..] == source + "\n"
  {
    var head := indents + key + ":" + pad1;
    var mid := head + value + pad2;
    var line := mid + "// " + source + "\n";
    assert line == mid + ("// " + source + "\n");
    assert line[..|mid|] == mid;
    assert mid[..|head|] == head;
    assert head[..|indents|] == indents;
    assert (indents + key + ":")[|indents|..] == key + ":";
  }

  /** An inner node opens with `key: {` at its indentation and closes with `}` at the
      same indentation. */
  lemma NodeLayout(level: nat, keyMax: int, valueMax: int, key: string, children: seq<Entry>)
    requires FitsEntry(level, keyMax, valueMax, Node(key, children))
    ensures var text := RenderEntry(level, keyMax, valueMax, Node(key, children));
      var n := level * 2;
      |text| >= n + |key| + 4 + n + 2 &&
      text[..n + |key| + 4] == Spaces(n) + key + ": {\n" &&
      text[|text| - n - 2..] == Spaces(n) + "}\n"
  {
    var n := level * 2;
    var open := Spaces(n) + key + ": {\n";
    var body := RenderAll(level + 1, keyMax, valueMax, children, true);
    var close := Spaces(n) + "}\n";
    assert RenderEntry(level, keyMax, valueMax, Node(key, children)) == open + body + close;
    assert (open + body + close)[..|open|] == open;
    assert (open + body + close)[|open + body|..] == close;
  }
}

=== FILE: storage_grid.dfy ===
/** The `StorageGridObjectArea` custom resource: an S3 object area requested from the
    StorageGrid operator, with the metadata and API version accessors Kubernetes
    clients call, its `namespace/name` identifier, and the decoding of the reason the
    operator reports in its status. */
module StorageGrid {
  import opened Wrappers
  import opened Strings

  /** The object metadata as far as this resource uses it; both may be unset. */
  datatype Meta = Meta(name: Option<string>, namespace: Option<string>)

  /** `ObjectMeta()`: nothing set. */
  const EmptyMeta := Meta(None, None)

  datatype ObjectAreaSpec = ObjectAreaSpec(bucketPostfix: string, applicationDeploymentId: string, objectArea: string)

  // ---------------------------------------------------------------------------
  // Status and its reason

  datatype Reason =
    | Undefined
    | SGOAProvisioned
    | AdIdNotBelongToNamespace
    | ApplicationDeploymentDoesNotExist
    | TenantAccountDoesNotExist
    | FailedToProvisionObjectArea
    | SpecConsistencyValidationFailure
    | FailureFromHerkimer
    | InternalError

  const AllReasons: seq<Reason> := [Undefined, SGOAProvisioned, AdIdNotBelongToNamespace, ApplicationDeploymentDoesNotExist,
                                    TenantAccountDoesNotExist, FailedToProvisionObjectArea, SpecConsistencyValidationFailure,
                                    FailureFromHerkimer, InternalError]

  /** `Reason.endState`: whether the operator is done with the object area, successfully
      or for good. */
  predicate EndState(r: Reason) {
    match r
    case Undefined => false
    case FailedToProvisionObjectArea => false
    case FailureFromHerkimer => false
    case _ => true
  }

  /** The enum constant's name, as `toString` and the JSON property give it; it starts
      with a capital letter, so it is never blank. */
  function ReasonName(r: Reason): (n: string)
    ensures |n| > 0 && 'A' <= n[0] <= 'Z'
    ensures !IsBlank(n)
  {
    match r
    case Undefined => "Undefined"
    case SGOAProvisioned => "SGOAProvisioned"
    case AdIdNotBelongToNamespace => "AdIdNotBelongToNamespace"
    case ApplicationDeploymentDoesNotExist => "ApplicationDeploymentDoesNotExist"
    case TenantAccountDoesNotExist => "TenantAccountDoesNotExist"
    case FailedToProvisionObjectArea => "FailedToProvisionObjectArea"
    case SpecConsistencyValidationFailure => "SpecConsistencyValidationFailure"
    case FailureFromHerkimer => "FailureFromHerkimer"
    case InternalError => "InternalError"
  }

  /** The exception `Reason.valueOf` throws for a name that is no constant. */
  datatype UnknownReason = NoEnumConstant(name: string)

  function FindReason(name: string, candidates: seq<Reason>): (r: Option<Reason>)
    ensures r.Some? ==> r.value in candidates && ReasonName(r.value) == name
    ensures r.None? ==> forall c :: c in candidates ==> ReasonName(c) != name
  {
    if candidates == [] then None
    else if ReasonName(candidates[0]) == name then Some(candidates[0])
    else FindReason(name, candidates[1..])
  }

  /** `Reason.valueOf`: the constant with exactly that name, or the exception. */
  function ValueOf(name: string): (r: Result<Reason, UnknownReason>)
    ensures r.Ok? ==> ReasonName(r.value) == name
    ensures r.Err? ==> r.error == NoEnumConstant(name) && forall c: Reason :: ReasonName(c) != name
  {
    match FindReason(name, AllReasons)
    case Some(c) => Ok(c)
    case None =>
      assert forall c: Reason :: ReasonName(c) != name by {
        forall c: Reason ensures ReasonName(c) != name {
          ReasonListed(c);
        }
      }
      Err(NoEnumConstant(name))
  }

  lemma ReasonListed(c: Reason)
    ensures c in AllReasons
  {
    match c
    case Undefined =>
    case SGOAProvisioned =>
    case AdIdNotBelongToNamespace =>
    case ApplicationDeploymentDoesNotExist =>
    case TenantAccountDoesNotExist =>
    case FailedToProvisionObjectArea =>
    case SpecConsistencyValidationFailure =>
    case FailureFromHerkimer =>
    case InternalError =>
  }

  /** No two constants share a name (the names even differ in length). */
  lemma ReasonNameInjective(a: Reason, b: Reason)
    requires ReasonName(a) == ReasonName(b)
    ensures a == b
  {
    assert |ReasonName(a)| == |ReasonName(b)|;
  }

  lemma {:induction false} FindReasonUnique(name: string, candidates: seq<Reason>, r: Reason)
    requires r in candidates && ReasonName(r) == name
    ensures FindReason(name, candidates) == Some(r)
  {
    if ReasonName(candidates[0]) == name {
      ReasonNameInjective(candidates[0], r);
    } else {
      FindReasonUnique(name, candidates[1..], r);
    }
  }

  /** Decoding a constant's name gives the constant back. */
  lemma ValueOfName(r: Reason)
    ensures ValueOf(ReasonName(r)) == Ok(r)
  {
    ReasonListed(r);
    FindReasonUnique(ReasonName(r), AllReasons, r);
  }

  /** Exactly six reasons are end states. */
  lemma EndStates(r: Reason)
    ensures EndState(r) <==>
      r in {SGOAProvisioned, AdIdNotBelongToNamespace, ApplicationDeploymentDoesNotExist,
            TenantAccountDoesNotExist, SpecConsistencyValidationFailure, InternalError}
  {
  }

  /** `StorageGridObjectAreaStatusResult`: the reason travels as its name. */
  datatype StatusResult = StatusResult(message: string, reasonString: string, success: bool)

  /** The result a status starts out with: no message, `Undefined`, not a success. */
  const DefaultStatusResult := StatusResult("", ReasonName(Undefined), false)

  datatype Status = Status(result: StatusResult, retryCount: Option<int>)

  /** The `reason` getter: `Undefined` for a blank reason, otherwise the constant with
      that name; an unknown name raises the exception. */
  function ReasonOf(result: StatusResult): (r: Result<Reason, UnknownReason>)
    ensures IsBlank(result.reasonString) ==> r == Ok(Undefined)
    ensures !IsBlank(result.reasonString) ==> r == ValueOf(result.reasonString)
  {
    if IsBlank(result.reasonString) then Ok(Undefined) else ValueOf(result.reasonString)
  }

  /** Every reason survives being written as its name and read back through the
      getter, and the default result reads as an unfinished `Undefined`. */
  lemma ReasonRoundTrip(result: StatusResult, r: Reason)
    ensures ReasonOf(result.(reasonString := ReasonName(r))) == Ok(r)
    ensures ReasonOf(DefaultStatusResult) == Ok(Undefined) && !DefaultStatusResult.success
    ensures !EndState(ReasonOf(DefaultStatusResult).value)
  {
    ValueOfName(r);
    var n := ReasonName(r);
    assert !IsWhitespace(n[0]);
    ValueOfName(Undefined);
    assert !IsWhitespace(ReasonName(Undefined)[0]);
  }

  // ---------------------------------------------------------------------------
  // The resource

  const DefaultKind := "StorageGridObjectArea"
  const DefaultApiVersion := "skatteetaten.no/v1"

  /** Kotlin's rendering of a possibly unset text in a template: `null` when unset. */
  function NullableText(s: Option<string>): string {
    if s.Some? then s.value else "null"
  }

  /** `fqn`: `namespace/name` when metadata is set, `unknown` otherwise. */
  function FqnOf(metadata: Option<Meta>): (r: string)
    ensures metadata.None? ==> r == "unknown"
    ensures metadata.Some? ==> r == NullableText(metadata.value.namespace) + "/" + NullableText(metadata.value.name)
  {
    match metadata
    case None => "unknown"
    case Some(m) => NullableText(m.namespace) + "/" + NullableText(m.name)
  }

  /** For a namespace and a name without `/`, the identifier splits back into the two. */
  lemma FqnSplits(namespace: string, name: string)
    requires '/' !in namespace && '/' !in name
    ensures Split(FqnOf(Some(Meta(Some(name), Some(namespace)))), '/') == [namespace, name]
  {
    var s := namespace + "/" + name;
    assert FqnOf(Some(Meta(Some(name), Some(namespace)))) == s;
    assert s[|namespace|] == '/';
    var i := FirstIndexOf(s, '/');
    assert forall k :: 0 <= k < |namespace| ==> s[k] == namespace[k];
    assert s[..i] == namespace;
    assert s[i + 1..] == name;
  }

  class StorageGridObjectArea {
    const spec: ObjectAreaSpec
    const status: Option<Status>
    var metadata: Option<Meta>
    const kind: string
    var apiVersion: string

    /** The data class's constructor; Kotlin callers that leave out `_kind` and
        `_apiVersion` pass `DefaultKind` and `DefaultApiVersion`. */
    constructor (spec: ObjectAreaSpec, status: Option<Status>, metadata: Option<Meta>, kind: string, apiVersion: string)
      ensures this.spec == spec && this.status == status && this.metadata == metadata
      ensures this.kind == kind && this.apiVersion == apiVersion
    {
      this.spec := spec;
      this.status := status;
      this.metadata := metadata;
      this.kind := kind;
      this.apiVersion := apiVersion;
    }

    /** `getMetadata`: the metadata, or empty metadata when none is set; never null. */
    function GetMetadata(): (r: Meta)
      reads this
      ensures metadata.Some? ==> r == metadata.value
      ensures metadata.None? ==> r.name.None? && r.namespace.None?
    {
      metadata.GetOr(EmptyMeta)
    }

    function Fqn(): (r: string)
      reads this
      ensures metadata.None? <==> r == "unknown"
    {
      var r := FqnOf(metadata);
      assert metadata.Some? ==> r[|NullableText(metadata.value.namespace)|] == '/';
      r
    }

    /** `setMetadata`: replaces the metadata. */
    method SetMetadata(m: Option<Meta>)
      modifies this
      ensures metadata == m && apiVersion == old(apiVersion)
    {
      metadata := m;
    }

    /** `setApiVersion` as written: it assigns the field its own value, so the version
      passed is ignored. */
    method SetApiVersionAsWritten(version: Option<string>)
      modifies this
      ensures apiVersion == old(apiVersion) && metadata == old(metadata)
    {
      apiVersion := apiVersion;
    }

    /** `setApiVersion` storing the version it is given; a null version keeps the
      current one, the field being non-null. */
    method SetApiVersion(version: Option<string>)
      modifies this
      ensures version.Some? ==> apiVersion == version.value
      ensures version.None? ==> apiVersion == old(apiVersion)
      ensures metadata == old(metadata)
    {
      if version.Some? {
        apiVersion := version.value;
      }
    }
  }

  /** As written, asking a new object area for API version `v2` leaves it at
      `skatteetaten.no/v1`; the corrected setter moves it to `v2`. */
  method ApiVersionAfterSet() returns (asWritten: string, corrected: string)
    ensures asWritten == DefaultApiVersion && corrected == "v2"
  {
    var spec := ObjectAreaSpec("bucket", "adid", "area");
    var a := new StorageGridObjectArea(spec, None, None, DefaultKind, DefaultApiVersion);
    a.SetApiVersionAsWritten(Some("v2"));
    asWritten := a.apiVersion;
    var b := new StorageGridObjectArea(spec, None, None, DefaultKind, DefaultApiVersion);
    b.SetApiVersion(Some("v2"));
    corrected := b.apiVersion;
  }
}

=== FILE: strings.dfy ===
/** The Kotlin string and collection helpers the core relies on, over `seq<char>`. */
module Strings {

  predicate StartsWith(s: string, prefix: string) {
    |prefix| <= |s| && s[..|prefix|] == prefix
  }

  predicate EndsWith(s: string, suffix: string) {
    |suffix| <= |s| && s[|s| - |suffix|..] == suffix
  }

  /** Kotlin `CharSequence.contains(other)`: `sub` occurs somewhere in `s`. */
  predicate Contains(s: string, sub: string)
    decreases |s|
  {
    StartsWith(s, sub) || (|s| > 0 && Contains(s[1..], sub))
  }

  /** Kotlin `removePrefix`: drops `prefix` only when `s` starts with it. */
  function RemovePrefix(s: string, prefix: string): (r: string)
    ensures StartsWith(s, prefix) ==> s == prefix + r
    ensures !StartsWith(s, prefix) ==> r == s
  {
    if StartsWith(s, prefix) then s[|prefix|..] else s
  }

  /** The index of the last `c` in `s`, or -1. */
  function LastIndexOf(s: string, c: char): (r: int)
    ensures -1 <= r < |s|
    ensures r >= 0 ==> s[r] == c && forall j :: r < j < |s| ==> s[j] != c
    ensures r == -1 ==> c !in s
  {
    if |s| == 0 then -1
    else if s[|s| - 1] == c then |s| - 1
    else LastIndexOf(s[..|s| - 1], c)
  }

  /** `removeExtension`, i.e. Kotlin `substringBeforeLast(".")`: everything before
      the last dot, or the whole name when there is no dot. */
  function RemoveExtension(s: string): (r: string)
    ensures StartsWith(s, r)
    ensures '.' !in s ==> r == s
  {
    var i := LastIndexOf(s, '.');
    if i == -1 then s else s[..i]
  }

  /** Kotlin `substringAfterLast(c)`: the text after the last `c`, or `s` without one. */
  function SubstringAfterLast(s: string, c: char): (r: string)
    ensures EndsWith(s, r)
    ensures c !in r
  {
    var i := LastIndexOf(s, c);
    if i == -1 then s else s[i + 1..]
  }

  /** Kotlin `split(c)`: the pieces between separators, empty pieces included. */
  function Split(s: string, c: char): (r: seq<string>)
    ensures |r| >= 1
    ensures c !in s ==> r == [s]
    decreases |s|
  {
    if c !in s then [s]
    else
      var i := FirstIndexOf(s, c);
      [s[..i]] + Split(s[i + 1..], c)
  }

  function FirstIndexOf(s: string, c: char): (i: nat)
    requires c in s
    ensures i < |s| && s[i] == c && c !in s[..i]
  {
    if s[0] == c then 0 else 1 + FirstIndexOf(s[1..], c)
  }

  /** The first piece of a split is the text before the first separator: it holds no
      separator, and when there is one, the separator follows it in `s`. */
  lemma SplitHead(s: string, c: char)
    ensures c !in Split(s, c)[0]
    ensures c !in s ==> Split(s, c)[0] == s
    ensures c in s ==> |Split(s, c)| >= 2 && StartsWith(s, Split(s, c)[0] + [c])
    ensures c in s ==> Split(s, c)[1] == Split(s[|Split(s, c)[0]| + 1..], c)[0]
  {
    if c in s {
      var i := FirstIndexOf(s, c);
      assert Split(s, c)[0] == s[..i];
      assert s[..i] + [c] == s[..i + 1];
    }
  }

  /** A prefix followed, in the rest of the text, by a second prefix makes a prefix. */
  lemma PrefixChain(s: string, p: string, q: string)
    requires StartsWith(s, p) && StartsWith(s[|p|..], q)
    ensures StartsWith(s, p + q)
  {
    assert s[..|p| + |q|] == s[..|p|] + s[|p|..][..|q|];
  }

  /** Every extension of `p` starts with `p`. */
  lemma ExtensionStartsWith(p: string, t: string)
    ensures StartsWith(p + t, p)
  {
    assert (p + t)[..|p|] == p;
  }

  /** Two prefixes of `s` free of `c` that each end where `s` ends or at a `c` are
      the same piece. */
  lemma PieceUnique(s: string, p: string, q: string, c: char)
    requires c !in p && c !in q && StartsWith(s, p) && StartsWith(s, q)
    requires |p| == |s| || s[|p|] == c
    requires |q| == |s| || s[|q|] == c
    ensures p == q
  {
    assert |p| == |q| by {
      assert forall i :: 0 <= i < |q| ==> s[i] == q[i];
      assert forall i :: 0 <= i < |p| ==> s[i] == p[i];
    }
  }

  /** When the text after the prefix `p` is `q`, or starts with `q + "/"`, the whole
      text is `p + q` or starts with `p + q + "/"`. */
  lemma JoinAfterPrefix(s: string, p: string, q: string)
    requires StartsWith(s, p)
    requires s[|p|..] == q || StartsWith(s[|p|..], q + "/")
    ensures s == p + q || StartsWith(s, p + q + "/")
  {
    assert s == p + s[|p|..] by { assert s[..|p|] == p; }
    if s[|p|..] != q {
      PrefixChain(s, p, q + "/");
      assert p + (q + "/") == p + q + "/";
    }
  }

  /** A text starting with `p + q` starts with `p`. */
  lemma PrefixOfPrefix(s: string, p: string, q: string)
    requires StartsWith(s, p + q)
    ensures StartsWith(s, p)
  {
    assert s[..|p|] == (p + q)[..|p|];
  }

  /** Kotlin `joinToString(sep)`. */
  function Join(parts: seq<string>, sep: string): string {
    if |parts| == 0 then ""
    else if |parts| == 1 then parts[0]
    else parts[0] + sep + Join(parts[1..], sep)
  }

  /** Kotlin `Char.isWhitespace`: Java's `isWhitespace` or `isSpaceChar`, i.e. the
      controls U+0009 to U+000D and U+001C to U+001F, and the Unicode space, line and
      paragraph separators (no-break spaces included). */
  predicate IsWhitespace(c: char) {
    var n := c as int;
    (0x09 <= n <= 0x0D) || (0x1C <= n <= 0x20) || n == 0xA0 || n == 0x1680 ||
    (0x2000 <= n <= 0x200A) || n == 0x2028 || n == 0x2029 || n == 0x202F || n == 0x205F || n == 0x3000
  }

  /** Kotlin `isBlank`: empty or whitespace only. */
  predicate IsBlank(s: string) {
    forall i :: 0 <= i < |s| ==> IsWhitespace(s[i])
  }

  function LowerChar(c: char): char {
    if 'A' <= c <= 'Z' then (c as int + 32) as char else c
  }

  /** Kotlin `toLowerCase`, on the ASCII letters only. */
  function ToLower(s: string): (r: string)
    ensures |r| == |s|
    ensures forall i :: 0 <= i < |s| ==> r[i] == LowerChar(s[i])
  {
    if s == [] then [] else [LowerChar(s[0])] + ToLower(s[1..])
  }

  /** Kotlin `replace(from, to)` for single characters. */
  function ReplaceChar(s: string, from: char, to: char): (r: string)
    ensures |r| == |s|
    ensures forall i :: 0 <= i < |s| ==> r[i] == (if s[i] == from then to else s[i])
    ensures from !in s ==> r == s
  {
    if s == [] then [] else [if s[0] == from then to else s[0]] + ReplaceChar(s[1..], from, to)
  }

  /** `ensureStartWith(start, separator)`: `s` when it already starts with `start`,
      otherwise `start + separator + s`. */
  function EnsureStartWith(s: string, start: string, separator: string): (r: string)
    ensures StartsWith(r, start)
    ensures StartsWith(s, start) ==> r == s
    ensures !StartsWith(s, start) ==> r == start + separator + s
  {
    if StartsWith(s, start) then s else start + separator + s
  }

  function DigitChar(d: nat): char
    requires d < 10
  {
    ['0', '1', '2', '3', '4', '5', '6', '7', '8', '9'][d]
  }

  /** Decimal text of a natural number (`Long.toString`). */
  function NatToString(n: nat): (r: string)
    ensures |r| >= 1
  {
    if n < 10 then [DigitChar(n)] else NatToString(n / 10) + [DigitChar(n % 10)]
  }

  /** Decimal text of an integer (`Long.toString`), with a leading `-` when negative. */
  function IntToString(i: int): string {
    if i >= 0 then NatToString(i) else "-" + NatToString(-i)
  }
}

=== FILE: sts_feature.dfy ===
/** The STS feature: an application that asks for a certificate gets a Kubernetes
    secret `<name>-cert` holding the key, the keystore, the certificate and a keystore
    descriptor, and environment variables telling it where those files are mounted.
    The STS provisioner, base64 and the descriptor writer are parameters; so are the
    label and annotation keys, which `StsSecretGenerator` (not part of this model)
    declares. Byte arrays are modelled as strings. */
module StsFeature {
  import opened Wrappers
  import opened Strings
  import opened JsonTree
  import opened FieldHandlers
  import opened DeploymentSpec
  import opened Resources

  const FeatureName := "StsFeature"

  /** The certificate material the provisioner hands back. */
  datatype StsCertificate = StsCertificate(crt: string, key: string, keystore: string, storePassword: string, keyPassword: string)

  /** `StsProvisioningResult`: the common name issued, the material and the epoch second
      after which it should be renewed. */
  datatype StsProvisioningResult = StsProvisioningResult(cn: string, cert: StsCertificate, renewAt: int)

  /** The keys `StsSecretGenerator` declares for the secret's label and annotations. */
  datatype SecretKeys = SecretKeys(renewAfterLabel: string, appAnnotation: string, commonNameAnnotation: string)

  /** The collaborators: `generateCertificate(cn, name, envName)`, base64 encoding and
      `createDescriptorFile(baseUrl, alias, storePassword, keyPassword)`. */
  datatype Oracles = Oracles(
    generateCertificate: (string, string, string) -> StsProvisioningResult,
    base64: string -> string,
    createDescriptorFile: (string, string, string, string) -> string)

  // ---------------------------------------------------------------------------
  // handlers

  /** `handlers`: `certificate`, false by default and allowed as a bare flag, and
      `certificate/commonName`. */
  function Handlers(): (r: seq<Handler>)
    ensures |r| == 2 && Names(r) == ["certificate", "certificate/commonName"]
    ensures r[0].defaultValue == Some(JBool(false)) && r[0].canBeSimplifiedConfig
    ensures r[1] == Plain("certificate/commonName")
  {
    [Handler("certificate", Some(JBool(false)), NoValidation, true), Plain("certificate/commonName")]
  }

  // ---------------------------------------------------------------------------
  // findCertificate

  /** The common name `<groupId>.<name>` a bare `certificate: true` asks for; a missing
      `groupId` reads as empty. */
  function DefaultCommonName(s: Spec, name: string): (r: string)
    ensures |r| > |name| && r[|r| - |name| - 1..] == "." + name
    ensures r[..|r| - |name| - 1] == Text(s, "groupId").GetOr("")
  {
    Text(s, "groupId").GetOr("") + "." + name
  }

  /** `findCertificate`: written out as a sub-tree, the configured common name (if
      any); as a bare flag, nothing when false, otherwise the default common name. */
  function FindCertificate(s: Spec, name: string): (r: Option<string>)
    ensures !IsSimplifiedConfig(s, "certificate") ==>
      (r.Some? <==> "certificate/commonName" in s.fields) &&
      (r.Some? ==> r.value == AsText(s.fields["certificate/commonName"].value))
    ensures IsSimplifiedConfig(s, "certificate") ==>
      (r.Some? <==> Flag(s, "certificate")) &&
      (r.Some? ==> r.value == DefaultCommonName(s, name))
  {
    if !IsSimplifiedConfig(s, "certificate") then Text(s, "certificate/commonName")
    else if !Flag(s, "certificate") then None
    else Some(DefaultCommonName(s, name))
  }

  /** A `certificate` flag that reads true always asks for a certificate. */
  lemma FlagFindsCertificate(s: Spec, name: string)
    requires Flag(s, "certificate")
    ensures FindCertificate(s, name) == Some(DefaultCommonName(s, name))
  {
    assert AsText(s.fields["certificate"].value) == "true";
    assert !s.fields["certificate"].value.JObj?;
  }

  // ---------------------------------------------------------------------------
  // create

  function SecretName(appName: string): string {
    appName + "-cert"
  }

  /** Where the secret is mounted in the container. */
  function MountPath(appName: string): string {
    "/u01/secrets/app/" + SecretName(appName)
  }

  /** The data keys of the certificate secret. */
  const DataKeys: set<string> := {"privatekey.key", "keystore.jks", "certificate.crt", "descriptor.properties"}

  /** `create`: the secret `<appName>-cert` in the given namespace, labelled with the
      renewal second and annotated with the application and the issued common name,
      holding the four certificate files, each base64-encoded. The descriptor names the
      keystore inside the mounted secret and the alias `ca`. */
  function Create(keys: SecretKeys, appName: string, result: StsProvisioningResult, namespace: string, o: Oracles): (r: KubeObject)
    ensures r.SecretObj? && r.meta.name == SecretName(appName) && r.meta.namespace == namespace
    ensures r.meta.labels == map[keys.renewAfterLabel := IntToString(result.renewAt)]
    ensures r.meta.annotations.Keys == {keys.appAnnotation, keys.commonNameAnnotation}
    ensures keys.appAnnotation != keys.commonNameAnnotation ==>
      r.meta.annotations[keys.appAnnotation] == appName && r.meta.annotations[keys.commonNameAnnotation] == result.cn
    ensures r.data.Keys == DataKeys
    ensures r.data["privatekey.key"] == o.base64(result.cert.key)
    ensures r.data["keystore.jks"] == o.base64(result.cert.keystore)
    ensures r.data["certificate.crt"] == o.base64(result.cert.crt)
    ensures r.data["descriptor.properties"] ==
      o.base64(o.createDescriptorFile(MountPath(appName) + "/keystore.jks", "ca", result.cert.storePassword, result.cert.keyPassword))
  {
    var baseUrl := MountPath(appName) + "/keystore.jks";
    var cert := result.cert;
    var descriptor := o.createDescriptorFile(baseUrl, "ca", cert.storePassword, cert.keyPassword);
    SecretObj(
      ObjectMeta(SecretName(appName), namespace,
                 map[keys.renewAfterLabel := IntToString(result.renewAt)],
                 map[keys.appAnnotation := appName, keys.commonNameAnnotation := result.cn]),
      map["privatekey.key" := o.base64(cert.key), "keystore.jks" := o.base64(cert.keystore),
          "certificate.crt" := o.base64(cert.crt), "descriptor.properties" := o.base64(descriptor)])
  }

  // ---------------------------------------------------------------------------
  // generate

  /** The resource wrapping a certificate secret: named after the secret, with
      `-secret` appended. */
  function CertificateResource(keys: SecretKeys, s: Spec, result: StsProvisioningResult, o: Oracles): (r: AuroraResource)
    ensures r == Named(SecretName(s.name) + "-secret", Create(keys, s.name, result, s.namespace, o), FeatureName)
  {
    var secret := Create(keys, s.name, result, s.namespace, o);
    Named(secret.meta.name + "-secret", secret, FeatureName)
  }

  /** `generate` as written: when a certificate is asked for, the provisioner is called
      with an empty common name, so the one found is dropped. */
  function GenerateAsWritten(keys: SecretKeys, s: Spec, o: Oracles): (r: seq<AuroraResource>)
    ensures FindCertificate(s, s.name).None? ==> r == []
    ensures FindCertificate(s, s.name).Some? ==>
      r == [CertificateResource(keys, s, o.generateCertificate("", s.name, s.envName), o)]
  {
    match FindCertificate(s, s.name)
    case None => []
    case Some(_) => [CertificateResource(keys, s, o.generateCertificate("", s.name, s.envName), o)]
  }

  /** `generate`, with the common name found passed on to the provisioner: nothing
      unless a certificate is asked for, otherwise the one certificate secret. */
  function Generate(keys: SecretKeys, s: Spec, o: Oracles): (r: seq<AuroraResource>)
    ensures FindCertificate(s, s.name).None? ==> r == []
    ensures FindCertificate(s, s.name).Some? ==>
      r == [CertificateResource(keys, s, o.generateCertificate(FindCertificate(s, s.name).value, s.name, s.envName), o)]
  {
    match FindCertificate(s, s.name)
    case None => []
    case Some(cn) => [CertificateResource(keys, s, o.generateCertificate(cn, s.name, s.envName), o)]
  }

  /** A provisioner that issues exactly the common name it is asked for. */
  function EchoProvisioner(cn: string, name: string, envName: string): StsProvisioningResult {
    StsProvisioningResult(cn, StsCertificate("", "", "", "", ""), 0)
  }

  /** With the common name passed on, a provisioner that issues what it is asked for
      yields a secret annotated with the configured common name. */
  lemma GenerateAnnotatesConfiguredName(keys: SecretKeys, s: Spec, o: Oracles)
    requires keys.appAnnotation != keys.commonNameAnnotation
    requires !IsSimplifiedConfig(s, "certificate") && "certificate/commonName" in s.fields
    requires forall cn, name, env :: o.generateCertificate(cn, name, env).cn == cn
    ensures var r := Generate(keys, s, o);
      |r| == 1 &&
      r[0].resource.meta.annotations[keys.commonNameAnnotation] == AsText(s.fields["certificate/commonName"].value)
  {
  }

  /** As written, the configured common name never reaches the provisioner: with a
      provisioner that issues what it is asked for, a spec configuring `my.app` gets a
      secret annotated with the empty common name. */
  lemma GenerateAsWrittenDropsCommonName()
    ensures var keys := SecretKeys("renew", "app", "cn");
      var s := Spec(map["certificate/commonName" := Field(JStr("my.app"), "about.json", false)],
                    "app", "ns", "paas", "dev", Development, false);
      var o := Oracles(EchoProvisioner, x => x, (a, b, c, d) => a);
      var r := GenerateAsWritten(keys, s, o);
      |r| == 1 && r[0].resource.meta.annotations["cn"] == "" != "my.app"
  {
    var keys := SecretKeys("renew", "app", "cn");
    var s := Spec(map["certificate/commonName" := Field(JStr("my.app"), "about.json", false)],
                  "app", "ns", "paas", "dev", Development, false);
    assert !IsSimplifiedConfig(s, "certificate");
    assert FindCertificate(s, s.name) == Some("my.app");
  }

  // ---------------------------------------------------------------------------
  // modify

  /** The variables pointing at the mounted certificate files: the certificate, the
      private key and the keystore descriptor, in that order. */
  function StsEnv(appName: string): (r: seq<EnvVar>)
    ensures |r| == 3
    ensures r[0].name == "STS_CERTIFICATE_URL" && r[1].name == "STS_PRIVATE_KEY_URL" && r[2].name == "STS_KEYSTORE_DESCRIPTOR"
    ensures forall i :: 0 <= i < 3 ==> r[i].value == Literal(MountPath(appName) + "/" + EnvFiles[i])
  {
    var dir := MountPath(appName) + "/";
    [EnvVar("STS_CERTIFICATE_URL", Literal(dir + "certificate.crt")),
     EnvVar("STS_PRIVATE_KEY_URL", Literal(dir + "privatekey.key")),
     EnvVar("STS_KEYSTORE_DESCRIPTOR", Literal(dir + "descriptor.properties"))]
  }

  /** The secret files the variables point at, in variable order. */
  const EnvFiles: seq<string> := ["certificate.crt", "privatekey.key", "descriptor.properties"]

  /** `modify`: with `certificate` true, every resource gets the three STS variables;
      otherwise nothing changes. */
  method Modify(rs: ResourceSet, s: Spec)
    modifies rs
    ensures !Flag(s, "certificate") ==> rs.resources == old(rs.resources)
    ensures Flag(s, "certificate") ==>
      |rs.resources| == |old(rs.resources)| &&
      forall i :: 0 <= i < |rs.resources| ==> rs.resources[i] == WithEnv(old(rs.resources)[i], StsEnv(s.name), FeatureName)
  {
    if Flag(s, "certificate") {
      rs.AddEnvVars(StsEnv(s.name), FeatureName);
    }
  }

  /** Every variable `modify` adds names a file of the secret `generate` creates, under
      the path where that secret is mounted. */
  lemma EnvPointsIntoSecret(keys: SecretKeys, s: Spec, o: Oracles)
    requires Flag(s, "certificate")
    ensures var r := Generate(keys, s, o);
      |r| == 1 &&
      forall v :: v in StsEnv(s.name) ==>
        v.value.Literal? &&
        exists file :: file in r[0].resource.data &&
          v.value.text == "/u01/secrets/app/" + r[0].resource.meta.name + "/" + file
  {
    FlagFindsCertificate(s, s.name);
    var r := Generate(keys, s, o);
    assert r[0].resource.meta.name == SecretName(s.name);
    assert r[0].resource.data.Keys == DataKeys;
    forall v | v in StsEnv(s.name)
      ensures v.value.Literal? &&
        exists file :: file in r[0].resource.data && v.value.text == "/u01/secrets/app/" + r[0].resource.meta.name + "/" + file
    {
      var i :| 0 <= i < 3 && StsEnv(s.name)[i] == v;
      assert EnvFiles[i] in DataKeys;
    }
  }
}

=== FILE: wrappers.dfy ===
/** Failure-compatible values used across the model: a Kotlin nullable becomes an
    Option, and a thrown exception on an error path becomes a Result's Err. */
module Wrappers {

  datatype Option<+T> = None | Some(value: T) {
    function GetOr(default: T): T {
      match this
      case Some(v) => v
      case None => default
    }
  }

  datatype Result<+T, +E> = Ok(value: T) | Err(error: E) {
    predicate IsFailure() {
      Err?
    }

    function PropagateFailure<U>(): Result<U, E>
      requires Err?
    {
      Err(error)
    }

    function Extract(): T
      requires Ok?
    {
      value
    }
  }

  /** Kotlin's `listOfNotNull` / `mapNotNull { it }`: the present values, in order. */
  function Somes<T(!new)>(xs: seq<Option<T>>): (r: seq<T>)
    ensures |r| <= |xs|
    ensures forall x :: x in r <==> Some(x) in xs
  {
    if xs == [] then []
    else
      var rest := Somes(xs[1..]);
      assert forall x :: Some(x) in xs <==> xs[0] == Some(x) || Some(x) in xs[1..];
      if xs[0].Some? then [xs[0].value] + rest else rest
  }

  /** `Option` as a zero-or-one element list. */
  function ToSeq<T>(o: Option<T>): (r: seq<T>)
    ensures |r| <= 1
    ensures o.Some? <==> |r| == 1
    ensures o.Some? ==> r[0] == o.value
  {
    if o.Some? then [o.value] else []
  }

  /** When every entry is present, `Somes` keeps all of them, position for position. */
  lemma {:induction false} SomesAllPresent<T(!new)>(xs: seq<Option<T>>)
    requires forall i :: 0 <= i < |xs| ==> xs[i].Some?
    ensures |Somes(xs)| == |xs|
    ensures forall i :: 0 <= i < |xs| ==> Somes(xs)[i] == xs[i].value
  {
    if xs != [] {
      SomesAllPresent(xs[1..]);
    }
  }

}
